=== FILE: README.md ===
# TradeIQ analytics core in Dafny

A Dafny model of the deterministic analytics in the TradeIQ portfolio
backend. The backend takes a portfolio of stock holdings and an investor's
goals, prices the holdings, scores their risk, analyses how they spread over
market categories, advises per goal, forecasts the largest holding, and
combines the results in a pipeline of agents. This project models:

- **Portfolio valuation** (`PortfolioMetrics`). Each holding is priced at the
  last close of its history. Holdings without history are skipped. Values
  become percentage allocations, which are then rolled up per category in
  first-seen order. Historical 1-month, 3-month and 1-year returns are read
  off the summed value series, and only when every holding has history.
- **Risk assessment** (`RiskAssessment`). Three factors, each from 1 to 3:
  diversification, volatility (or a category-weighted estimate when no
  volatility is available), and category concentration. Their average gives
  the low / moderate / high level and one of three default recommendation
  sets.
- **Category analysis** (`CategoryAnalysis`). Dominant categories, missing
  major categories, the diversification level, the Herfindahl–Hirschman
  index and the concentration level.
- **Investment advice** (`InvestmentAdvice`). A goal is matched to one of
  three goal families by keyword. The family and the current risk level give
  a target profile. The advice is the model's reply, or a fixed fallback.
- **Forecasting** (`ForecastFeatures`, `ForecastEngine`). Feature
  preparation: returns, moving averages, RSI, next-day target, and dropping
  incomplete rows. Then the 80/20 split and the recursive day-by-day forecast
  with the features carried forward. Then the forecast metrics, and the
  comparison of a ticker's forecast with SPY and QQQ.
- **Agent pipeline** (`AgentCalls`, `AgentGraph`). The five nodes of the
  analysis graph over a shared state, the error that sticks once set, the
  initial state and the response.
- **Supervisor** (`Supervisor`). The sequential version of the same report,
  the largest-holding lookup and the default goals.
- **Portfolio store** (`PortfolioStorage`). The process-wide store with its
  setters, getters and clear, and the one-instance registry.
- **OCR text parsing** (`StockText`). `SYMBOL: value` lines become a
  dictionary.
- **Response models** (`Models`). The range validators of the request and
  response records.

Shared support modules:

- `Wrappers`: Option and Result.
- `Dicts`: insertion-ordered dictionaries with Python's assignment semantics.
- `JsonValues`: JSON-like values.
- `MarketData`: positive prices and daily bars.

Every loop in the source that updates variables step by step is a method
with loop invariants. Each such method is proved equal to a specification
function, and the properties are proved about that function. List and
dictionary comprehensions, and `sum` over them, are expressions in the
source and are recursive functions here: for example
`CategoryAnalysis.Dominant`, `MissingFrom` and `SumSquares` (the
comprehensions of `assess_categories`), `AgentCalls.CategoryValues` (the
category names both pipelines collect) and `ForecastEngine.NormalisedSeries`
(the normalised forecasts of the comparison). The two pieces of mutable
state are classes:

- the per-asset table that receives its allocations (an array);
- the portfolio store.

Prices, the volatility and standard-deviation computations, the regression
model and the language-model agents are inputs to the model (see "Left out").

## Model

| member | source | states |
|---|---|---|
| Models.NewAsset | Backend/app/Models/models.py:5-7 | An asset is accepted exactly when its quantity is positive. It then carries the given ticker and quantity; otherwise the one failing field is `quantity`. |
| Models.NewCategoryAllocation | Backend/app/Models/models.py:24-26 | Accepted exactly when 0 ≤ allocation ≤ 100; otherwise the failing field is `allocation`. |
| Models.NewSentimentAnalysis | Backend/app/Models/models.py:36-39 | Accepted exactly when 0 ≤ confidence ≤ 1; otherwise the failing field is `confidence`. |
| Models.NewAllocationModel | Backend/app/Models/models.py:60-64 | Accepted exactly when stocks, bonds, cash and other each lie in [0, 100]. On failure the error names exactly the out-of-range fields. |
| Models.DefaultsWhenOmitted | Backend/app/Models/models.py:53-94 | An omitted error is the empty string, omitted details are an empty dictionary, and an omitted forecast plot is absent. |
| Dicts.Put | Backend/app/services/stock.py:10 | Assigning a key gives it the new value and leaves every other key's value. An existing key keeps its position and a new key is appended. Distinct keys stay distinct. |
| JsonValues.In | Backend/app/agents/agents/agent_graph.py:64 | `key in value` tests a dictionary's keys, a string's substrings and a list's elements, and fails exactly on a number, a boolean or None. |
| JsonValues.Lookup | Backend/app/agents/agents/agent_graph.py:64-65 | On a dictionary the guarded read is the key's value or nothing. It fails exactly when the `in` test fails, or succeeds on a string or a list, which cannot be read by a string key. |
| PortfolioMetrics.CategoryOf | Backend/app/agents/tools/portfolio_tools.py:77-79 | The category is one of the ten category names. It is `Other` exactly for tickers outside the category table (lines 14-52). |
| PortfolioMetrics.PricePositions | Backend/app/agents/tools/portfolio_tools.py:105-122 | The first pass returns the sum of price × quantity over the holdings that have history, together with their positions in input order; holdings without history are skipped. |
| PortfolioMetrics.SetAllocations | Backend/app/agents/tools/portfolio_tools.py:125-126 | In place, every row's allocation becomes value / total × 100, or 0 when the total is not positive. All other fields of every row are unchanged. |
| PortfolioMetrics.ValueAssets | Backend/app/agents/tools/portfolio_tools.py:105-126 | The total and the valued holdings equal the specification `TotalValue` / `ValuedAssets`. |
| PortfolioMetrics.CategoriesOf | Backend/app/agents/tools/portfolio_tools.py:129-136 | The rolled-up categories are pairwise distinct, and the last holding's category is among them. |
| PortfolioMetrics.CategoriesOfMembers | Backend/app/agents/tools/portfolio_tools.py:129-134 | A category appears in the roll-up exactly when some valued holding has it. |
| PortfolioMetrics.AddTo | Backend/app/agents/tools/portfolio_tools.py:132-134 | Adding an allocation to a category gives it its old sum (0 when new) plus the amount. No other category changes. A new category is appended after the existing ones, and keys stay distinct. |
| PortfolioMetrics.RollupStep | Backend/app/agents/tools/portfolio_tools.py:130-134 | One more holding keeps the roll-up invariant: the keys are the categories in first-seen order, and each value is that category's total so far. |
| PortfolioMetrics.RollupResult | Backend/app/agents/tools/portfolio_tools.py:136 | Listing the finished dictionary's items gives the category roll-up. |
| PortfolioMetrics.SumByCategory | Backend/app/agents/tools/portfolio_tools.py:129-134 | The loop's dictionary holds every category in first-seen order with the sum of its holdings' allocations. |
| PortfolioMetrics.RollupCategories | Backend/app/agents/tools/portfolio_tools.py:129-136 | The category allocation list equals `CategoryRollup`: one entry per distinct category, valued at that category's total. |
| PortfolioMetrics.CheckAllHaveHistory | Backend/app/agents/tools/portfolio_tools.py:140 | True exactly when every holding has a non-empty price history. |
| PortfolioMetrics.BuildColumns | Backend/app/agents/tools/portfolio_tools.py:144-158 | Holding by holding, the per-ticker value columns (closes × quantity) equal the specification `ValueColumns`. |
| PortfolioMetrics.TotalSeries | Backend/app/agents/tools/portfolio_tools.py:161 | The summed value series is empty without holdings. Otherwise it has one value per day of the first holding's history. |
| PortfolioMetrics.PeriodEntry | Backend/app/agents/tools/portfolio_tools.py:164-183 | A period's return is reported exactly when the series has at least that many days. |
| PortfolioMetrics.ReturnsFromSeries | Backend/app/agents/tools/portfolio_tools.py:164-189 | The method's dictionary equals the specification `SeriesReturns`. |
| PortfolioMetrics.HistoricalReturns | Backend/app/agents/tools/portfolio_tools.py:139-189 | The method's historical returns equal the specification `ReturnsOf`. |
| PortfolioMetrics.CalculatePortfolioMetrics | Backend/app/agents/tools/portfolio_tools.py:94-198 | The method's metrics (total value, valued holdings, category roll-up, returns) equal the specification `MetricsOf`. |
| PortfolioMetrics.ReturnsGate | Backend/app/agents/tools/portfolio_tools.py:139-189 | Returns are empty unless there are holdings and all of them have history. Otherwise, over a series of n days: 1m, 3m and 1y are present exactly when n ≥ 30, 90 and 252; each is the percentage change from n−30, n−90 and n−252 days back; volatility is present exactly when n ≥ 2. |
| PortfolioMetrics.SeriesReturnsGet | Backend/app/agents/tools/portfolio_tools.py:164-189 | The value under each of the four keys of the returns dictionary, for any non-empty series. |
| PortfolioMetrics.PeriodGet | Backend/app/agents/tools/portfolio_tools.py:164-171 | The period entry is the percentage change from `days` back to the last day, present only with enough days. |
| PortfolioMetrics.VolatilityEntry | Backend/app/agents/tools/portfolio_tools.py:186-189 | Volatility is reported exactly when the series has more than one day, and always as a number. |
| PortfolioMetrics.AllocationsSumTo100 | Backend/app/agents/tools/portfolio_tools.py:125-126 | With a positive total value, the holdings' allocations sum to exactly 100. |
| PortfolioMetrics.AllocationBounds | Backend/app/agents/tools/portfolio_tools.py:113-126 | For valid holdings (positive quantities), every valued holding has a positive value and an allocation in (0, 100]. |
| PortfolioMetrics.ValueWithinSum | Backend/app/agents/tools/portfolio_tools.py:113-115 | Each priced holding's value is positive and at most the total. |
| PortfolioMetrics.CategoryTotalBounds | Backend/app/agents/tools/portfolio_tools.py:132-134 | A category's total lies between 0 and the sum of all allocations. |
| PortfolioMetrics.RollupPreservesTotal | Backend/app/agents/tools/portfolio_tools.py:129-136 | Rolling up by category preserves the sum of allocations. |
| PortfolioMetrics.RollupEntriesValid | Backend/app/agents/tools/portfolio_tools.py:136 | Every category entry of a valid portfolio passes the category allocation validator: its share lies in [0, 100]. |
| PortfolioMetrics.PricedDropsUnknown | Backend/app/agents/tools/portfolio_tools.py:112 | A holding without history is dropped and the others are kept. |
| PortfolioMetrics.SinglePosition | Backend/app/agents/tools/portfolio_tools.py:125-126 | A single priced holding gets an allocation of exactly 100. |
| PortfolioMetrics.SingleRollup | Backend/app/agents/tools/portfolio_tools.py:129-136 | A single holding rolls up to one category entry with its allocation. |
| PortfolioMetrics.UnknownTickerSkipped | Backend/app/agents/tools/portfolio_tools.py:105-183 | Scenario: AAPL with history plus an unknown ticker. The total is AAPL's value, AAPL holds 100% in Technology, and there are no historical returns because not every holding has history. |
| RiskAssessment.DefaultRecommendations | Backend/app/agents/tools/portfolio_tools.py:55-74 | Each profile recommends four distinct funds, each with a positive allocation. |
| RiskAssessment.RecommendationsSumTo100 | Backend/app/agents/tools/portfolio_tools.py:55-74 | Each profile's recommended allocations sum to 100. |
| RiskAssessment.ThresholdFactor | Backend/app/agents/tools/portfolio_tools.py:279-286 | The factor is 3 exactly above the high threshold, 2 exactly in (medium, high], and 1 exactly at or below medium. |
| RiskAssessment.DiversificationFactor | Backend/app/agents/tools/portfolio_tools.py:270-276 | The factor is 3 exactly for fewer than 5 holdings and 1 exactly for 10 or more; otherwise it is 2. |
| RiskAssessment.RiskWeight | Backend/app/agents/tools/portfolio_tools.py:289-308 | Every category's risk weight, including the 2.5 for unknown categories, lies in [1, 3]. |
| RiskAssessment.VolatilityFactor | Backend/app/agents/tools/portfolio_tools.py:279-320 | The volatility factor is always 1, 2 or 3, whichever branch applies. |
| RiskAssessment.MaxAllocation | Backend/app/agents/tools/portfolio_tools.py:323-324 | The largest category share is attained by some category and bounds all of them. It is 100 when there are no categories. |
| RiskAssessment.ConcentrationFactor | Backend/app/agents/tools/portfolio_tools.py:323-331 | The concentration factor is always 1, 2 or 3. |
| RiskAssessment.EstimateCategoryRisk | Backend/app/agents/tools/portfolio_tools.py:302-313 | The accumulating loop returns the allocation-weighted average risk weight (2 when nothing is allocated). |
| RiskAssessment.AssessVolatility | Backend/app/agents/tools/portfolio_tools.py:279-320 | The method's factor equals the specification `VolatilityFactor`. |
| RiskAssessment.AssessRisk | Backend/app/agents/tools/portfolio_tools.py:258-359 | The assessment equals the specification `AssessmentOf` applied to the portfolio's metrics. |
| RiskAssessment.LevelBySum | Backend/app/agents/tools/portfolio_tools.py:334-345 | For factors in 1..3 the score lies in [1, 3]. The level is high exactly when the factors sum to 7 or more, moderate exactly at 6, and low exactly at 5 or less. |
| RiskAssessment.AssessmentConsistent | Backend/app/agents/tools/portfolio_tools.py:258-359 | Every assessment has factors in 1..3 and the level their sum dictates. Its profile matches the level, and its recommendations sum to 100. |
| RiskAssessment.WeightedRiskBounds | Backend/app/agents/tools/portfolio_tools.py:302-311 | With non-negative allocations, the weighted risk lies between 1× and 3× the total allocation. |
| RiskAssessment.AverageRiskBounds | Backend/app/agents/tools/portfolio_tools.py:313 | The estimated category risk always lies in [1, 3]. |
| RiskAssessment.AllEtfWeightsOne | Backend/app/agents/tools/portfolio_tools.py:289-311 | An all-ETF portfolio's weighted risk equals its total allocation. |
| CategoryAnalysis.Dominant | Backend/app/agents/tools/portfolio_tools.py:379 | A category is dominant exactly when its share exceeds 20. |
| CategoryAnalysis.DominantInOrder | Backend/app/agents/tools/portfolio_tools.py:379 | The dominant categories appear in the order of their entries in the dict. With distinct keys, none repeats. |
| CategoryAnalysis.MissingFrom | Backend/app/agents/tools/portfolio_tools.py:382-383 | A category is reported missing exactly when it is a major category that is absent or below 5%. |
| CategoryAnalysis.MissingInOrder | Backend/app/agents/tools/portfolio_tools.py:382-383 | The missing categories appear in the order of the major-category list. With distinct majors, none repeats. |
| CategoryAnalysis.DiversificationLevel | Backend/app/agents/tools/portfolio_tools.py:386-394 | "Highly Diversified" exactly from 6 categories, "Well Diversified" exactly for 4 or 5, "Moderately Diversified" exactly for 2 or 3, "Poorly Diversified" exactly below 2. |
| CategoryAnalysis.ConcentrationLevel | Backend/app/agents/tools/portfolio_tools.py:399-404 | "Highly Concentrated" exactly above 3000, "Moderately Concentrated" exactly above 1800 up to 3000, "Not Concentrated" exactly at 1800 or below. |
| CategoryAnalysis.ReportOf | Backend/app/agents/tools/portfolio_tools.py:376-414 | The report carries the roll-up as its category metrics, and its two levels are those of its own category count and index. |
| CategoryAnalysis.ReportOfDistinct | Backend/app/agents/tools/portfolio_tools.py:376-394 | For a roll-up listing each category once, the count is the number of entries. A category is dominant exactly when its entry exceeds 20%, and a major category is missing exactly when it has no entry or one below 5%. |
| CategoryAnalysis.AssessCategories | Backend/app/agents/tools/portfolio_tools.py:371-414 | For a portfolio, the report is about its category roll-up: one category per entry, the HHI of its allocations, the levels of that count and that index, the categories above 20% as dominant and the major ones absent or below 5% as missing. |
| CategoryAnalysis.RollupDict | Backend/app/agents/tools/portfolio_tools.py:376 | Building the category dictionary from the roll-up keeps every entry, in order, because the categories are distinct. |
| CategoryAnalysis.HhiBounds | Backend/app/agents/tools/portfolio_tools.py:397 | For non-negative shares summing to at most 100, the HHI lies in [0, 10000]. |
| CategoryAnalysis.AllocationTotal | Backend/app/agents/tools/portfolio_tools.py:125-126 | The allocations of a valid portfolio sum to 100, or to 0 when nothing is priced. |
| CategoryAnalysis.PortfolioHhiBounds | Backend/app/agents/tools/portfolio_tools.py:371-397 | Every valid portfolio's category HHI lies in [0, 10000]. |
| CategoryAnalysis.HhiAbove | Backend/app/agents/tools/portfolio_tools.py:397-400 | A category above 60% forces the HHI above 3000. |
| CategoryAnalysis.ConcentrationAgreement | Backend/app/agents/tools/portfolio_tools.py:323-400 | When the risk tool scores concentration 3, the category tool calls the portfolio highly concentrated. |
| CategoryAnalysis.EmptyRollupDisagreement | Backend/app/agents/tools/portfolio_tools.py:324-404 | With no categories the two tools disagree: the risk tool scores concentration 3, while the category tool reports "Not Concentrated". |
| CategoryAnalysis.SingleCategory | Backend/app/agents/tools/portfolio_tools.py:376-404 | One category at 100% has HHI 10000 and is highly concentrated and poorly diversified. It is the single dominant category, and every other major category is missing. |
| InvestmentAdvice.FirstMentioned | Backend/app/agents/tools/portfolio_tools.py:458-462 | The chosen goal family is one whose keyword the goal mentions. None is chosen exactly when no family is mentioned. |
| InvestmentAdvice.MatchedGoalFirst | Backend/app/agents/tools/portfolio_tools.py:458-462 | Families are tried in the order retirement, home purchase, aggressive growth, and the first one mentioned wins. With no keyword the goal defaults to retirement. |
| InvestmentAdvice.MatchGoal | Backend/app/agents/tools/portfolio_tools.py:458-462 | The keyword loop returns the specification `MatchedGoal`. |
| InvestmentAdvice.TargetDirection | Backend/app/agents/tools/portfolio_tools.py:433-449 | Retirement never raises the risk profile and caps it at moderate. Home purchase is always low risk. Aggressive growth never lowers the profile, and raises it one step below high. |
| InvestmentAdvice.DisplayMatchesLevel | Backend/app/agents/tools/portfolio_tools.py:525 | Title-casing the profile key with underscores as spaces gives the level's display name. |
| InvestmentAdvice.FallbackAllocationValid | Backend/app/agents/tools/portfolio_tools.py:512-517 | The fallback allocation reads as 60/30/10/0, passes the allocation model validator, and its shares total 100. |
| InvestmentAdvice.FallbackAdviceWellFormed | Backend/app/agents/tools/portfolio_tools.py:504-519 | The fallback advice has three recommendations and the fallback allocation model. |
| InvestmentAdvice.ProvideInvestmentAdvice | Backend/app/agents/tools/portfolio_tools.py:426-528 | The advice equals the specification `AdviceFor` at the portfolio's assessed risk level. |
| InvestmentAdvice.AdviceConsistent | Backend/app/agents/tools/portfolio_tools.py:521-528 | The advice's target is the display name of the matched goal's target profile, with that profile's four recommendations summing to 100. The advice is the model's reply, or the fallback when there is none. |
| InvestmentAdvice.BuyAHouseIsHomePurchase | Backend/app/agents/tools/portfolio_tools.py:452-462 | "Buy a house" is matched to home purchase. |
| InvestmentAdvice.HousePurchaseScenario | Backend/app/agents/tools/portfolio_tools.py:426-528 | A high-risk portfolio saving for a house is advised toward "Low Risk" with the low-risk recommendations, and gets the fallback advice when the model gives no reply. |
| ForecastFeatures.PrepareStockData | Backend/app/agents/tools/forecasting_tools.py:15-45 | Preparation fails exactly on an empty history, with the no-data error naming the ticker. |
| ForecastFeatures.RowAt | Backend/app/agents/tools/forecasting_tools.py:34-43 | A prepared row carries its day's date and close, with the next day's close as its target. |
| ForecastFeatures.SurvivorsUpTo | Backend/app/agents/tools/forecasting_tools.py:43 | The kept rows are exactly the days with every feature and a target defined, in increasing order. |
| ForecastFeatures.GainPart | Backend/app/agents/tools/forecasting_tools.py:50-51 | A day's gain is never negative. |
| ForecastFeatures.LossPart | Backend/app/agents/tools/forecasting_tools.py:50-52 | A day's loss is never negative. |
| ForecastFeatures.GainLossNonNegative | Backend/app/agents/tools/forecasting_tools.py:51-52 | The 14-day mean gain and mean loss are never negative. |
| ForecastFeatures.RsiIsGainShare | Backend/app/agents/tools/forecasting_tools.py:54-55 | RSI is 100 × gain / (gain + loss), within [0, 100]. It is undefined exactly when both are 0. |
| ForecastFeatures.PreparedRowsHaveTargets | Backend/app/agents/tools/forecasting_tools.py:37-43 | Every prepared row comes from a day with a full 50-day window (day 49 on) that has a following day. |
| ForecastFeatures.SurvivorsArePrepared | Backend/app/agents/tools/forecasting_tools.py:43 | Every day with all features defined appears as a prepared row. |
| ForecastFeatures.ShortHistoryPreparesNothing | Backend/app/agents/tools/forecasting_tools.py:37-43 | A history of at most 50 days prepares no rows. |
| ForecastFeatures.PreparedInOrder | Backend/app/agents/tools/forecasting_tools.py:43 | Prepared rows keep the history's date order. |
| ForecastFeatures.TrainSize | Backend/app/agents/tools/forecasting_tools.py:75 | The training size never exceeds the row count. |
| ForecastFeatures.SplitPartition | Backend/app/agents/tools/forecasting_tools.py:75-77 | Training then test rows give back all rows, with int(0.8·n) training rows. The test set is never empty. Training is non-empty exactly from 2 rows on. |
| ForecastEngine.Trace | Backend/app/agents/tools/forecasting_tools.py:104-123 | n forecast days yield n predictions, each a positive price. |
| ForecastEngine.ForecastLoop | Backend/app/agents/tools/forecasting_tools.py:99-123 | The loop fills a new array of `days` slots with the specification trace's predictions. |
| ForecastEngine.TracePrefix | Backend/app/agents/tools/forecasting_tools.py:104-111 | Forecasting more days does not change the earlier days' predictions. |
| ForecastEngine.ForecastIsPrediction | Backend/app/agents/tools/forecasting_tools.py:106-111 | Day i's forecast is the model's prediction on the features carried to day i. |
| ForecastEngine.CarriedFeatures | Backend/app/agents/tools/forecasting_tools.py:114-123 | After a step, the volatility, RSI and volume are the history's last values and MA50 is unchanged. The return is kept after the first step and 0 afterwards. |
| ForecastEngine.StepCarries | Backend/app/agents/tools/forecasting_tools.py:114-123 | One step updates the carried features as `CarriedFeatures` states. |
| ForecastEngine.Ma5First | Backend/app/agents/tools/forecasting_tools.py:116 | On the first step, MA5 averages the last four closes and the prediction. |
| ForecastEngine.Ma5Later | Backend/app/agents/tools/forecasting_tools.py:117 | On later steps, MA5 averages the last (up to five) forecasts. |
| ForecastEngine.Ma20Window | Backend/app/agents/tools/forecasting_tools.py:118-119 | MA20 is the sum of its terms over 20. The terms number exactly 20 only for the first 19 steps, where they are the last 20 of closes and forecasts. |
| ForecastEngine.ForecastDates | Backend/app/agents/tools/forecasting_tools.py:100 | One forecast date per forecast day. |
| ForecastEngine.DatesOneDayApart | Backend/app/agents/tools/forecasting_tools.py:100 | The forecast dates start the day after the last date, are one day apart, and increase. |
| ForecastEngine.PercentChangeMeaning | Backend/app/agents/tools/forecasting_tools.py:129 | The percentage change is positive exactly for a rise and zero exactly for no change, and applying it to the last close gives the final forecast. |
| ForecastEngine.TrainAndForecastOf | Backend/app/agents/tools/forecasting_tools.py:59-132 | Training fails exactly with fewer than 2 rows. There is no forecast exactly for non-positive days. On success the dates are the `days` days after the last row, the prices are the predictor's day-by-day forecast from the last row (`Trace`), the error is the mean absolute error of the fitted predictor on the test rows, and the metrics hold the last close, the final forecast and their percentage change. |
| ForecastEngine.TrainAndForecast | Backend/app/agents/tools/forecasting_tools.py:59-132 | The method's result equals the specification `TrainAndForecastOf`. |
| ForecastFeatures.MeanAbsoluteErrorBounds | Backend/app/agents/tools/forecasting_tools.py:95-96 | The mean absolute error is never negative, and it is zero exactly when every prediction equals its target. |
| ForecastEngine.ForecastOf | Backend/app/agents/tools/forecasting_tools.py:213-216 | Forecasting fails with the no-data error exactly for an empty history. On success it yields `days` plottable prices. |
| ForecastEngine.Records | Backend/app/agents/tools/forecasting_tools.py:226 | The forecast records pair each date with its price, in order. |
| ForecastEngine.ForecastStockOf | Backend/app/agents/tools/forecasting_tools.py:209-230 | The tool fails exactly when the forecast fails, with its error. On success it reports the ticker, the days and the forecast's metrics. Its records pair each forecast date with its predicted close (`Records`), one per day. |
| ForecastEngine.RunForecast | Backend/app/agents/tools/forecasting_tools.py:213-216 | The method's result equals the specification `ForecastOf`. |
| ForecastEngine.ForecastStock | Backend/app/agents/tools/forecasting_tools.py:209-230 | The method's result equals the specification `ForecastStockOf`. |
| ForecastEngine.Normalise | Backend/app/agents/tools/forecasting_tools.py:270-271 | A normalised series has the same length and starts at 0. |
| ForecastEngine.NormaliseKeepsOrder | Backend/app/agents/tools/forecasting_tools.py:270-271 | Normalising preserves the order between any two days. |
| ForecastEngine.CollectKeepsKeys | Backend/app/agents/tools/forecasting_tools.py:257-263 | The index loop keeps every result already collected. |
| ForecastEngine.CollectHasSymbols | Backend/app/agents/tools/forecasting_tools.py:257-263 | After the index loop, every index has a result. |
| ForecastEngine.CollectPlottable | Backend/app/agents/tools/forecasting_tools.py:257-263 | Every collected forecast is non-empty with a positive first price. |
| ForecastEngine.ComparableResults | Backend/app/agents/tools/forecasting_tools.py:249-271 | After the loop the results hold the ticker, SPY and QQQ, all of which can be normalised. |
| ForecastEngine.NormalisedSeries | Backend/app/agents/tools/forecasting_tools.py:268-271 | One normalised series per symbol, in the same order, each starting at 0. |
| ForecastEngine.CompareForecasts | Backend/app/agents/tools/forecasting_tools.py:242-309 | The method's result equals the specification `CompareOf`. |
| ForecastEngine.CollectIndices | Backend/app/agents/tools/forecasting_tools.py:257-263 | The index loop `Collect` fails with SPY's error, else with QQQ's, else adds both forecasts. |
| ForecastEngine.CompareFails | Backend/app/agents/tools/forecasting_tools.py:244-309 | The comparison `CompareOf` fails exactly when one of the three forecasts fails, with the first failure's error. |
| ForecastEngine.CompareMetrics | Backend/app/agents/tools/forecasting_tools.py:299-306 | A comparison `CompareOf` reports the ticker's own metrics and SPY's and QQQ's metrics. |
| ForecastEngine.ResultSymbols | Backend/app/agents/tools/forecasting_tools.py:251-263 | The results' symbols are the ticker, SPY and QQQ in insertion order, without duplicates when the ticker is an index. |
| ForecastEngine.CompareSymbols | Backend/app/agents/tools/forecasting_tools.py:269-279 | The normalised series are keyed by those same symbols. |
| StockText.SplitLines | Backend/app/services/stock.py:6 | No line contains a line break. There are no lines exactly for empty text. Text without a break is one line. |
| StockText.SplitJoin | Backend/app/services/stock.py:6 | For `\n`-separated text without a trailing break, joining the lines gives back the text. |
| StockText.Strip | Backend/app/services/stock.py:10 | Stripping removes only leading and trailing whitespace, and leaves none at either end. |
| StockText.EntryOf | Backend/app/services/stock.py:8-10 | A line without a colon is skipped. A line with two or more colons fails to unpack. A line with one colon gives the stripped symbol and value on its two sides. |
| StockText.ParseFrom | Backend/app/services/stock.py:7-10 | Parsing fails only with the unpacking error. |
| StockText.ProcessOf | Backend/app/services/stock.py:4-11 | Empty text gives an empty dictionary. |
| StockText.ProcessExtractedText | Backend/app/services/stock.py:4-11 | The line loop's result equals the specification `ProcessOf`. |
| StockText.FailsIffTooMany | Backend/app/services/stock.py:9 | Parsing a sequence of lines fails exactly when one of them has too many colons. |
| StockText.FailsIffManyColons | Backend/app/services/stock.py:9 | Processing text fails exactly when some line has two or more colons. |
| StockText.LastValueMeaning | Backend/app/services/stock.py:10 | The value looked up for a symbol is that of the last line naming it, and there is none when no line names it. |
| StockText.LastLineWins | Backend/app/services/stock.py:7-10 | After parsing, a symbol holds the value of its last line, or its earlier value when no line names it. |
| StockText.ProcessResult | Backend/app/services/stock.py:4-11 | In a successful result, each symbol maps to the value on the last line naming it. |
| AgentCalls.DefaultGoalsDistinct | Backend/app/agents/agents/agent_graph.py:187 | The three default goals are distinct. |
| AgentCalls.Field | Backend/app/agents/agents/agent_graph.py:52-53 | Reading a field gives its value, or an empty object when the key is absent. |
| AgentCalls.FirstMaxIndex | Backend/app/agents/agents/supervisor_agent.py:70-71 | The chosen index holds the maximum, and every earlier index is strictly smaller. This is what a stable descending sort puts first. |
| AgentCalls.CategoryValue | Backend/app/agents/agents/agent_graph.py:72 | A dictionary entry gives its `category` value, or the KeyError text when it has none. A string or a list fails as not subscriptable by a string, and any other value fails too. |
| AgentCalls.CategoryValues | Backend/app/agents/agents/agent_graph.py:72 | The comprehension succeeds exactly when every subscript does, giving the values in order. Otherwise the first failing entry's error is the result. |
| AgentCalls.CategoryNamesOf | Backend/app/agents/agents/agent_graph.py:71-79 | The names are collected exactly when every entry has a string `category`, one name per entry, in order. The first failing subscript decides the error. When every subscript succeeds, the join fails with `MalformedText` exactly when some value is not a string. |
| AgentCalls.SubscriptsBeforeJoin | Backend/app/agents/agents/agent_graph.py:72-79 | For entries `{"category": 5}` and `{}`, the error is the KeyError of the second entry, not the join's. |
| AgentCalls.CategoryNames | Backend/app/agents/agents/agent_graph.py:70-72 | When `'category_metrics' in analysis` is false the name list is empty; when the test or the read fails, so do the names. With a list, it holds the entries' names. An empty string or dictionary gives no names, and a non-empty one fails. A number, boolean or None fails. A value that is not a dictionary gives names exactly when it does not contain the key. |
| AgentCalls.AdviceContents | Backend/app/agents/agents/agent_graph.py:114-121 | A successful loop maps every goal to its advisor's answer and leaves other keys alone. Its keys are the earlier keys plus the goals, all distinct. |
| AgentCalls.AdviceByGoal | Backend/app/agents/agents/agent_graph.py:114-121 | The method's per-goal dictionary equals the specification `CollectAdvice`. |
| AgentCalls.AdviceKeysInOrder | Backend/app/agents/agents/agent_graph.py:114-121 | For distinct goals, the advice keys are the goals in the order given. |
| AgentCalls.AdviceFails | Backend/app/agents/agents/agent_graph.py:114-125 | The advice loop fails exactly when some goal's call fails. |
| AgentCalls.AdviceFirstError | Backend/app/agents/agents/agent_graph.py:114-125 | A failing loop reports the error of the first goal that failed; all earlier goals succeeded. |
| AgentGraph.RiskAssessmentNode | Backend/app/agents/agents/agent_graph.py:41-56 | On success only the risk and category fields change, to the advisor result's fields (empty when missing). On failure only the error changes, to the prefixed message. |
| AgentGraph.BelowOrder | Backend/app/agents/agents/agent_graph.py:67 | Python's `<` within one kind of key is a strict total order: irreflexive, asymmetric, transitive and total. For strings this is code-point order, a proper prefix first. |
| AgentGraph.AllocationKey | Backend/app/agents/agents/agent_graph.py:67 | A missing allocation sorts as 0. A boolean sorts as 0 or 1 among numbers. A number or a string sorts as itself. Exactly None, a list or a dictionary has no key. |
| AgentGraph.FirstMaxKey | Backend/app/agents/agents/agent_graph.py:67 | No key exceeds the chosen one, and every earlier key is strictly below it. `max` replaces its pick only on a strictly greater key. |
| AgentGraph.TickerOf | Backend/app/agents/agents/agent_graph.py:94 | Indexing `ticker` succeeds exactly when the key is present, and returns its value. |
| AgentGraph.LargestIsFirstMaximal | Backend/app/agents/agents/agent_graph.py:89-94 | With two or more holdings, keys that cannot all be compared fail the lookup. Otherwise the result is the ticker of the first holding whose key no other key exceeds. |
| AgentGraph.LargestByText | Backend/app/agents/agents/agent_graph.py:94 | Allocations "10" and "9" compare as text, so the holding with "9" is the largest. |
| AgentGraph.LargestTicker | Backend/app/agents/agents/agent_graph.py:90-94 | A failing `in` test or read fails the lookup with its error. Without the key, or with an empty list, there is no largest ticker. With a non-empty list it is `LargestOf` the holdings. Holdings that are not a list succeed exactly when they are falsy, and then there is no ticker. A ticker is only found in a dictionary holding `assets`. |
| AgentGraph.MarketAnalysisNode | Backend/app/agents/agents/agent_graph.py:59-83 | A failing ticker lookup or category-name read sets only the error, to the market prefix and its text. Otherwise the analyst is asked about the largest ticker and the category names: its answer replaces only the market analysis, its failure sets only the prefixed error. |
| AgentGraph.ForecastingNode | Backend/app/agents/agents/agent_graph.py:86-108 | A failing ticker lookup sets only the error, to the forecasting prefix and its text. A missing or falsy ticker sets only the error, to the no-ticker message. Otherwise the forecaster is asked for 30 days of that ticker: its answer replaces only the forecast, its failure sets only the prefixed error. |
| AgentGraph.InvestmentAdviceNodeOf | Backend/app/agents/agents/agent_graph.py:111-125 | On success the new state is the old one with the advice set to the collected answers (`CollectAdvice`); those map exactly the goals to their answers. On failure only the error changes, to the advice prefix and the failing call's text. |
| AgentGraph.InvestmentAdviceNode | Backend/app/agents/agents/agent_graph.py:111-125 | The method's state equals the specification `InvestmentAdviceNodeOf`. |
| AgentGraph.ReportGeneratorNode | Backend/app/agents/agents/agent_graph.py:128-156 | The writer gets the five sections in order. On success the new state is the old one with the final report set to its text; its failure sets only the error, to the report prefix and its text. |
| AgentGraph.Stages | Backend/app/agents/agents/agent_graph.py:166-178 | The graph passes through six states from the initial one, each node keeping or setting the error. |
| AgentGraph.RunGraph | Backend/app/agents/agents/agent_graph.py:166-207 | The method's state equals the specification `GraphOf`. |
| AgentGraph.ErrorSticks | Backend/app/agents/agents/agent_graph.py:41-156 | Once a node sets an error, every later state still has one. |
| AgentGraph.GraphErrorFree | Backend/app/agents/agents/agent_graph.py:166-178 | The analysis `GraphOf` ends without error exactly when it started without one and no node set one. |
| AgentGraph.RouterStopsAfterFailure | Backend/app/agents/agents/agent_graph.py:159-163 | After a node sets an error, `Router` would route to the end. |
| AgentGraph.InitialState | Backend/app/agents/agents/agent_graph.py:186-204 | The initial state uses the given goals or the three defaults. It has no error, no report and empty sections, and routes to risk assessment. |
| AgentGraph.Output | Backend/app/agents/agents/agent_graph.py:210-219 | The response carries the final report, the error, and the five sections in order. Each section's key reads that section of the final state. |
| AgentGraph.RunFinancialAnalysis | Backend/app/agents/agents/agent_graph.py:184-219 | The response equals the output of the graph run from the initial state. |
| AgentGraph.TailWithoutHolding | Backend/app/agents/agents/agent_graph.py:96-156 | From a state with no largest holding, forecasting, advice and report keep the forecast as it was and end with an error. |
| AgentGraph.NoHoldingsNoForecast | Backend/app/agents/agents/agent_graph.py:89-97 | When the category analysis does not contain `assets`, the analysis ends with an error and an empty forecast. |
| Supervisor.FindLargestHolding | Backend/app/agents/agents/supervisor_agent.py:63-73 | The lookup fails, with the chart error, exactly when nothing is valued: the allocation pie chart drawn first (Backend/app/agents/tools/portfolio_tools.py:209-215) raises on an empty table. Otherwise it is the ticker of the first holding with the largest allocation. |
| Supervisor.LargestHoldingHasLargestValue | Backend/app/agents/agents/supervisor_agent.py:63-73 | The largest holding by allocation is the first with the largest market value. |
| AgentCalls.Sections | Backend/app/agents/agents/supervisor_agent.py:75-126 | The report holds the five sections, in order and under distinct keys. |
| Supervisor.GenerateFinancialReport | Backend/app/agents/agents/supervisor_agent.py:75-126 | The method's result equals the specification `ReportOf`. |
| Supervisor.ReportSucceedsIff | Backend/app/agents/agents/supervisor_agent.py:75-126 | The report `ReportOf` succeeds exactly when some holding is valued and every agent call it makes succeeds. |
| Supervisor.ReportSections | Backend/app/agents/agents/supervisor_agent.py:75-126 | A successful report `ReportOf` has a largest holding and the five sections. Its forecast is that of the largest holding, and its advice answers every goal. |
| Supervisor.RunOf | Backend/app/agents/agents/supervisor_agent.py:128-148 | A missing portfolio gives the portfolio-required error. Otherwise the output is the formatted report `ReportOf`, with the raw report data alongside. The run fails exactly when the report or its formatting fails, and with that step's error. |
| Supervisor.Run | Backend/app/agents/agents/supervisor_agent.py:128-148 | The method's result equals the specification `RunOf`. |
| Supervisor.DefaultGoalsUsed | Backend/app/agents/agents/supervisor_agent.py:135 | Omitting the goals is the same as passing the three default goals, whose advice keys come out in order. |
| PortfolioStorage.PortfolioStore.constructor | Backend/app/config/__init__.py:15-20 | A new store holds no assets and no raw data. |
| PortfolioStorage.PortfolioStore.StorePortfolio | Backend/app/config/__init__.py:22-24 | The assets are replaced and the raw data kept. |
| PortfolioStorage.PortfolioStore.StoreRawData | Backend/app/config/__init__.py:26-28 | The raw data is replaced and the assets kept. |
| PortfolioStorage.PortfolioStore.GetPortfolio | Backend/app/config/__init__.py:30-32 | Returns the stored assets. |
| PortfolioStorage.PortfolioStore.GetRawData | Backend/app/config/__init__.py:34-36 | Returns the stored raw data. |
| PortfolioStorage.PortfolioStore.Clear | Backend/app/config/__init__.py:38-41 | Both assets and raw data are emptied. |
| PortfolioStorage.StoreRegistry.constructor | Backend/app/config/__init__.py:13 | No instance exists before the first construction. |
| PortfolioStorage.StoreRegistry.Instance | Backend/app/config/__init__.py:15-20 | The first construction makes and keeps an empty store. Every later one returns that same store, untouched. |
| PortfolioStorage.SharedStore | Backend/app/config/__init__.py:15-32 | What is stored through one handle is read back through a second construction. |

## Left out

- Price data: fetching histories (`_get_stock_data`, Backend/app/agents/tools/portfolio_tools.py:82-91, and the download in Backend/app/agents/tools/forecasting_tools.py:27-28) is network I/O. The model takes a ticker-to-history map (`PriceLookup`) or a history function (`Histories`) as input, and a missing or empty history stands for a failed download.
- Date alignment: the summed value series assumes all holdings' histories cover the same trading days. pandas' alignment by date and NaN propagation are not modelled; a shorter column adds 0 on the days it lacks.
- Annualised volatility (Backend/app/agents/tools/portfolio_tools.py:186-189) and the rolling standard deviation feature (Backend/app/agents/tools/forecasting_tools.py:38) are floating-point statistics. The model takes them as function inputs (`VolatilityOf`, `StdOf`). What is stated is when volatility is reported, not its value.
- PortfolioMetrics.VolatilityEntry: states when the volatility key is present, not its value, which is the `VolatilityOf` input.
- The XGBoost regressor (Backend/app/agents/tools/forecasting_tools.py:80-92) is a foreign library. It is the `Trainer` input returning a `Predictor`, whose predictions are positive prices. Fitting on an empty training set is modelled as the generic `TrainingFailed` error.
- The mean absolute error (Backend/app/agents/tools/forecasting_tools.py:95-96) is modelled as a plain mean of absolute errors.
- Fewer than one forecast day gives the `NoForecastDays` error. The source would fail with an index error when reading the last prediction.
- ForecastEngine.Trace: states the number and positivity of the predictions. Their values are given by `ForecastIsPrediction` and `CarriedFeatures` rather than by a closed formula, because the predictor is an input.
- Pearson correlations between the normalised forecasts (Backend/app/agents/tools/forecasting_tools.py:292-297) are floating-point statistics and are not modelled. The comparison keeps the normalised series and the metrics.
- Plotly figures: the portfolio visualisation (Backend/app/agents/tools/portfolio_tools.py:204-246) is modelled only through its one effect on the supervisor: its pie chart of an empty table raises, so the largest-holding lookup fails with `EmptyChart` when nothing is valued. The figures themselves, the forecast plot (Backend/app/agents/tools/forecasting_tools.py:135-203) and the comparison figure (265-289) are presentation only. The forecast plot field is always absent.
- The language model: prompts, invocation and JSON parsing in the advice tool (Backend/app/agents/tools/portfolio_tools.py:471-497) are an optional parsed reply. When there is none, the fallback advice is used.
- The agents behind the graph nodes and the supervisor (financial advisor, market analyst, forecaster, report writer, formatter) are function inputs returning a result or an error message. Their construction, prompts and tool wiring are left out.
- StockText.ProcessOf: states only the empty text. The rest of its meaning is in `FailsIffManyColons` and `ProcessResult`.
- RiskAssessment.VolatilityFactor and RiskAssessment.ConcentrationFactor: state the range 1..3. The thresholds themselves are stated through `ThresholdFactor`, and the branch taken through `AssessVolatility`.
- AgentGraph.AllocationKey: a list allocation is treated as having no key, so a lookup comparing it fails. Python compares two lists element by element, which can succeed; that ordering is not modelled.
- The graph's router is defined but not attached to the graph, so all five nodes always run. The router is modelled and `RouterStopsAfterFailure` states where it would stop.
- Parsing the uploaded portfolio into holdings: `PortfolioInput` carries both the raw data and the holdings. Key errors on malformed holdings inside `_calculate_portfolio_metrics` are not modelled; holdings are well-formed records.
- Floating point: amounts are exact reals. A period return over a zero base is `DivByZero`, standing for Python's infinity or NaN. An RSI whose gain and loss are both 0 is undefined (`None`), standing for NaN; that row is then dropped.
- `int(len(df) * 0.8)` is modelled as (4·n) / 5 on naturals, without the float rounding of 0.8·n.
- The forecast loop's chained assignment at Backend/app/agents/tools/forecasting_tools.py:111 is modelled as writing day i's prediction into slot i.
- MA20 during the forecast is modelled as written. `Ma20Window` shows its window holds exactly 20 terms only during the first 19 steps.
- Library exception texts are abstracted into named constants (`MalformedText`, `TooManyValues`, `NotIterable`, `NotSubscriptable`, `EmptyChart`, the missing-key messages).
- Lower-casing and title-casing cover ASCII letters only.
- Prices are positive (`Price`), as market closes are.
- Pydantic's type coercion and the unconstrained records (`RiskFactor`, `RiskAssessment`, `MarketAnalysis`, `ForecastMetrics`, `InvestmentAdvice`, upload responses) are plain datatypes without validators.
- Settings and environment loading (Backend/app/config/__init__.py:44-68), the HTTP routes, the research and sentiment tools, and the frontend are outside the analytics core.
- The class attribute `_instance` is modelled as an explicit `StoreRegistry` object. Thread safety of the shared store is not modelled.

=== FILE: agent_calls.dfy ===
/** What the analysis pipeline and the supervisor share: the agents they
    call (language-model plumbing, so parameters here), reading fields of an
    agent's result, the first holding with the largest allocation, the
    category names of a category analysis and the advice dictionary built
    one goal at a time. */
module AgentCalls {
  import opened Wrappers
  import opened Dicts
  import opened JsonValues

  /** An agent's result dictionary, or the text of the exception it raised. */
  type AgentResult = Result<Dict<string, Json>, string>

  /** The finance advisor, given the portfolio data and, for advice, a goal. */
  type AdvisorAgent = (Json, Option<string>) -> AgentResult

  /** The market analyst, given the ticker and the category names. */
  type MarketAgent = (Json, seq<string>) -> AgentResult

  /** The forecaster, given the ticker and the number of days. */
  type ForecastAgent = (Json, int) -> AgentResult

  const DefaultGoals: seq<string> := ["retirement", "home_purchase", "aggressive_growth"]

  lemma DefaultGoalsDistinct()
    ensures forall i, j :: 0 <= i < j < |DefaultGoals| ==> DefaultGoals[i] != DefaultGoals[j]
  {
    assert DefaultGoals[0][0] != DefaultGoals[1][0] && DefaultGoals[0][0] != DefaultGoals[2][0];
    assert DefaultGoals[1][0] != DefaultGoals[2][0];
  }

  /** The forecast horizon both pipelines ask for. */
  const ForecastDays: int := 30

  /** `result.get(key, {})`. */
  function Field(result: Dict<string, Json>, key: string): (j: Json)
    ensures key in Keys(result) ==> Get(result, key) == Some(j)
    ensures key !in Keys(result) ==> j == EmptyObj
  {
    Get(result, key).GetOr(EmptyObj)
  }

  // ---------------------------------------------------------------------
  // The largest allocation
  // ---------------------------------------------------------------------

  /** The position of the first largest value: Python's `max` keeps the
      first maximal element, and a stable descending sort puts it first. */
  function FirstMaxIndex(xs: seq<real>): (k: nat)
    requires xs != []
    ensures k < |xs|
    ensures forall j :: 0 <= j < |xs| ==> xs[j] <= xs[k]
    ensures forall j :: 0 <= j < k ==> xs[j] < xs[k]
  {
    if |xs| == 1 then 0
    else
      var k := FirstMaxIndex(xs[..|xs| - 1]);
      assert forall j :: 0 <= j < |xs| - 1 ==> xs[..|xs| - 1][j] == xs[j];
      if xs[|xs| - 1] > xs[k] then |xs| - 1 else k
  }

  // ---------------------------------------------------------------------
  // Category names
  // ---------------------------------------------------------------------

  /** The text standing in for Python's exception text when an agent's
      result does not have the expected shape. */
  const MalformedText: string := "malformed analysis"

  /** `cat['category']` for one entry: a dictionary's value under the key,
      the KeyError text when it has none; a string or a list cannot be
      subscripted by a string, and nor can anything else. */
  function CategoryValue(cat: Json): (r: Result<Json, string>)
    ensures cat.Obj? ==> (r.Success? <==> Member(cat, "category").Some?)
    ensures r.Success? ==> Member(cat, "category") == Some(r.value)
    ensures cat.Obj? && r.Failure? ==> r.error == "'category'"
    ensures cat.Str? || cat.Arr? ==> r == Failure(NotSubscriptable)
    ensures cat.Null? || cat.Bool? || cat.Num? ==> r == Failure(MalformedText)
  {
    match cat
    case Obj(fields) =>
      (match Get(fields, "category")
       case Some(v) => Success(v)
       case None => Failure("'category'"))
    case Str(_) => Failure(NotSubscriptable)
    case Arr(_) => Failure(NotSubscriptable)
    case _ => Failure(MalformedText)
  }

  /** Entry k is the first whose subscript fails. */
  predicate FirstBadEntry(cats: seq<Json>, k: int) {
    0 <= k < |cats| && CategoryValue(cats[k]).Failure? &&
    forall i :: 0 <= i < k ==> CategoryValue(cats[i]).Success?
  }

  /** `[cat['category'] for cat in cats]`: the values in order, or the error
      of the first entry whose subscript fails. */
  function CategoryValues(cats: seq<Json>): (r: Result<seq<Json>, string>)
    ensures r.Success? <==> forall i :: 0 <= i < |cats| ==> CategoryValue(cats[i]).Success?
    ensures r.Success? ==> |r.value| == |cats| && forall i :: 0 <= i < |cats| ==> CategoryValue(cats[i]) == Success(r.value[i])
    ensures forall k :: FirstBadEntry(cats, k) ==> r == Failure(CategoryValue(cats[k]).error)
  {
    if cats == [] then Success([])
    else
      var init := cats[..|cats| - 1];
      assert forall i :: 0 <= i < |cats| - 1 ==> init[i] == cats[i];
      assert forall k :: FirstBadEntry(cats, k) && k < |cats| - 1 ==> FirstBadEntry(init, k);
      match CategoryValues(init)
      case Failure(e) => Failure(e)
      case Success(values) =>
        match CategoryValue(cats[|cats| - 1])
        case Failure(e) => Failure(e)
        case Success(v) => Success(values + [v])
  }

  /** The text of the names, when every value is a string. */
  function Texts(values: seq<Json>): (names: seq<string>)
    requires forall i :: 0 <= i < |values| ==> values[i].Str?
    ensures |names| == |values| && forall i :: 0 <= i < |values| ==> values[i] == Str(names[i])
  {
    seq(|values|, i requires 0 <= i < |values| => values[i].s)
  }

  /** The category names handed to the analyst: the comprehension runs over
      every entry first, and only then does `", ".join(categories)` reject a
      name that is not a string. So the first failing subscript decides the
      error; with none, the error is `MalformedText` exactly when some value
      is not a string. */
  function CategoryNamesOf(cats: seq<Json>): (r: Result<seq<string>, string>)
    ensures r.Success? <==> forall i :: 0 <= i < |cats| ==>
      CategoryValue(cats[i]).Success? && CategoryValue(cats[i]).value.Str?
    ensures r.Success? ==> |r.value| == |cats| && forall i :: 0 <= i < |cats| ==> CategoryValue(cats[i]) == Success(Str(r.value[i]))
    ensures forall k :: FirstBadEntry(cats, k) ==> r == Failure(CategoryValue(cats[k]).error)
    ensures (forall i :: 0 <= i < |cats| ==> CategoryValue(cats[i]).Success?) && r.Failure? ==> r.error == MalformedText
  {
    match CategoryValues(cats)
    case Failure(e) => Failure(e)
    case Success(values) =>
      if forall i :: 0 <= i < |values| ==> values[i].Str? then Success(Texts(values))
      else Failure(MalformedText)
  }

  /** A missing key in a later entry outranks a number in an earlier one:
      the subscripts all run before the join. */
  lemma SubscriptsBeforeJoin()
    ensures CategoryNamesOf([Obj([("category", Num(5.0))]), Obj([])]) == Failure("'category'")
  {
    var cats := [Obj([("category", Num(5.0))]), Obj([])];
    assert CategoryValue(cats[0]).Success?;
    assert FirstBadEntry(cats, 1);
  }

  /** The category names of a category analysis: none when
      `'category_metrics' in analysis` is false; a list gives one name per
      entry; an empty string or dictionary gives none, and iterating any
      other value fails. The guard
      itself fails on a number, a boolean or None, and a string or a list
      that contains the key cannot be read by it. */
  function CategoryNames(analysis: Json): (r: Result<seq<string>, string>)
    ensures Lookup(analysis, "category_metrics").Failure? ==> r == Failure(Lookup(analysis, "category_metrics").error)
    ensures Lookup(analysis, "category_metrics") == Success(None) ==> r == Success([])
    ensures Member(analysis, "category_metrics").Some? && Member(analysis, "category_metrics").value.Arr? ==>
      r == CategoryNamesOf(Member(analysis, "category_metrics").value.items)
    ensures (Member(analysis, "category_metrics").Some? &&
      (Member(analysis, "category_metrics").value.Str? || Member(analysis, "category_metrics").value.Obj?)) ==>
      (r.Success? <==> !Truthy(Member(analysis, "category_metrics").value)) && (r.Success? ==> r.value == [])
    ensures (Member(analysis, "category_metrics").Some? &&
      (Member(analysis, "category_metrics").value.Null? || Member(analysis, "category_metrics").value.Bool? ||
       Member(analysis, "category_metrics").value.Num?)) ==> r.Failure?
    ensures !analysis.Obj? ==> (r.Success? <==> In("category_metrics", analysis) == Success(false))
  {
    match Lookup(analysis, "category_metrics")
    case Failure(e) => Failure(e)
    case Success(None) => Success([])
    case Success(Some(Arr(cats))) => CategoryNamesOf(cats)
    case Success(Some(Str(s))) => if s == "" then Success([]) else Failure(MalformedText)
    case Success(Some(Obj(fields))) => if fields == [] then Success([]) else Failure(MalformedText)
    case Success(Some(_)) => Failure(MalformedText)
  }

  // ---------------------------------------------------------------------
  // Advice per goal
  // ---------------------------------------------------------------------

  /** `result.get('investment_advice', {})` of the advisor's answer for one
      goal. */
  function GoalAdvice(portfolio: Json, advisor: AdvisorAgent, goal: string): Result<Json, string> {
    match advisor(portfolio, Some(goal))
    case Failure(e) => Failure(e)
    case Success(result) => Success(Field(result, "investment_advice"))
  }

  /** `advice[goal] = ...` for each goal in turn, from `acc`; the first
      failing call ends the loop with its error. */
  function CollectAdvice(goals: seq<string>, portfolio: Json, advisor: AdvisorAgent, acc: Dict<string, Json>): Result<Dict<string, Json>, string>
    decreases |goals|
  {
    if goals == [] then Success(acc)
    else
      match GoalAdvice(portfolio, advisor, goals[0])
      case Failure(e) => Failure(e)
      case Success(a) => CollectAdvice(goals[1..], portfolio, advisor, Put(acc, goals[0], a))
  }

  /** On success every goal holds its own advice (a repeated goal is
      rewritten with the same value), every other key keeps its value, the
      keys are those of `acc` and the goals, and no key appears twice. */
  lemma {:induction false} AdviceContents(goals: seq<string>, portfolio: Json, advisor: AdvisorAgent, acc: Dict<string, Json>)
    requires CollectAdvice(goals, portfolio, advisor, acc).Success?
    ensures forall g :: g in goals ==>
      GoalAdvice(portfolio, advisor, g).Success? && Get(CollectAdvice(goals, portfolio, advisor, acc).value, g) == Some(GoalAdvice(portfolio, advisor, g).value)
    ensures forall k :: k !in goals ==> Get(CollectAdvice(goals, portfolio, advisor, acc).value, k) == Get(acc, k)
    ensures forall k :: k in Keys(CollectAdvice(goals, portfolio, advisor, acc).value) <==> k in Keys(acc) || k in goals
    ensures DistinctKeys(acc) ==> DistinctKeys(CollectAdvice(goals, portfolio, advisor, acc).value)
    decreases |goals|
  {
    if goals != [] {
      var a := GoalAdvice(portfolio, advisor, goals[0]).value;
      var acc1 := Put(acc, goals[0], a);
      AdviceContents(goals[1..], portfolio, advisor, acc1);
      assert forall g :: g in goals <==> g == goals[0] || g in goals[1..];
    }
  }

  /** The advice loop itself: `advice[goal] = ...` for each goal, from an
      empty dictionary; an exception from the advisor leaves the loop. */
  method AdviceByGoal(goals: seq<string>, portfolio: Json, advisor: AdvisorAgent) returns (r: Result<Dict<string, Json>, string>)
    ensures r == CollectAdvice(goals, portfolio, advisor, [])
  {
    var advice: Dict<string, Json> := [];
    var rest := goals;
    while rest != []
      invariant CollectAdvice(goals, portfolio, advisor, []) == CollectAdvice(rest, portfolio, advisor, advice)
      decreases |rest|
    {
      var goal := rest[0];
      var result := advisor(portfolio, Some(goal));
      if result.Failure? {
        return Failure(result.error);
      }
      advice := Put(advice, goal, Field(result.value, "investment_advice"));
      rest := rest[1..];
    }
    r := Success(advice);
  }

  /** The goals after the first are distinct and new to the keys with the
      first added. */
  lemma FreshTail(goals: seq<string>, ks: seq<string>)
    requires goals != []
    requires forall i, j :: 0 <= i < j < |goals| ==> goals[i] != goals[j]
    requires forall i :: 0 <= i < |goals| ==> goals[i] !in ks
    ensures forall i, j :: 0 <= i < j < |goals[1..]| ==> goals[1..][i] != goals[1..][j]
    ensures forall i :: 0 <= i < |goals[1..]| ==> goals[1..][i] !in ks + [goals[0]]
  {
    forall i | 0 <= i < |goals[1..]|
      ensures goals[1..][i] !in ks + [goals[0]]
    {
      assert goals[1..][i] == goals[i + 1];
    }
  }

  lemma ConsAppend(ks: seq<string>, goals: seq<string>)
    requires goals != []
    ensures (ks + [goals[0]]) + goals[1..] == ks + goals
  {
    assert [goals[0]] + goals[1..] == goals;
  }

  /** With distinct goals none of which is in `acc` yet, the goals follow
      the keys of `acc` in their own order. */
  lemma {:induction false} AdviceKeysInOrder(goals: seq<string>, portfolio: Json, advisor: AdvisorAgent, acc: Dict<string, Json>)
    requires CollectAdvice(goals, portfolio, advisor, acc).Success?
    requires forall i, j :: 0 <= i < j < |goals| ==> goals[i] != goals[j]
    requires forall i :: 0 <= i < |goals| ==> goals[i] !in Keys(acc)
    ensures Keys(CollectAdvice(goals, portfolio, advisor, acc).value) == Keys(acc) + goals
  {
    if goals != [] {
      var rest := goals[1..];
      var acc1 := Put(acc, goals[0], GoalAdvice(portfolio, advisor, goals[0]).value);
      assert Keys(acc1) == Keys(acc) + [goals[0]];
      FreshTail(goals, Keys(acc));
      AdviceKeysInOrder(rest, portfolio, advisor, acc1);
      ConsAppend(Keys(acc), goals);
    }
  }

  /** The loop fails exactly when some goal's call fails. */
  lemma {:induction false} AdviceFails(goals: seq<string>, portfolio: Json, advisor: AdvisorAgent, acc: Dict<string, Json>)
    ensures CollectAdvice(goals, portfolio, advisor, acc).Failure? <==>
      exists i :: 0 <= i < |goals| && GoalAdvice(portfolio, advisor, goals[i]).Failure?
  {
    if goals != [] {
      var a := GoalAdvice(portfolio, advisor, goals[0]);
      if a.Success? {
        var rest := goals[1..];
        AdviceFails(rest, portfolio, advisor, Put(acc, goals[0], a.value));
        assert forall i :: 0 <= i < |rest| ==> rest[i] == goals[i + 1];
        if exists i :: 0 <= i < |goals| && GoalAdvice(portfolio, advisor, goals[i]).Failure? {
          var i :| 0 <= i < |goals| && GoalAdvice(portfolio, advisor, goals[i]).Failure?;
          assert i > 0 && GoalAdvice(portfolio, advisor, rest[i - 1]).Failure?;
        }
      }
    }
  }

  /** A failing loop reports the error of the first goal whose call fails. */
  lemma {:induction false} AdviceFirstError(goals: seq<string>, portfolio: Json, advisor: AdvisorAgent, acc: Dict<string, Json>)
    requires CollectAdvice(goals, portfolio, advisor, acc).Failure?
    ensures exists i :: (0 <= i < |goals| &&
      GoalAdvice(portfolio, advisor, goals[i]) == Failure(CollectAdvice(goals, portfolio, advisor, acc).error) &&
      forall j :: 0 <= j < i ==> GoalAdvice(portfolio, advisor, goals[j]).Success?)
  {
    var a := GoalAdvice(portfolio, advisor, goals[0]);
    if a.Success? {
      var rest := goals[1..];
      var acc1 := Put(acc, goals[0], a.value);
      AdviceFirstError(rest, portfolio, advisor, acc1);
      var e := CollectAdvice(rest, portfolio, advisor, acc1).error;
      var i :| 0 <= i < |rest| && GoalAdvice(portfolio, advisor, rest[i]) == Failure(e) &&
        forall j :: 0 <= j < i ==> GoalAdvice(portfolio, advisor, rest[j]).Success?;
      assert GoalAdvice(portfolio, advisor, goals[i + 1]) == Failure(e);
      assert forall j :: 1 <= j < i + 1 ==> goals[j] == rest[j - 1];
    }
  }

  // ---------------------------------------------------------------------
  // The five sections of a report
  // ---------------------------------------------------------------------

  /** The sections both pipelines return, under these keys and in this order. */
  const SectionNames: seq<string> := ["risk_assessment", "category_analysis", "market_analysis", "forecasting", "investment_advice"]

  function Sections(risk: Json, categories: Json, market: Json, forecast: Json, advice: Json): (d: Dict<string, Json>)
    ensures Keys(d) == SectionNames && DistinctKeys(d)
    ensures Get(d, "risk_assessment") == Some(risk) && Get(d, "category_analysis") == Some(categories)
    ensures Get(d, "market_analysis") == Some(market) && Get(d, "forecasting") == Some(forecast)
    ensures Get(d, "investment_advice") == Some(advice)
  {
    var d := [("risk_assessment", risk), ("category_analysis", categories), ("market_analysis", market),
              ("forecasting", forecast), ("investment_advice", advice)];
    assert Keys(d) == SectionNames;
    assert DistinctKeys(d);
    GetAt(d, 0); GetAt(d, 1); GetAt(d, 2); GetAt(d, 3); GetAt(d, 4);
    d
  }
}

=== FILE: agent_graph.dfy ===
/** The analysis pipeline: five nodes, each a transform of the shared state,
    wired risk assessment → market analysis → forecasting → investment
    advice → report → END. A node that succeeds replaces only its own fields;
    one that fails sets only the error. The router that would stop on an
    error is defined but not attached to the graph, so every node runs. */
module AgentGraph {
  import opened Wrappers
  import opened Dicts
  import opened JsonValues
  import opened Models
  import opened AgentCalls

  datatype State = State(
    portfolioData: Json,
    goals: seq<string>,
    riskAssessment: Json,
    categoryAnalysis: Json,
    marketAnalysis: Json,
    forecasting: Json,
    investmentAdvice: Json,
    error: string,
    finalReport: string,
    next: string)

  /** The graph library's name for the end node. */
  const End: string := "__end__"

  /** The language model writing the final report from the five sections. */
  type ReportWriter = seq<Json> -> Result<string, string>

  datatype Agents = Agents(advisor: AdvisorAgent, market: MarketAgent, forecaster: ForecastAgent, writer: ReportWriter)

  const RiskPrefix: string := "Risk assessment failed: "
  const MarketPrefix: string := "Market analysis failed: "
  const ForecastPrefix: string := "Forecasting failed: "
  const AdvicePrefix: string := "Investment advice generation failed: "
  const ReportPrefix: string := "Report generation failed: "
  const NoLargestHolding: string := "Could not determine largest holding for forecasting"

  /** t is s with only the error replaced, by a message starting with prefix. */
  predicate FailedWith(s: State, t: State, prefix: string) {
    t == s.(error := t.error) && prefix <= t.error
  }

  /** t is s with only the error replaced, by the stage's prefix followed by
      the text of the exception. */
  predicate FailedBecause(s: State, t: State, prefix: string, e: string) {
    t == s.(error := prefix + e)
  }

  /** A node either kept the error or set a non-empty one. */
  predicate KeepsOrSetsError(s: State, t: State) {
    t.error == s.error || t.error != ""
  }

  // ---------------------------------------------------------------------
  // Risk assessment
  // ---------------------------------------------------------------------

  /** `risk_assessment_node`: the advisor's risk assessment and category
      analysis, each `{}` when the result lacks it. */
  function RiskAssessmentNode(s: State, advisor: AdvisorAgent): (t: State)
    ensures KeepsOrSetsError(s, t)
    ensures advisor(s.portfolioData, None).Success? ==>
      t == s.(riskAssessment := t.riskAssessment, categoryAnalysis := t.categoryAnalysis) &&
      t.riskAssessment == Field(advisor(s.portfolioData, None).value, "risk_assessment") &&
      t.categoryAnalysis == Field(advisor(s.portfolioData, None).value, "category_analysis")
    ensures advisor(s.portfolioData, None).Failure? ==>
      FailedWith(s, t, RiskPrefix) && t.error == RiskPrefix + advisor(s.portfolioData, None).error
  {
    match advisor(s.portfolioData, None)
    case Failure(e) => s.(error := RiskPrefix + e)
    case Success(result) =>
      s.(riskAssessment := Field(result, "risk_assessment"), categoryAnalysis := Field(result, "category_analysis"))
  }

  // ---------------------------------------------------------------------
  // The largest holding of a category analysis
  // ---------------------------------------------------------------------

  /** A sort key Python can order against keys of its own kind: numbers
      (booleans among them, as 0 and 1) and strings. */
  datatype SortKey = NumKey(n: real) | StrKey(s: string)

  /** Python's `a < b` on two strings: code point by code point, a proper
      prefix coming first. */
  predicate StrBefore(a: string, b: string) {
    if a == [] then b != []
    else if b == [] then false
    else if a[0] != b[0] then a[0] < b[0]
    else StrBefore(a[1..], b[1..])
  }

  /** Python's `a < b` on two keys of the same kind. */
  predicate Below(a: SortKey, b: SortKey) {
    match (a, b)
    case (NumKey(x), NumKey(y)) => x < y
    case (StrKey(x), StrKey(y)) => StrBefore(x, y)
    case _ => false
  }

  predicate SameKind(a: SortKey, b: SortKey) {
    a.NumKey? == b.NumKey?
  }

  lemma {:induction false} StrBeforeAsymmetric(a: string, b: string)
    ensures StrBefore(a, b) ==> !StrBefore(b, a)
  {
    if a != [] && b != [] && a[0] == b[0] {
      StrBeforeAsymmetric(a[1..], b[1..]);
    }
  }

  lemma {:induction false} StrBeforeTransitive(a: string, b: string, c: string)
    requires StrBefore(a, b) && StrBefore(b, c)
    ensures StrBefore(a, c)
  {
    if a != [] && b != [] && c != [] && a[0] == b[0] && b[0] == c[0] {
      StrBeforeTransitive(a[1..], b[1..], c[1..]);
    }
  }

  lemma {:induction false} StrBeforeTotal(a: string, b: string)
    ensures a == b || StrBefore(a, b) || StrBefore(b, a)
  {
    if a != [] && b != [] && a[0] == b[0] {
      StrBeforeTotal(a[1..], b[1..]);
      if a[1..] == b[1..] {
        assert a == [a[0]] + a[1..] && b == [b[0]] + b[1..];
      }
    }
  }

  /** Within one kind, `Below` is a strict total order. */
  lemma BelowOrder(a: SortKey, b: SortKey, c: SortKey)
    requires SameKind(a, b) && SameKind(b, c)
    ensures !Below(a, a)
    ensures Below(a, b) ==> !Below(b, a)
    ensures Below(a, b) && Below(b, c) ==> Below(a, c)
    ensures a == b || Below(a, b) || Below(b, a)
  {
    if a.StrKey? {
      StrBeforeAsymmetric(a.s, a.s);
      StrBeforeAsymmetric(a.s, b.s);
      if Below(a, b) && Below(b, c) {
        StrBeforeTransitive(a.s, b.s, c.s);
      }
      StrBeforeTotal(a.s, b.s);
    }
  }

  /** `x.get('allocation', 0)` as a sort key: a missing allocation counts as
      0, a boolean as 0 or 1, a number as itself and a string as itself; any
      other value (None, a list, a dictionary) has no key of this model. */
  function AllocationKey(x: Json): (a: Option<SortKey>)
    requires x.Obj?
    ensures Member(x, "allocation").None? ==> a == Some(NumKey(0.0))
    ensures forall r :: Member(x, "allocation") == Some(Num(r)) ==> a == Some(NumKey(r))
    ensures forall b :: Member(x, "allocation") == Some(Bool(b)) ==> a == Some(NumKey(if b then 1.0 else 0.0))
    ensures forall t :: Member(x, "allocation") == Some(Str(t)) ==> a == Some(StrKey(t))
    ensures a.None? <==> (Member(x, "allocation").Some? &&
      (Member(x, "allocation").value.Null? || Member(x, "allocation").value.Arr? || Member(x, "allocation").value.Obj?))
  {
    var v: Option<Json> := Get(x.fields, "allocation");
    if v.None? then Some(NumKey(0.0))
    else
      match v.value
      case Num(r) => Some(NumKey(r))
      case Bool(b) => Some(NumKey(if b then 1.0 else 0.0))
      case Str(t) => Some(StrKey(t))
      case _ => None
  }

  predicate AllObjects(items: seq<Json>) {
    forall i :: 0 <= i < |items| ==> items[i].Obj?
  }

  /** Every holding has a key, and all keys are of the first one's kind: `max`
      compares each later key with the largest so far, and that comparison
      raises across kinds and on None, lists and dictionaries. */
  predicate Orderable(items: seq<Json>) {
    AllObjects(items) && items != [] &&
    (forall i :: 0 <= i < |items| ==> AllocationKey(items[i]).Some?) &&
    forall i :: 0 <= i < |items| ==> SameKind(AllocationKey(items[i]).value, AllocationKey(items[0]).value)
  }

  function AllocationKeys(items: seq<Json>): (ks: seq<SortKey>)
    requires Orderable(items)
    ensures |ks| == |items| && forall i :: 0 <= i < |items| ==> AllocationKey(items[i]) == Some(ks[i])
  {
    seq(|items|, i requires 0 <= i < |items| => AllocationKey(items[i]).value)
  }

  /** The position `max` settles on: it replaces the largest so far only by a
      strictly greater key, so it keeps the first of the largest. */
  function FirstMaxKey(ks: seq<SortKey>): (k: nat)
    requires ks != [] && forall i :: 0 <= i < |ks| ==> SameKind(ks[i], ks[0])
    ensures k < |ks|
    ensures forall j :: 0 <= j < |ks| ==> !Below(ks[k], ks[j])
    ensures forall j :: 0 <= j < k ==> Below(ks[j], ks[k])
  {
    if |ks| == 1 then
      BelowOrder(ks[0], ks[0], ks[0]);
      0
    else
      var init := ks[..|ks| - 1];
      var last := ks[|ks| - 1];
      var k := FirstMaxKey(init);
      assert forall j :: 0 <= j < |ks| - 1 ==> init[j] == ks[j];
      if Below(ks[k], last) then
        forall j | 0 <= j < |ks| ensures !Below(last, ks[j]) && (j < |ks| - 1 ==> Below(ks[j], last)) {
          BelowOrder(ks[j], ks[k], last);
          BelowOrder(last, ks[j], ks[k]);
          BelowOrder(ks[j], last, last);
        }
        |ks| - 1
      else
        k
  }

  /** `holding['ticker']`. */
  function TickerOf(x: Json): (r: Result<Json, string>)
    requires x.Obj?
    ensures r.Success? <==> Member(x, "ticker").Some?
    ensures r.Success? ==> Member(x, "ticker") == Some(r.value)
  {
    match Get(x.fields, "ticker")
    case None => Failure("'ticker'")
    case Some(t) => Success(t)
  }

  /** `max(assets, key=lambda x: x.get('allocation', 0))['ticker']`: every
      holding must be a dictionary, and with two or more their keys must be
      comparable. */
  function LargestOf(items: seq<Json>): Result<Json, string>
    requires items != []
  {
    if !AllObjects(items) then Failure(MalformedText)
    else if |items| == 1 then TickerOf(items[0])
    else if !Orderable(items) then Failure(MalformedText)
    else TickerOf(items[FirstMaxKey(AllocationKeys(items))])
  }

  /** With two or more holdings, the lookup fails exactly when a holding is
      not a dictionary or the keys cannot all be compared; otherwise the
      largest holding is the first whose key no other key exceeds, and its
      ticker is the result. */
  lemma LargestIsFirstMaximal(items: seq<Json>)
    requires |items| >= 2
    ensures LargestOf(items) == Failure(MalformedText) <== !Orderable(items)
    ensures Orderable(items) ==> exists k :: (0 <= k < |items| &&
      (forall j :: 0 <= j < |items| ==> !Below(AllocationKeys(items)[k], AllocationKeys(items)[j])) &&
      (forall j :: 0 <= j < k ==> Below(AllocationKeys(items)[j], AllocationKeys(items)[k])) &&
      LargestOf(items) == TickerOf(items[k]))
  {
    if Orderable(items) {
      var k := FirstMaxKey(AllocationKeys(items));
      assert LargestOf(items) == TickerOf(items[k]);
    }
  }

  /** Allocations given as text compare as text: "9" sorts after "10". */
  lemma LargestByText()
    ensures LargestOf([Obj([("ticker", Str("A")), ("allocation", Str("10"))]),
                       Obj([("ticker", Str("B")), ("allocation", Str("9"))])]) == Success(Str("B"))
  {
    var items := [Obj([("ticker", Str("A")), ("allocation", Str("10"))]),
                  Obj([("ticker", Str("B")), ("allocation", Str("9"))])];
    assert AllocationKey(items[0]) == Some(StrKey("10"));
    assert AllocationKey(items[1]) == Some(StrKey("9"));
    assert StrBefore("10", "9");
  }

  /** The ticker of the largest holding in `analysis['assets']`, null when
      `'assets' in analysis` is false or the holdings are empty; holdings
      that are not a list can only be iterated when empty. The guard
      fails on a number, a boolean or None, and a string or a list that
      contains the key cannot be read by it. */
  function LargestTicker(analysis: Json): (r: Result<Json, string>)
    ensures Lookup(analysis, "assets").Failure? ==> r == Failure(Lookup(analysis, "assets").error)
    ensures Lookup(analysis, "assets") == Success(None) ==> r == Success(Null)
    ensures Member(analysis, "assets") == Some(Arr([])) ==> r == Success(Null)
    ensures Member(analysis, "assets").Some? && Member(analysis, "assets").value.Arr? && Member(analysis, "assets").value.items != [] ==>
      r == LargestOf(Member(analysis, "assets").value.items)
    ensures Member(analysis, "assets").Some? && !Member(analysis, "assets").value.Arr? ==>
      (r.Success? <==> !Truthy(Member(analysis, "assets").value)) && (r.Success? ==> r.value == Null)
    ensures r.Success? && r.value != Null ==> analysis.Obj? && Member(analysis, "assets").Some?
  {
    match Lookup(analysis, "assets")
    case Failure(e) => Failure(e)
    case Success(None) => Success(Null)
    case Success(Some(assets)) =>
      if !Truthy(assets) then Success(Null)
      else if assets.Arr? then LargestOf(assets.items)
      else Failure(MalformedText)
  }

  // ---------------------------------------------------------------------
  // Market analysis and forecasting
  // ---------------------------------------------------------------------

  /** t records the analyst's answer, or its error with the stage prefix. */
  predicate MarketAnswered(s: State, t: State, answer: AgentResult) {
    (answer.Success? ==> t == s.(marketAnalysis := Obj(answer.value))) &&
    (answer.Failure? ==> FailedBecause(s, t, MarketPrefix, answer.error))
  }

  /** t records the forecaster's answer, or its error with the stage prefix. */
  predicate ForecastAnswered(s: State, t: State, answer: AgentResult) {
    (answer.Success? ==> t == s.(forecasting := Obj(answer.value))) &&
    (answer.Failure? ==> FailedBecause(s, t, ForecastPrefix, answer.error))
  }

  /** `market_analysis_node`: the analyst's whole result, asked about the
      largest holding and the category names. */
  function MarketAnalysisNode(s: State, market: MarketAgent): (t: State)
    ensures KeepsOrSetsError(s, t)
    ensures t == s.(marketAnalysis := t.marketAnalysis) || FailedWith(s, t, MarketPrefix)
    ensures LargestTicker(s.categoryAnalysis).Failure? ==>
      FailedBecause(s, t, MarketPrefix, LargestTicker(s.categoryAnalysis).error)
    ensures LargestTicker(s.categoryAnalysis).Success? && CategoryNames(s.categoryAnalysis).Failure? ==>
      FailedBecause(s, t, MarketPrefix, CategoryNames(s.categoryAnalysis).error)
    ensures LargestTicker(s.categoryAnalysis).Success? && CategoryNames(s.categoryAnalysis).Success? ==>
      MarketAnswered(s, t, market(LargestTicker(s.categoryAnalysis).value, CategoryNames(s.categoryAnalysis).value))
  {
    match LargestTicker(s.categoryAnalysis)
    case Failure(e) => s.(error := MarketPrefix + e)
    case Success(ticker) =>
      match CategoryNames(s.categoryAnalysis)
      case Failure(e) => s.(error := MarketPrefix + e)
      case Success(categories) =>
        match market(ticker, categories)
        case Failure(e) => s.(error := MarketPrefix + e)
        case Success(result) => s.(marketAnalysis := Obj(result))
  }

  /** `forecasting_node`: a 30-day forecast of the largest holding; without
      one the error is set, and without the stage prefix. */
  function ForecastingNode(s: State, forecaster: ForecastAgent): (t: State)
    ensures KeepsOrSetsError(s, t)
    ensures t == s.(forecasting := t.forecasting) || FailedWith(s, t, ForecastPrefix) ||
      t == s.(error := NoLargestHolding)
    ensures LargestTicker(s.categoryAnalysis) == Success(Null) ==> t == s.(error := NoLargestHolding)
    ensures LargestTicker(s.categoryAnalysis).Failure? ==>
      FailedBecause(s, t, ForecastPrefix, LargestTicker(s.categoryAnalysis).error)
    ensures LargestTicker(s.categoryAnalysis).Success? && !Truthy(LargestTicker(s.categoryAnalysis).value) ==>
      t == s.(error := NoLargestHolding)
    ensures LargestTicker(s.categoryAnalysis).Success? && Truthy(LargestTicker(s.categoryAnalysis).value) ==>
      ForecastAnswered(s, t, forecaster(LargestTicker(s.categoryAnalysis).value, ForecastDays))
  {
    match LargestTicker(s.categoryAnalysis)
    case Failure(e) => s.(error := ForecastPrefix + e)
    case Success(ticker) =>
      if !Truthy(ticker) then s.(error := NoLargestHolding)
      else
        match forecaster(ticker, ForecastDays)
        case Failure(e) => s.(error := ForecastPrefix + e)
        case Success(result) => s.(forecasting := Obj(result))
  }

  // ---------------------------------------------------------------------
  // Investment advice
  // ---------------------------------------------------------------------

  /** `investment_advice_node`: one entry per goal, or the error of the
      first goal whose call fails, with no partial advice. */
  function InvestmentAdviceNodeOf(s: State, advisor: AdvisorAgent): (t: State)
    ensures KeepsOrSetsError(s, t)
    ensures t == s.(investmentAdvice := t.investmentAdvice) || FailedWith(s, t, AdvicePrefix)
    ensures CollectAdvice(s.goals, s.portfolioData, advisor, []).Success? ==>
      t == s.(investmentAdvice := Obj(CollectAdvice(s.goals, s.portfolioData, advisor, []).value))
    ensures CollectAdvice(s.goals, s.portfolioData, advisor, []).Success? ==>
      t.investmentAdvice.Obj? && DistinctKeys(t.investmentAdvice.fields) &&
      (forall k :: k in Keys(t.investmentAdvice.fields) <==> k in s.goals) &&
      forall g :: g in s.goals ==> (GoalAdvice(s.portfolioData, advisor, g).Success? &&
        Get(t.investmentAdvice.fields, g) == Some(GoalAdvice(s.portfolioData, advisor, g).value))
    ensures CollectAdvice(s.goals, s.portfolioData, advisor, []).Failure? ==>
      FailedBecause(s, t, AdvicePrefix, CollectAdvice(s.goals, s.portfolioData, advisor, []).error)
  {
    match CollectAdvice(s.goals, s.portfolioData, advisor, [])
    case Failure(e) => s.(error := AdvicePrefix + e)
    case Success(advice) =>
      AdviceContents(s.goals, s.portfolioData, advisor, []);
      s.(investmentAdvice := Obj(advice))
  }

  method InvestmentAdviceNode(s: State, advisor: AdvisorAgent) returns (t: State)
    ensures t == InvestmentAdviceNodeOf(s, advisor)
  {
    var advice := AdviceByGoal(s.goals, s.portfolioData, advisor);
    if advice.Failure? {
      t := s.(error := AdvicePrefix + advice.error);
    } else {
      t := s.(investmentAdvice := Obj(advice.value));
    }
  }

  // ---------------------------------------------------------------------
  // Report, router and the whole graph
  // ---------------------------------------------------------------------

  /** `report_generator_node`: the model's report written from the five
      sections, in this order. */
  function ReportGeneratorNode(s: State, writer: ReportWriter): (t: State)
    ensures KeepsOrSetsError(s, t)
    ensures t == s.(finalReport := t.finalReport) || FailedWith(s, t, ReportPrefix)
    ensures writer([s.riskAssessment, s.categoryAnalysis, s.marketAnalysis, s.forecasting, s.investmentAdvice]).Success? ==>
      t == s.(finalReport := writer([s.riskAssessment, s.categoryAnalysis, s.marketAnalysis, s.forecasting, s.investmentAdvice]).value)
    ensures writer([s.riskAssessment, s.categoryAnalysis, s.marketAnalysis, s.forecasting, s.investmentAdvice]).Failure? ==>
      FailedBecause(s, t, ReportPrefix, writer([s.riskAssessment, s.categoryAnalysis, s.marketAnalysis, s.forecasting, s.investmentAdvice]).error)
  {
    match writer([s.riskAssessment, s.categoryAnalysis, s.marketAnalysis, s.forecasting, s.investmentAdvice])
    case Failure(e) => s.(error := ReportPrefix + e)
    case Success(report) => s.(finalReport := report)
  }

  /** `router`: END on an error, otherwise the state's next node. */
  function Router(s: State): string {
    if s.error != "" then End else s.next
  }

  /** The states after each node, in the wired order; no node clears an
      error. */
  function Stages(s0: State, agents: Agents): (ss: seq<State>)
    ensures |ss| == 6 && ss[0] == s0
    ensures forall i :: 0 <= i < 5 ==> KeepsOrSetsError(ss[i], ss[i + 1])
  {
    var s1 := RiskAssessmentNode(s0, agents.advisor);
    var s2 := MarketAnalysisNode(s1, agents.market);
    var s3 := ForecastingNode(s2, agents.forecaster);
    var s4 := InvestmentAdviceNodeOf(s3, agents.advisor);
    var s5 := ReportGeneratorNode(s4, agents.writer);
    [s0, s1, s2, s3, s4, s5]
  }

  function GraphOf(s0: State, agents: Agents): State {
    Stages(s0, agents)[5]
  }

  /** `graph.invoke`: the five nodes in order, whatever the error. */
  method RunGraph(s0: State, agents: Agents) returns (t: State)
    ensures t == GraphOf(s0, agents)
  {
    var s1 := RiskAssessmentNode(s0, agents.advisor);
    var s2 := MarketAnalysisNode(s1, agents.market);
    var s3 := ForecastingNode(s2, agents.forecaster);
    var s4 := InvestmentAdviceNode(s3, agents.advisor);
    t := ReportGeneratorNode(s4, agents.writer);
  }

  /** A non-empty error stays non-empty through every later node. */
  lemma {:induction false} ErrorSticks(s0: State, agents: Agents, i: nat, j: nat)
    requires i <= j <= 5 && Stages(s0, agents)[i].error != ""
    ensures Stages(s0, agents)[j].error != ""
  {
    if i < j {
      ErrorSticks(s0, agents, i, j - 1);
      assert KeepsOrSetsError(Stages(s0, agents)[j - 1], Stages(s0, agents)[j]);
    }
  }

  /** The run ends without error exactly when it started without one and
      no node replaced the error. */
  lemma GraphErrorFree(s0: State, agents: Agents)
    ensures GraphOf(s0, agents).error == "" <==>
      s0.error == "" && forall i :: 0 <= i < 5 ==> Stages(s0, agents)[i + 1].error == Stages(s0, agents)[i].error
  {
    var ss := Stages(s0, agents);
    if ss[5].error == "" {
      forall i | 0 <= i < 5 ensures ss[i + 1].error == ss[i].error && ss[i].error == "" {
        if ss[i].error != "" {
          ErrorSticks(s0, agents, i, 5);
        }
        assert KeepsOrSetsError(ss[i], ss[i + 1]);
        if ss[i + 1].error != "" {
          ErrorSticks(s0, agents, i + 1, 5);
        }
      }
    }
    if s0.error == "" && forall i :: 0 <= i < 5 ==> ss[i + 1].error == ss[i].error {
      assert ss[1].error == ss[0].error && ss[2].error == ss[1].error && ss[3].error == ss[2].error;
      assert ss[4].error == ss[3].error && ss[5].error == ss[4].error;
    }
  }

  /** Had the router been attached, any failing node would end the run. */
  lemma RouterStopsAfterFailure(s0: State, agents: Agents, i: nat)
    requires i < 5 && Stages(s0, agents)[i + 1].error != Stages(s0, agents)[i].error
    ensures Router(Stages(s0, agents)[i + 1]) == End
  {
    assert KeepsOrSetsError(Stages(s0, agents)[i], Stages(s0, agents)[i + 1]);
  }

  // ---------------------------------------------------------------------
  // run_financial_analysis
  // ---------------------------------------------------------------------

  /** The state the run starts from. */
  function InitialState(portfolio: Json, goals: Option<seq<string>>): (s: State)
    ensures s.goals == if goals.Some? then goals.value else DefaultGoals
    ensures s.error == "" && s.finalReport == "" && Router(s) == "risk_assessment"
    ensures s.riskAssessment == EmptyObj && s.categoryAnalysis == EmptyObj && s.marketAnalysis == EmptyObj
    ensures s.forecasting == EmptyObj && s.investmentAdvice == EmptyObj
  {
    State(portfolio, goals.GetOr(DefaultGoals), EmptyObj, EmptyObj, EmptyObj, EmptyObj, EmptyObj, "", "", "risk_assessment")
  }

  /** The returned report, error and details. */
  function Output(s: State): (r: PortfolioAnalysisResponse)
    ensures r.report == s.finalReport && r.error == s.error
    ensures Keys(r.details) == ["risk_assessment", "category_analysis", "market_analysis", "forecasting", "investment_advice"]
    ensures Get(r.details, "risk_assessment") == Some(s.riskAssessment)
    ensures Get(r.details, "category_analysis") == Some(s.categoryAnalysis)
    ensures Get(r.details, "market_analysis") == Some(s.marketAnalysis)
    ensures Get(r.details, "forecasting") == Some(s.forecasting)
    ensures Get(r.details, "investment_advice") == Some(s.investmentAdvice)
  {
    var details := Sections(s.riskAssessment, s.categoryAnalysis, s.marketAnalysis, s.forecasting, s.investmentAdvice);
    NewPortfolioAnalysisResponse(s.finalReport, s.error, details)
  }

  /** `run_financial_analysis`. */
  method RunFinancialAnalysis(portfolio: Json, goals: Option<seq<string>>, agents: Agents) returns (r: PortfolioAnalysisResponse)
    ensures r == Output(GraphOf(InitialState(portfolio, goals), agents))
  {
    var initial := InitialState(portfolio, goals);
    var final := RunGraph(initial, agents);
    r := Output(final);
  }

  /** From a state without a largest holding, the last three nodes leave the
      forecast as it was and end with an error. */
  lemma TailWithoutHolding(s2: State, agents: Agents)
    requires LargestTicker(s2.categoryAnalysis) == Success(Null)
    ensures ReportGeneratorNode(InvestmentAdviceNodeOf(ForecastingNode(s2, agents.forecaster), agents.advisor), agents.writer).error != ""
    ensures ReportGeneratorNode(InvestmentAdviceNodeOf(ForecastingNode(s2, agents.forecaster), agents.advisor), agents.writer).forecasting == s2.forecasting
  {
    var s3 := ForecastingNode(s2, agents.forecaster);
    assert s3 == s2.(error := NoLargestHolding);
    var s4 := InvestmentAdviceNodeOf(s3, agents.advisor);
    assert s4.error != "" && s4.forecasting == s3.forecasting;
  }

  /** A run with a portfolio whose category analysis lists no holdings never
      forecasts: the forecasting node sets its error, and the run reports it. */
  lemma NoHoldingsNoForecast(portfolio: Json, goals: Option<seq<string>>, agents: Agents)
    requires agents.advisor(portfolio, None).Success?
    requires Lookup(Field(agents.advisor(portfolio, None).value, "category_analysis"), "assets") == Success(None)
    ensures Output(GraphOf(InitialState(portfolio, goals), agents)).error != ""
    ensures Get(Output(GraphOf(InitialState(portfolio, goals), agents)).details, "forecasting") == Some(EmptyObj)
  {
    var s0 := InitialState(portfolio, goals);
    var s1 := RiskAssessmentNode(s0, agents.advisor);
    var s2 := MarketAnalysisNode(s1, agents.market);
    assert s2.categoryAnalysis == s1.categoryAnalysis && s2.forecasting == EmptyObj;
    TailWithoutHolding(s2, agents);
  }
}

=== FILE: category_analysis.dfy ===
/** The category view of a valued portfolio: which categories dominate,
    which major ones are missing, how many there are and how concentrated
    the mix is by the Herfindahl-Hirschman index. */
module CategoryAnalysis {
  import opened Wrappers
  import opened Dicts
  import opened Models
  import opened PortfolioMetrics
  import opened RiskAssessment

  const MajorCategories: seq<string> :=
    ["Technology", "Healthcare", "Finance", "Consumer", "Energy", "Industrial", "ETF"]

  // ---------------------------------------------------------------------
  // Specification
  // ---------------------------------------------------------------------

  function Pairs(cs: seq<CategoryAllocation>): (ps: seq<(string, real)>)
    ensures |ps| == |cs|
    ensures forall i :: 0 <= i < |cs| ==> ps[i] == (cs[i].category, cs[i].allocation)
  {
    seq(|cs|, i requires 0 <= i < |cs| => (cs[i].category, cs[i].allocation))
  }

  /** `{cat['category']: cat['allocation'] for cat in rollup}`. */
  function CategoryDict(cs: seq<CategoryAllocation>): Dict<string, real> {
    FromPairs(Pairs(cs))
  }

  /** The categories holding more than 20 percent, in dict order. */
  function Dominant(d: Dict<string, real>): (ds: seq<string>)
    ensures |ds| <= |d|
    ensures forall c :: c in ds <==> exists i :: 0 <= i < |d| && d[i].0 == c && d[i].1 > 20.0
  {
    if d == [] then []
    else
      var init := d[..|d| - 1];
      var last := d[|d| - 1];
      assert forall i :: 0 <= i < |init| ==> init[i] == d[i];
      if last.1 > 20.0 then Dominant(init) + [last.0] else Dominant(init)
  }

  /** The dominant categories keep the dict's order: each one comes from an
      entry later than the one before it, so with distinct keys none
      repeats. */
  lemma {:induction false} DominantInOrder(d: Dict<string, real>)
    ensures forall i, j :: 0 <= i < j < |Dominant(d)| ==>
      exists p, q :: 0 <= p < q < |d| && d[p].0 == Dominant(d)[i] && d[q].0 == Dominant(d)[j]
    ensures DistinctKeys(d) ==> forall i, j :: 0 <= i < j < |Dominant(d)| ==> Dominant(d)[i] != Dominant(d)[j]
  {
    if d != [] {
      var init := d[..|d| - 1];
      var last := d[|d| - 1];
      DominantInOrder(init);
      assert forall i :: 0 <= i < |init| ==> init[i] == d[i];
      var ds := Dominant(d);
      forall i, j | 0 <= i < j < |ds|
        ensures exists p, q :: 0 <= p < q < |d| && d[p].0 == ds[i] && d[q].0 == ds[j]
      {
        if last.1 > 20.0 && j == |ds| - 1 {
          assert ds[i] == Dominant(init)[i] && ds[i] in Dominant(init);
          var p :| 0 <= p < |init| && init[p].0 == ds[i] && init[p].1 > 20.0;
          assert d[p].0 == ds[i] && d[|d| - 1].0 == ds[j];
        } else {
          assert ds[i] == Dominant(init)[i] && ds[j] == Dominant(init)[j];
          var p, q :| 0 <= p < q < |init| && init[p].0 == ds[i] && init[q].0 == ds[j];
          assert d[p].0 == ds[i] && d[q].0 == ds[j];
        }
      }
    } else {
      assert Dominant(d) == [];
    }
  }

  /** A major category is missing when it is absent or holds under 5 percent. */
  predicate IsMissing(d: Dict<string, real>, c: string) {
    match Get(d, c)
    case None => true
    case Some(a) => a < 5.0
  }

  /** The listed major categories that are missing, in list order. */
  function MissingFrom(majors: seq<string>, d: Dict<string, real>): (ms: seq<string>)
    ensures |ms| <= |majors|
    ensures forall c :: c in ms <==> c in majors && IsMissing(d, c)
  {
    if majors == [] then []
    else
      var init := majors[..|majors| - 1];
      var c := majors[|majors| - 1];
      assert majors == init + [c];
      if IsMissing(d, c) then MissingFrom(init, d) + [c] else MissingFrom(init, d)
  }

  /** The missing categories keep the list's order: each one comes from a
      later position than the one before it, so with distinct majors none
      repeats. */
  lemma {:induction false} MissingInOrder(majors: seq<string>, d: Dict<string, real>)
    ensures forall i, j :: 0 <= i < j < |MissingFrom(majors, d)| ==>
      exists p, q :: 0 <= p < q < |majors| && majors[p] == MissingFrom(majors, d)[i] && majors[q] == MissingFrom(majors, d)[j]
    ensures (forall p, q :: 0 <= p < q < |majors| ==> majors[p] != majors[q]) ==>
      forall i, j :: 0 <= i < j < |MissingFrom(majors, d)| ==> MissingFrom(majors, d)[i] != MissingFrom(majors, d)[j]
  {
    if majors != [] {
      var init := majors[..|majors| - 1];
      var c := majors[|majors| - 1];
      MissingInOrder(init, d);
      assert forall i :: 0 <= i < |init| ==> init[i] == majors[i];
      var ms := MissingFrom(majors, d);
      forall i, j | 0 <= i < j < |ms|
        ensures exists p, q :: 0 <= p < q < |majors| && majors[p] == ms[i] && majors[q] == ms[j]
      {
        if IsMissing(d, c) && j == |ms| - 1 {
          assert ms[i] == MissingFrom(init, d)[i] && ms[i] in MissingFrom(init, d);
          var p :| 0 <= p < |init| && init[p] == ms[i];
          assert majors[p] == ms[i] && majors[|majors| - 1] == ms[j];
        } else {
          assert ms[i] == MissingFrom(init, d)[i] && ms[j] == MissingFrom(init, d)[j];
          var p, q :| 0 <= p < q < |init| && init[p] == ms[i] && init[q] == ms[j];
          assert majors[p] == ms[i] && majors[q] == ms[j];
        }
      }
    } else {
      assert MissingFrom(majors, d) == [];
    }
  }

  /** Six or more categories are highly diversified, four or five well, two
      or three moderately, and fewer poorly. */
  function DiversificationLevel(numCategories: nat): (level: string)
    ensures level == "Highly Diversified" <==> numCategories >= 6
    ensures level == "Well Diversified" <==> 4 <= numCategories < 6
    ensures level == "Moderately Diversified" <==> 2 <= numCategories < 4
    ensures level == "Poorly Diversified" <==> numCategories < 2
  {
    if numCategories >= 6 then "Highly Diversified"
    else if numCategories >= 4 then "Well Diversified"
    else if numCategories >= 2 then "Moderately Diversified"
    else "Poorly Diversified"
  }

  /** The sum of the squared allocation fractions. */
  function SumSquares(d: Dict<string, real>): real {
    if d == [] then 0.0
    else SumSquares(d[..|d| - 1]) + (d[|d| - 1].1 / 100.0) * (d[|d| - 1].1 / 100.0)
  }

  /** The Herfindahl-Hirschman index, on the 0 to 10000 scale. */
  function Hhi(d: Dict<string, real>): real {
    SumSquares(d) * 10000.0
  }

  /** An index above 3000 is highly concentrated, one above 1800 up to 3000
      moderately, and any lower one not concentrated. */
  function ConcentrationLevel(hhi: real): (level: string)
    ensures level == "Highly Concentrated" <==> hhi > 3000.0
    ensures level == "Moderately Concentrated" <==> 1800.0 < hhi <= 3000.0
    ensures level == "Not Concentrated" <==> hhi <= 1800.0
  {
    if hhi > 3000.0 then "Highly Concentrated"
    else if hhi > 1800.0 then "Moderately Concentrated"
    else "Not Concentrated"
  }

  datatype CategoryReport = CategoryReport(
    categoryMetrics: seq<CategoryAllocation>,
    dominantCategories: seq<string>,
    missingCategories: seq<string>,
    diversificationLevel: string,
    concentrationLevel: string,
    hhi: real,
    numCategories: nat)

  /** `assess_categories` on a category roll-up: the levels always match the
      count and the index the report carries. */
  function ReportOf(cs: seq<CategoryAllocation>): (r: CategoryReport)
    ensures r.categoryMetrics == cs
    ensures r.diversificationLevel == DiversificationLevel(r.numCategories)
    ensures r.concentrationLevel == ConcentrationLevel(r.hhi)
  {
    var d := CategoryDict(cs);
    CategoryReport(cs, Dominant(d), MissingFrom(MajorCategories, d),
      DiversificationLevel(|d|), ConcentrationLevel(Hhi(d)), Hhi(d), |d|)
  }

  /** Values the portfolio and reports on its categories: one category per
      roll-up entry, the dominant ones those over 20 percent, the missing
      ones the major categories absent or under 5 percent. */
  function AssessCategories(assets: seq<Asset>, prices: PriceLookup, volatility: VolatilityOf): (r: CategoryReport)
    ensures var cs := CategoryRollup(ValuedAssets(assets, prices));
      r.categoryMetrics == cs && r.numCategories == |cs| && r.hhi == Hhi(Pairs(cs)) &&
      r.diversificationLevel == DiversificationLevel(|cs|) &&
      r.concentrationLevel == ConcentrationLevel(r.hhi) &&
      (forall c :: c in r.dominantCategories <==> Dominates(cs, c)) &&
      (forall c :: c in r.missingCategories <==> c in MajorCategories && Lacks(cs, c))
  {
    var cs := MetricsOf(assets, prices, volatility).categoryAllocation;
    assert forall i, j :: 0 <= i < j < |cs| ==> cs[i].category != cs[j].category by {
      forall i, j | 0 <= i < j < |cs| ensures cs[i].category != cs[j].category {
        var va := ValuedAssets(assets, prices);
        assert cs[i].category == CategoriesOf(va)[i] && cs[j].category == CategoriesOf(va)[j];
      }
    }
    ReportOfDistinct(cs);
    ReportOf(cs)
  }

  /** Some entry of the category holds more than 20 percent. */
  predicate Dominates(cs: seq<CategoryAllocation>, c: string) {
    exists i :: 0 <= i < |cs| && cs[i].category == c && cs[i].allocation > 20.0
  }

  /** Every entry of the category (there may be none) holds under 5 percent. */
  predicate Lacks(cs: seq<CategoryAllocation>, c: string) {
    forall i :: 0 <= i < |cs| && cs[i].category == c ==> cs[i].allocation < 5.0
  }

  /** With each category listed once, the report reads straight off the
      entries: one category per entry, the dominant and missing lists as the
      entries' allocations say. */
  lemma ReportOfDistinct(cs: seq<CategoryAllocation>)
    requires forall i, j :: 0 <= i < j < |cs| ==> cs[i].category != cs[j].category
    ensures ReportOf(cs).numCategories == |cs| && ReportOf(cs).hhi == Hhi(Pairs(cs))
    ensures forall c :: c in ReportOf(cs).dominantCategories <==> Dominates(cs, c)
    ensures forall c :: c in ReportOf(cs).missingCategories <==> c in MajorCategories && Lacks(cs, c)
  {
    var ps := Pairs(cs);
    assert DistinctKeys(ps);
    FromDistinctPairs(ps);
    forall c ensures IsMissing(ps, c) <==> Lacks(cs, c) {
      match Find(ps, c)
      case None =>
      case Some(k) =>
        assert Get(ps, c) == Some(cs[k].allocation);
        forall i | 0 <= i < |cs| && cs[i].category == c ensures i == k {
          assert ps[i].0 == c;
        }
    }
  }

  // ---------------------------------------------------------------------
  // Properties
  // ---------------------------------------------------------------------

  function DictSum(d: Dict<string, real>): real {
    if d == [] then 0.0 else DictSum(d[..|d| - 1]) + d[|d| - 1].1
  }

  predicate NonNegative(d: Dict<string, real>) {
    forall i :: 0 <= i < |d| ==> d[i].1 >= 0.0
  }

  lemma SquareStep(s: real, q: real, a: real)
    requires 0.0 <= a && 0.0 <= s && q * 10000.0 <= s * s
    ensures (q + (a / 100.0) * (a / 100.0)) * 10000.0 <= (s + a) * (s + a)
  {
    assert (a / 100.0) * (a / 100.0) * 10000.0 == a * a;
    assert (s + a) * (s + a) == s * s + 2.0 * s * a + a * a;
    assert s * a >= 0.0;
  }

  /** The squares of non-negative parts never add up to more than the
      square of their sum. */
  lemma {:induction false} SumSquaresBound(d: Dict<string, real>)
    requires NonNegative(d)
    ensures 0.0 <= SumSquares(d)
    ensures 0.0 <= DictSum(d) && SumSquares(d) * 10000.0 <= DictSum(d) * DictSum(d)
  {
    if d != [] {
      var init := d[..|d| - 1];
      assert forall i :: 0 <= i < |init| ==> init[i] == d[i];
      SumSquaresBound(init);
      SquareStep(DictSum(init), SumSquares(init), d[|d| - 1].1);
    }
  }

  lemma SquareAtMost(s: real)
    requires 0.0 <= s <= 100.0
    ensures s * s <= 10000.0
  {
    assert s * s <= 100.0 * s;
  }

  /** Allocations that are non-negative and add up to at most 100 percent
      give an index between 0 and 10000. */
  lemma HhiBounds(d: Dict<string, real>)
    requires NonNegative(d) && DictSum(d) <= 100.0
    ensures 0.0 <= Hhi(d) <= 10000.0
  {
    SumSquaresBound(d);
    SquareAtMost(DictSum(d));
  }

  /** The rollup lists each category once, so its dict is its pairs as
      they stand, in the same order. */
  lemma RollupDict(va: seq<ValuedAsset>)
    ensures CategoryDict(CategoryRollup(va)) == Pairs(CategoryRollup(va))
  {
    var cs := CategoryRollup(va);
    assert DistinctKeys(Pairs(cs)) by {
      forall i, j | 0 <= i < j < |cs| ensures Pairs(cs)[i].0 != Pairs(cs)[j].0 {
        assert cs[i].category == CategoriesOf(va)[i] && cs[j].category == CategoriesOf(va)[j];
      }
    }
    FromDistinctPairs(Pairs(cs));
  }

  lemma {:induction false} DictSumPairs(cs: seq<CategoryAllocation>)
    ensures DictSum(Pairs(cs)) == SumCategoryAllocations(cs)
  {
    if cs != [] {
      var init := cs[..|cs| - 1];
      assert Pairs(cs)[..|cs| - 1] == Pairs(init);
      DictSumPairs(init);
    }
  }

  /** The allocations of a portfolio of positive quantities add up to 100
      percent, or to nothing when no asset could be priced. */
  lemma AllocationTotal(assets: seq<Asset>, prices: PriceLookup)
    requires AllValid(assets)
    ensures SumAllocations(ValuedAssets(assets, prices)) ==
      if Priced(assets, prices) == [] then 0.0 else 100.0
  {
    if Priced(assets, prices) != [] {
      PricedValid(assets, prices);
      ValueWithinSum(Priced(assets, prices), prices, 0);
      AllocationsSumTo100(assets, prices);
    }
  }

  /** The index of any portfolio of positive quantities lies between 0 and
      10000. */
  lemma PortfolioHhiBounds(assets: seq<Asset>, prices: PriceLookup, volatility: VolatilityOf)
    requires AllValid(assets)
    ensures 0.0 <= AssessCategories(assets, prices, volatility).hhi <= 10000.0
  {
    var va := ValuedAssets(assets, prices);
    var cs := CategoryRollup(va);
    RollupDict(va);
    RollupEntriesValid(assets, prices);
    assert NonNegative(Pairs(cs)) by {
      forall i | 0 <= i < |cs| ensures Pairs(cs)[i].1 >= 0.0 {
        assert cs[i] in cs;
      }
    }
    DictSumPairs(cs);
    RollupPreservesTotal(va);
    AllocationTotal(assets, prices);
    HhiBounds(Pairs(cs));
  }

  lemma {:induction false} SumSquaresAtLeast(d: Dict<string, real>, k: nat)
    requires k < |d|
    requires forall i :: 0 <= i < |d| ==> d[i].1 >= 0.0
    ensures SumSquares(d) >= (d[k].1 / 100.0) * (d[k].1 / 100.0)
  {
    var init := d[..|d| - 1];
    assert forall i :: 0 <= i < |init| ==> init[i] == d[i];
    if k < |d| - 1 {
      SumSquaresAtLeast(init, k);
      assert (d[|d| - 1].1 / 100.0) * (d[|d| - 1].1 / 100.0) >= 0.0;
    } else if init != [] {
      SumSquaresNonNegative(init);
    }
  }

  lemma {:induction false} SumSquaresNonNegative(d: Dict<string, real>)
    ensures SumSquares(d) >= 0.0
  {
    if d != [] {
      var x := d[|d| - 1].1 / 100.0;
      assert x * x >= 0.0;
      SumSquaresNonNegative(d[..|d| - 1]);
    }
  }

  lemma SquareAbove(sumSquares: real, m: real)
    requires m > 60.0 && sumSquares >= (m / 100.0) * (m / 100.0)
    ensures sumSquares * 10000.0 > 3000.0
  {
    assert (m / 100.0) * (m / 100.0) * 10000.0 == m * m;
    assert m * m > 60.0 * m;
  }

  /** One category over 60 percent alone puts the index above 3000. */
  lemma HhiAbove(d: Dict<string, real>, k: nat)
    requires k < |d| && d[k].1 > 60.0
    requires forall i :: 0 <= i < |d| ==> d[i].1 >= 0.0
    ensures Hhi(d) > 3000.0
  {
    SumSquaresAtLeast(d, k);
    SquareAbove(SumSquares(d), d[k].1);
  }

  /** The risk score's concentration factor and the category report agree at
      the top: a category over 60 percent makes the mix highly concentrated. */
  lemma ConcentrationAgreement(cs: seq<CategoryAllocation>)
    requires cs != []
    requires forall i, j :: 0 <= i < j < |cs| ==> cs[i].category != cs[j].category
    requires forall i :: 0 <= i < |cs| ==> cs[i].allocation >= 0.0
    ensures ConcentrationFactor(cs) == 3 ==> ReportOf(cs).concentrationLevel == "Highly Concentrated"
  {
    if ConcentrationFactor(cs) == 3 {
      ReportOfDistinct(cs);
      var k :| 0 <= k < |cs| && cs[k].allocation == MaxAllocation(cs);
      HhiAbove(Pairs(cs), k);
      assert ReportOf(cs).hhi > 3000.0;
    }
  }

  /** They disagree on an empty rollup, which the risk score treats as fully
      concentrated and the category report as not concentrated at all. */
  lemma EmptyRollupDisagreement()
    ensures ConcentrationFactor([]) == 3 && ReportOf([]).concentrationLevel == "Not Concentrated"
  {
    assert CategoryDict([]) == [];
  }

  /** A portfolio in a single category at 100 percent: index 10000, highly
      concentrated, poorly diversified, the category dominant and every
      other major category missing. */
  lemma SingleCategory(c: string)
    ensures var r := ReportOf([CategoryAllocation(c, 100.0)]);
      r.hhi == 10000.0 && r.concentrationLevel == "Highly Concentrated" &&
      r.diversificationLevel == "Poorly Diversified" && r.numCategories == 1 &&
      r.dominantCategories == [c] &&
      forall m :: m in r.missingCategories <==> m in MajorCategories && m != c
  {
    SingleDict(c);
    var d := [(c, 100.0)];
    assert SumSquares(d) == 1.0 by { assert d[..0] == []; }
    assert Dominant(d) == [c] by { assert d[..0] == []; }
    MissingOthers(c);
  }

  lemma SingleDict(c: string)
    ensures CategoryDict([CategoryAllocation(c, 100.0)]) == [(c, 100.0)]
  {
    assert Pairs([CategoryAllocation(c, 100.0)]) == [(c, 100.0)];
    FromDistinctPairs([(c, 100.0)]);
  }

  lemma MissingOthers(c: string)
    ensures forall m :: m in MissingFrom(MajorCategories, [(c, 100.0)]) <==> m in MajorCategories && m != c
  {
    var d := [(c, 100.0)];
    assert Keys(d) == [c];
    forall m | m in MajorCategories
      ensures IsMissing(d, m) <==> m != c
    {
      assert m == c ==> Get(d, m) == Some(100.0);
    }
  }
}

=== FILE: dicts.dfy ===
/** Python's `dict`: keys kept in first-insertion order, assigning to a key
    that is already present replaces its value where it stands, assigning to a
    new key appends it. */
module Dicts {
  import opened Wrappers

  type Dict<K, V> = seq<(K, V)>

  function Keys<K, V>(d: Dict<K, V>): (ks: seq<K>)
    ensures |ks| == |d|
    ensures forall i :: 0 <= i < |d| ==> ks[i] == d[i].0
  {
    seq(|d|, i requires 0 <= i < |d| => d[i].0)
  }

  predicate DistinctKeys<K(==), V>(d: Dict<K, V>) {
    forall i, j :: 0 <= i < j < |d| ==> d[i].0 != d[j].0
  }

  /** Position of key `k`, the first one if (unlike a real dict) it occurs twice. */
  function Find<K(==), V>(d: Dict<K, V>, k: K): (r: Option<nat>)
    ensures r.Some? ==> r.value < |d| && d[r.value].0 == k
    ensures r.Some? ==> forall i :: 0 <= i < r.value ==> d[i].0 != k
    ensures r.None? <==> forall i :: 0 <= i < |d| ==> d[i].0 != k
  {
    if d == [] then None
    else if d[0].0 == k then Some(0)
    else match Find(d[1..], k)
      case None => None
      case Some(i) => Some(i + 1)
  }

  /** `d.get(k)`, with None standing for a missing key. */
  function Get<K(==), V>(d: Dict<K, V>, k: K): (r: Option<V>)
    ensures r.Some? <==> k in Keys(d)
  {
    match Find(d, k)
    case None => None
    case Some(i) => Some(d[i].1)
  }

  /** `d[k] = v`. */
  function Put<K(==,!new), V>(d: Dict<K, V>, k: K, v: V): (r: Dict<K, V>)
    ensures Get(r, k) == Some(v)
    ensures forall j :: j != k ==> Get(r, j) == Get(d, j)
    ensures k in Keys(d) ==> Keys(r) == Keys(d)
    ensures k !in Keys(d) ==> Keys(r) == Keys(d) + [k]
    ensures DistinctKeys(d) ==> DistinctKeys(r)
    ensures forall i :: 0 <= i < |r| ==> r[i] == (k, v) || r[i] in d
  {
    match Find(d, k)
    case None =>
      var r := d + [(k, v)];
      assert forall j :: j != k ==> Find(r, j) == Find(d, j) by {
        forall j | j != k ensures Find(r, j) == Find(d, j) {
          FindSnoc(d, (k, v), j);
        }
      }
      assert Keys(r) == Keys(d) + [k];
      r
    case Some(i) =>
      var r := d[i := (k, v)];
      FindUpdateSame(d, i, (k, v));
      assert forall j :: j != k ==> Find(r, j) == Find(d, j) by {
        forall j | j != k ensures Find(r, j) == Find(d, j) {
          FindUpdate(d, i, (k, v), j);
        }
      }
      assert Keys(r) == Keys(d);
      r
  }

  lemma {:induction false} FindSnoc<K, V>(d: Dict<K, V>, p: (K, V), j: K)
    requires p.0 != j
    ensures Find(d + [p], j) == Find(d, j)
  {
    if d != [] {
      assert (d + [p])[1..] == d[1..] + [p];
      FindSnoc(d[1..], p, j);
    }
  }

  lemma {:induction false} FindUpdateSame<K, V>(d: Dict<K, V>, i: nat, p: (K, V))
    requires Find(d, p.0) == Some(i)
    ensures Find(d[i := p], p.0) == Some(i)
  {
    if i > 0 {
      assert d[i := p][1..] == d[1..][i - 1 := p];
      FindUpdateSame(d[1..], i - 1, p);
    }
  }

  lemma {:induction false} FindUpdate<K, V>(d: Dict<K, V>, i: nat, p: (K, V), j: K)
    requires i < |d| && d[i].0 == p.0 && p.0 != j
    ensures Find(d[i := p], j) == Find(d, j)
  {
    if i > 0 {
      assert d[i := p][1..] == d[1..][i - 1 := p];
      FindUpdate(d[1..], i - 1, p, j);
    }
  }

  /** The `{k: v for (k, v) in pairs}` comprehension: a later pair for the same
      key overwrites the earlier value. */
  function FromPairs<K(==,!new), V>(pairs: seq<(K, V)>): (d: Dict<K, V>)
    ensures DistinctKeys(d)
  {
    if pairs == [] then []
    else Put(FromPairs(pairs[..|pairs| - 1]), pairs[|pairs| - 1].0, pairs[|pairs| - 1].1)
  }

  /** Pairs whose keys are already distinct are a dict as they stand. */
  lemma {:induction false} FromDistinctPairs<K(!new), V>(pairs: seq<(K, V)>)
    requires DistinctKeys(pairs)
    ensures FromPairs(pairs) == pairs
  {
    if pairs != [] {
      var init := pairs[..|pairs| - 1];
      var last := pairs[|pairs| - 1];
      DistinctInit(pairs);
      FromDistinctPairs(init);
      PutNew(init, last.0, last.1);
      assert init + [last] == pairs;
    }
  }

  /** Dropping the last entry keeps the keys distinct, and the last key is
      not among the others. */
  lemma DistinctInit<K, V>(d: Dict<K, V>)
    requires DistinctKeys(d) && d != []
    ensures DistinctKeys(d[..|d| - 1]) && Find(d[..|d| - 1], d[|d| - 1].0).None?
  {
    var init := d[..|d| - 1];
    forall i, j | 0 <= i < j < |init| ensures init[i].0 != init[j].0 {
      assert init[i] == d[i] && init[j] == d[j];
    }
    forall i | 0 <= i < |init| ensures init[i].0 != d[|d| - 1].0 {
      assert init[i] == d[i];
    }
  }

  /** Assigning a missing key appends it. */
  lemma PutNew<K(!new), V>(d: Dict<K, V>, k: K, v: V)
    requires Find(d, k).None?
    ensures Put(d, k, v) == d + [(k, v)]
  {
  }

  /** In a dict with distinct keys, looking up the key stored at position `t`
      gives the value stored there. */
  lemma {:induction false} GetAt<K, V>(d: Dict<K, V>, t: nat)
    requires DistinctKeys(d) && t < |d|
    ensures Get(d, d[t].0) == Some(d[t].1)
  {
  }

  /** Looking a key up in two dicts laid end to end finds the first one's
      entry when it has one. */
  lemma {:induction false} GetAppend<K, V>(a: Dict<K, V>, b: Dict<K, V>, k: K)
    ensures Get(a + b, k) == if k in Keys(a) then Get(a, k) else Get(b, k)
  {
    FindAppend(a, b, k);
  }

  lemma {:induction false} FindAppend<K, V>(a: Dict<K, V>, b: Dict<K, V>, k: K)
    ensures Find(a + b, k) ==
      if Find(a, k).Some? then Find(a, k)
      else match Find(b, k) case None => None case Some(j) => Some(|a| + j)
  {
    if a == [] {
      assert a + b == b;
    } else if a[0].0 == k {
      assert (a + b)[0] == a[0];
    } else {
      assert (a + b)[0] == a[0];
      assert (a + b)[1..] == a[1..] + b;
      FindAppend(a[1..], b, k);
    }
  }
}

=== FILE: forecast_engine.dfy ===
/** The recursive price forecaster: a regressor fitted on the training rows
    predicts one day at a time from a carried feature row, which each step
    rewrites; the metrics compare the last forecast with the last actual
    close, and the comparative forecast puts a ticker beside the SPY and QQQ
    index funds. The fitted regressor is a parameter. */
module ForecastEngine {
  import opened Wrappers
  import opened Dicts
  import opened MarketData
  import opened Models
  import opened ForecastFeatures

  /** A fitted regressor: the next day's close from one feature row. */
  type Predictor = Features -> Price

  /** Fitting the regressor on the training rows (a foreign library). */
  type Trainer = seq<Row> -> Predictor

  function Min(a: int, b: int): int { if a < b then a else b }

  function Max(a: int, b: int): int { if a < b then b else a }

  /** `s.iloc[k:]`: a negative k counts from the end and is clamped to the
      whole series, a non-negative one skips k values. */
  function Tail(s: seq<real>, k: int): (t: seq<real>)
    ensures |t| == (if k < 0 then Min(-k, |s|) else |s| - Min(k, |s|))
    ensures t == s[|s| - |t|..]
  {
    if k < 0 then s[Max(0, |s| + k)..] else s[Min(k, |s|)..]
  }

  // ---------------------------------------------------------------------
  // The carried feature row
  // ---------------------------------------------------------------------

  /** What the loop reads from the prepared rows: their closes, the last
      row's volatility and index, and the mean volume. */
  datatype History = History(closes: seq<real>, lastVolatility: real, lastRsi: real, meanVolume: real)

  function RowCloses(rows: seq<Row>): (c: seq<real>)
    ensures |c| == |rows| && forall k :: 0 <= k < |rows| ==> c[k] == rows[k].close
  {
    seq(|rows|, k requires 0 <= k < |rows| => rows[k].close as real)
  }

  function Volumes(rows: seq<Row>): (v: seq<real>)
    ensures |v| == |rows| && forall k :: 0 <= k < |rows| ==> v[k] == rows[k].volume
  {
    seq(|rows|, k requires 0 <= k < |rows| => rows[k].volume)
  }

  function HistoryOf(rows: seq<Row>): History
    requires rows != []
  {
    var last := rows[|rows| - 1];
    History(RowCloses(rows), last.volatility, last.rsi, Sum(Volumes(rows)) / |rows| as real)
  }

  /** The carried row after step i = |preds| predicted `next`, where preds
      are the forecasts of the earlier steps. The close is overwritten before
      the return is computed, so from step 1 on the return is next/next - 1. */
  function Step(h: History, f: Features, preds: seq<real>, next: Price): Features {
    Features(
      if |preds| > 0 then next / next - 1.0 else f.ret,
      Ma5Next(h, preds, next),
      Ma20Next(h, preds, next),
      f.ma50,
      h.lastVolatility,
      h.lastRsi,
      h.meanVolume)
  }

  /** The 5-day average of step i = |preds|: at step 0 over the last four
      closes and the prediction, later over the forecasts only. */
  function Ma5Next(h: History, preds: seq<real>, next: Price): real {
    var i := |preds|;
    if i == 0 then (Sum(Tail(h.closes, -4)) + next) / 5.0
    else (Sum(preds[Max(0, i - 4)..i]) + next) / Min(i + 1, 5) as real
  }

  /** The 20-day average of step i = |preds|, over the closes from
      `iloc[-(19 - i):]` on and every forecast so far. */
  function Ma20Next(h: History, preds: seq<real>, next: Price): real {
    var i := |preds|;
    if i == 0 then (Sum(Tail(h.closes, -19)) + next) / 20.0
    else (Sum(Tail(h.closes, -(19 - i))) + Sum(preds[..i]) + next) / 20.0
  }

  /** The forecasts so far and the carried row they leave. */
  datatype Progress = Progress(preds: seq<real>, features: Features)

  /** The first n steps of the loop from the last prepared row's features. */
  function Trace(predict: Predictor, h: History, start: Features, n: nat): (p: Progress)
    ensures |p.preds| == n
    ensures forall i :: 0 <= i < n ==> p.preds[i] > 0.0
  {
    if n == 0 then Progress([], start)
    else
      var q := Trace(predict, h, start, n - 1);
      var next := predict(q.features);
      Progress(q.preds + [next], Step(h, q.features, q.preds, next))
  }

  /** `_train_and_forecast`'s loop. Slot i of the forecast receives the
      prediction of step i. */
  method ForecastLoop(predict: Predictor, h: History, start: Features, days: nat) returns (forecast: array<real>)
    ensures fresh(forecast) && forecast.Length == days
    ensures forecast[..] == Trace(predict, h, start, days).preds
  {
    forecast := new real[days];
    var features := start;
    var i := 0;
    while i < days
      invariant 0 <= i <= days
      invariant forecast[..i] == Trace(predict, h, start, i).preds
      invariant features == Trace(predict, h, start, i).features
    {
      var next := predict(features);
      forecast[i] := next;
      assert forecast[..i + 1] == forecast[..i] + [next];
      features := Step(h, features, forecast[..i], next);
      i := i + 1;
    }
    assert forecast[..] == forecast[..days];
  }

  // ---------------------------------------------------------------------
  // Properties of the loop
  // ---------------------------------------------------------------------

  /** Later steps never revise earlier forecasts. */
  lemma {:induction false} TracePrefix(predict: Predictor, h: History, start: Features, m: nat, n: nat)
    requires m <= n
    ensures Trace(predict, h, start, n).preds[..m] == Trace(predict, h, start, m).preds
  {
    if m < n {
      TracePrefix(predict, h, start, m, n - 1);
      var q := Trace(predict, h, start, n - 1);
      assert Trace(predict, h, start, n).preds == q.preds + [predict(q.features)];
      assert (q.preds + [predict(q.features)])[..m] == q.preds[..m];
    } else {
      assert Trace(predict, h, start, n).preds[..n] == Trace(predict, h, start, n).preds;
    }
  }

  /** Each day's forecast is the regressor applied to the row carried into
      that day. */
  lemma ForecastIsPrediction(predict: Predictor, h: History, start: Features, n: nat, i: nat)
    requires i < n
    ensures Trace(predict, h, start, n).preds[i] == predict(Trace(predict, h, start, i).features)
  {
    TracePrefix(predict, h, start, i + 1, n);
    assert Trace(predict, h, start, n).preds[i] == Trace(predict, h, start, n).preds[..i + 1][i];
    assert Trace(predict, h, start, i + 1).preds[i] == predict(Trace(predict, h, start, i).features);
  }

  /** After any step the carried volatility and index are the last observed
      ones, the volume is the historical mean and the 50-day average is never
      updated; the return is the last row's after step 0 and 0 afterwards. */
  lemma {:induction false} CarriedFeatures(predict: Predictor, h: History, start: Features, n: nat)
    requires n >= 1
    ensures Trace(predict, h, start, n).features.volatility == h.lastVolatility
    ensures Trace(predict, h, start, n).features.rsi == h.lastRsi
    ensures Trace(predict, h, start, n).features.volume == h.meanVolume
    ensures Trace(predict, h, start, n).features.ma50 == start.ma50
    ensures Trace(predict, h, start, n).features.ret == if n == 1 then start.ret else 0.0
  {
    var q := Trace(predict, h, start, n - 1);
    StepCarries(h, q.features, q.preds, predict(q.features));
    if n > 1 {
      CarriedFeatures(predict, h, start, n - 1);
    }
  }

  /** One step keeps the volatility, index, volume and 50-day average it is
      given, and zeroes the return from step 1 on. */
  lemma StepCarries(h: History, f: Features, preds: seq<real>, next: Price)
    ensures Step(h, f, preds, next).volatility == h.lastVolatility
    ensures Step(h, f, preds, next).rsi == h.lastRsi
    ensures Step(h, f, preds, next).volume == h.meanVolume
    ensures Step(h, f, preds, next).ma50 == f.ma50
    ensures Step(h, f, preds, next).ret == if preds == [] then f.ret else 0.0
  {
    assert next / next == 1.0;
  }

  lemma {:induction false} SumConcat(a: seq<real>, b: seq<real>)
    ensures Sum(a + b) == Sum(a) + Sum(b)
  {
    if b != [] {
      SumConcat(a, b[..|b| - 1]);
      assert (a + b)[..|a + b| - 1] == a + b[..|b| - 1];
      assert (a + b)[|a + b| - 1] == b[|b| - 1];
    } else {
      assert a + b == a;
    }
  }

  /** The values the 20-day average of step |preds| adds up. */
  function Ma20Terms(h: History, preds: seq<real>, next: Price): seq<real> {
    Tail(h.closes, -(19 - |preds|)) + preds + [next]
  }

  /** The 20-day average always divides the sum of its terms by 20. With at
      least 19 closes the terms are exactly the last 20 values of the closes
      followed by the forecasts up to the step, but only up to step 18: from
      step 19 on the slice bound turns non-negative and the terms run back to
      the first close, so more than 20 values are divided by 20. */
  lemma Ma20Window(h: History, f: Features, preds: seq<real>, next: Price)
    requires |h.closes| >= 19
    ensures Step(h, f, preds, next).ma20 == Sum(Ma20Terms(h, preds, next)) / 20.0
    ensures |Ma20Terms(h, preds, next)| == 20 <==> |preds| <= 18
    ensures |preds| <= 18 ==> Ma20Terms(h, preds, next) == Tail(h.closes + preds + [next], -20)
  {
    Ma20Sum(h, preds, next);
    if |preds| <= 18 {
      LastTwenty(h.closes, preds, next);
    }
  }

  lemma Ma20Sum(h: History, preds: seq<real>, next: Price)
    ensures Ma20Next(h, preds, next) == Sum(Ma20Terms(h, preds, next)) / 20.0
  {
    var t := Tail(h.closes, -(19 - |preds|));
    SumConcat(t + preds, [next]);
    SumConcat(t, preds);
    assert preds[..|preds|] == preds;
  }

  lemma LastTwenty(c: seq<real>, preds: seq<real>, next: real)
    requires |c| >= 19 && |preds| <= 18
    ensures Tail(c, -(19 - |preds|)) + preds + [next] == Tail(c + preds + [next], -20)
  {
    var ext := c + preds + [next];
    var s := |c| - (19 - |preds|);
    assert Tail(ext, -20) == ext[s..];
    assert ext[s..] == c[s..] + preds + [next];
  }

  /** The 5-day average is a true mean: at step 0 of the last four closes
      and the prediction, */
  lemma Ma5First(h: History, f: Features, next: Price)
    requires |h.closes| >= 4
    ensures Step(h, f, [], next).ma5 == Sum(Tail(h.closes + [next], -5)) / 5.0
  {
    SumConcat(Tail(h.closes, -4), [next]);
    LastFiveCloses(h.closes, next);
  }

  /** later of the last min(i+1, 5) forecasts only. */
  lemma Ma5Later(h: History, f: Features, preds: seq<real>, next: Price)
    requires preds != []
    ensures var m := Min(|preds| + 1, 5);
      |Tail(preds + [next], -m)| == m && Step(h, f, preds, next).ma5 == Sum(Tail(preds + [next], -m)) / m as real
  {
    var i := |preds|;
    var m := Min(i + 1, 5);
    var recent := preds[Max(0, i - 4)..i];
    SumConcat(recent, [next]);
    LastForecasts(preds, next);
    assert |recent + [next]| == m;
    assert Ma5Next(h, preds, next) == (Sum(recent) + next) / m as real;
  }

  lemma LastFiveCloses(closes: seq<real>, next: real)
    requires |closes| >= 4
    ensures Tail(closes + [next], -5) == Tail(closes, -4) + [next]
  {
    var ext := closes + [next];
    assert Tail(ext, -5) == ext[|closes| - 4..];
  }

  lemma LastForecasts(preds: seq<real>, next: real)
    requires preds != []
    ensures Tail(preds + [next], -Min(|preds| + 1, 5)) == preds[Max(0, |preds| - 4)..|preds|] + [next]
  {
    var ext := preds + [next];
    var i := |preds|;
    assert Tail(ext, -Min(i + 1, 5)) == ext[Max(0, i - 4)..];
  }

  // ---------------------------------------------------------------------
  // Dates and metrics
  // ---------------------------------------------------------------------

  /** The forecast dates: day i is i+1 days after the last prepared date. */
  function ForecastDates(lastDate: int, days: nat): (d: seq<int>)
    ensures |d| == days
  {
    seq(days, i requires 0 <= i < days => lastDate + i + 1)
  }

  /** Exactly `days` dates, the first the day after the last date, one day
      apart and so strictly increasing. */
  lemma DatesOneDayApart(lastDate: int, days: nat)
    ensures days > 0 ==> ForecastDates(lastDate, days)[0] == lastDate + 1
    ensures forall i :: 0 <= i < days - 1 ==> ForecastDates(lastDate, days)[i + 1] == ForecastDates(lastDate, days)[i] + 1
    ensures forall i, j :: 0 <= i < j < days ==> ForecastDates(lastDate, days)[i] < ForecastDates(lastDate, days)[j]
  {
  }

  function PercentChange(end: real, last: Price): real {
    (end / last - 1.0) * 100.0
  }

  /** The change is positive exactly when the forecast ends above the last
      close, zero exactly when it ends on it, and scaling the last close by
      it gives back the end price. */
  lemma PercentChangeMeaning(end: real, last: Price)
    ensures PercentChange(end, last) > 0.0 <==> end > last
    ensures PercentChange(end, last) == 0.0 <==> end == last
    ensures last * (1.0 + PercentChange(end, last) / 100.0) == end
  {
    var q := end / last;
    assert q * last == end;
    assert 1.0 + PercentChange(end, last) / 100.0 == q;
    assert q > 1.0 <==> end > last by {
      assert end - last == (q - 1.0) * last;
    }
    assert q == 1.0 <==> end == last;
  }

  function Targets(rows: seq<Row>): (t: seq<real>)
    ensures |t| == |rows| && forall k :: 0 <= k < |rows| ==> t[k] == rows[k].target
  {
    seq(|rows|, k requires 0 <= k < |rows| => rows[k].target as real)
  }

  function Predictions(predict: Predictor, rows: seq<Row>): (p: seq<real>)
    ensures |p| == |rows| && forall k :: 0 <= k < |rows| ==> p[k] == predict(FeaturesOf(rows[k]))
  {
    seq(|rows|, k requires 0 <= k < |rows| => predict(FeaturesOf(rows[k])) as real)
  }

  /** A forecast: its dates, its closes and its metrics. */
  datatype ForecastRun = ForecastRun(dates: seq<int>, closes: seq<real>, metrics: ForecastMetrics)

  /** `_train_and_forecast` on the prepared rows. Fitting on no training
      row fails (fewer than two rows leave the first 80 percent empty), and
      with no forecast day there is no last forecast to read. */
  function TrainAndForecastOf(rows: seq<Row>, days: int, train: Trainer): (r: Result<ForecastRun, ForecastError>)
    ensures r == Failure(TrainingFailed) <==> |rows| < 2
    ensures r == Failure(NoForecastDays) <==> |rows| >= 2 && days <= 0
    ensures r.Success? ==>
      |r.value.dates| == days && |r.value.closes| == days &&
      r.value.metrics.lastActualClose == rows[|rows| - 1].close &&
      r.value.metrics.forecastEndPrice == r.value.closes[days - 1] &&
      r.value.metrics.percentChange == PercentChange(r.value.closes[days - 1], rows[|rows| - 1].close)
    ensures r.Success? ==>
      r.value.dates == ForecastDates(rows[|rows| - 1].date, days) &&
      r.value.closes == Trace(train(TrainRows(rows)), HistoryOf(rows), FeaturesOf(rows[|rows| - 1]), days).preds &&
      r.value.metrics.mae == MeanAbsoluteError(Targets(TestRows(rows)), Predictions(train(TrainRows(rows)), TestRows(rows)))
  {
    if TrainRows(rows) == [] then Failure(TrainingFailed)
    else
      var predict := train(TrainRows(rows));
      var test := TestRows(rows);
      var mae := MeanAbsoluteError(Targets(test), Predictions(predict, test));
      if days <= 0 then Failure(NoForecastDays)
      else
        var last := rows[|rows| - 1];
        var preds := Trace(predict, HistoryOf(rows), FeaturesOf(last), days).preds;
        var end := preds[days - 1];
        Success(ForecastRun(ForecastDates(last.date, days), preds,
          ForecastMetrics(mae, last.close, end, PercentChange(end, last.close))))
  }

  /** `_train_and_forecast`: fit, score the test rows, run the loop, read
      the metrics. */
  method TrainAndForecast(rows: seq<Row>, days: int, train: Trainer) returns (r: Result<ForecastRun, ForecastError>)
    ensures r == TrainAndForecastOf(rows, days, train)
  {
    var trainRows := TrainRows(rows);
    if trainRows == [] {
      return Failure(TrainingFailed);
    }
    var predict := train(trainRows);
    var test := TestRows(rows);
    var mae := MeanAbsoluteError(Targets(test), Predictions(predict, test));
    var last := rows[|rows| - 1];
    var steps: nat := if days < 0 then 0 else days;
    var forecast := ForecastLoop(predict, HistoryOf(rows), FeaturesOf(last), steps);
    if forecast.Length == 0 {
      return Failure(NoForecastDays);
    }
    var end := forecast[forecast.Length - 1];
    r := Success(ForecastRun(ForecastDates(last.date, steps), forecast[..],
      ForecastMetrics(mae, last.close, end, PercentChange(end, last.close))));
  }

  // ---------------------------------------------------------------------
  // The stock forecast tool
  // ---------------------------------------------------------------------

  /** The provider's daily history of each ticker. */
  type Histories = string -> seq<Bar>

  /** One ticker's forecast from its history: preparation, then training. */
  function ForecastOf(ticker: string, days: int, histories: Histories, std: StdOf, train: Trainer): (r: Result<ForecastRun, ForecastError>)
    ensures r == Failure(NoDataFound(ticker)) <==> histories(ticker) == []
    ensures r.Success? ==> |r.value.closes| == days && Plottable(r.value)
  {
    match PrepareStockData(ticker, histories(ticker), std)
    case Failure(e) => Failure(e)
    case Success(rows) => TrainAndForecastOf(rows, days, train)
  }

  /** A forecast record: the day's date and the forecast close. */
  function Records(run: ForecastRun): (recs: seq<(int, real)>)
    requires |run.dates| == |run.closes|
    ensures |recs| == |run.closes|
    ensures forall i :: 0 <= i < |recs| ==> recs[i] == (run.dates[i], run.closes[i])
  {
    seq(|run.closes|, i requires 0 <= i < |run.closes| => (run.dates[i], run.closes[i]))
  }

  datatype StockForecast = StockForecast(ticker: string, forecastDays: int, metrics: ForecastMetrics, forecastData: seq<(int, real)>)

  /** `forecast_stock`: any failure becomes the error alone, with no partial
      result; a success echoes the ticker and the day count and holds one
      record per day. */
  function ForecastStockOf(ticker: string, days: int, histories: Histories, std: StdOf, train: Trainer): (r: Result<StockForecast, ForecastError>)
    ensures r.Failure? <==> ForecastOf(ticker, days, histories, std, train).Failure?
    ensures r.Failure? ==> r.error == ForecastOf(ticker, days, histories, std, train).error
    ensures r.Success? ==>
      r.value.ticker == ticker && r.value.forecastDays == days && |r.value.forecastData| == days &&
      r.value.metrics == ForecastOf(ticker, days, histories, std, train).value.metrics &&
      r.value.forecastData == Records(ForecastOf(ticker, days, histories, std, train).value)
  {
    match ForecastOf(ticker, days, histories, std, train)
    case Failure(e) => Failure(e)
    case Success(run) => Success(StockForecast(ticker, days, run.metrics, Records(run)))
  }

  /** Preparation, then `_train_and_forecast`. */
  method RunForecast(ticker: string, days: int, histories: Histories, std: StdOf, train: Trainer) returns (r: Result<ForecastRun, ForecastError>)
    ensures r == ForecastOf(ticker, days, histories, std, train)
  {
    var prepared := PrepareStockData(ticker, histories(ticker), std);
    if prepared.Failure? {
      return Failure(prepared.error);
    }
    r := TrainAndForecast(prepared.value, days, train);
  }

  method ForecastStock(ticker: string, days: int, histories: Histories, std: StdOf, train: Trainer) returns (r: Result<StockForecast, ForecastError>)
    ensures r == ForecastStockOf(ticker, days, histories, std, train)
  {
    var run := RunForecast(ticker, days, histories, std, train);
    if run.Failure? {
      return Failure(run.error);
    }
    r := Success(StockForecast(ticker, days, run.value.metrics, Records(run.value)));
  }

  // ---------------------------------------------------------------------
  // The comparative forecast tool
  // ---------------------------------------------------------------------

  const Indices: seq<string> := ["SPY", "QQQ"]

  /** A series as percentage change from its first value. */
  function Normalise(s: seq<real>): (n: seq<real>)
    requires s != [] && s[0] > 0.0
    ensures |n| == |s| && n[0] == 0.0
  {
    seq(|s|, i requires 0 <= i < |s| => (s[i] / s[0] - 1.0) * 100.0)
  }

  /** A normalised series keeps the order of the values. */
  lemma NormaliseKeepsOrder(s: seq<real>)
    requires s != [] && s[0] > 0.0
    ensures forall i, j :: 0 <= i < |s| && 0 <= j < |s| ==> (Normalise(s)[i] < Normalise(s)[j] <==> s[i] < s[j])
  {
    forall i, j | 0 <= i < |s| && 0 <= j < |s| ensures Normalise(s)[i] < Normalise(s)[j] <==> s[i] < s[j] {
      DivideKeepsOrder(s[i], s[j], s[0]);
    }
  }

  lemma DivideKeepsOrder(a: real, b: real, c: real)
    requires c > 0.0
    ensures a / c < b / c <==> a < b
  {
    assert b / c - a / c == (b - a) / c;
  }

  /** A forecast whose first close can be normalised against. */
  predicate Plottable(run: ForecastRun) {
    run.closes != [] && run.closes[0] > 0.0
  }

  predicate AllPlottable(d: Dict<string, ForecastRun>) {
    forall i :: 0 <= i < |d| ==> Plottable(d[i].1)
  }

  /** The forecasts of the ticker and then of each index, keyed by symbol in
      an insertion-ordered dictionary; the first failure ends the run. */
  function Collect(syms: seq<string>, acc: Dict<string, ForecastRun>, days: int, histories: Histories, std: StdOf, train: Trainer): (r: Result<Dict<string, ForecastRun>, ForecastError>)
    decreases |syms|
  {
    if syms == [] then Success(acc)
    else
      match ForecastOf(syms[0], days, histories, std, train)
      case Failure(e) => Failure(e)
      case Success(run) => Collect(syms[1..], Put(acc, syms[0], run), days, histories, std, train)
  }

  /** When every forecast succeeds, each symbol already present stays a
      key of the results. */
  lemma {:induction false} CollectKeepsKeys(syms: seq<string>, acc: Dict<string, ForecastRun>, days: int, histories: Histories, std: StdOf, train: Trainer)
    requires Collect(syms, acc, days, histories, std, train).Success?
    ensures forall k :: k in Keys(acc) ==> k in Keys(Collect(syms, acc, days, histories, std, train).value)
    decreases |syms|
  {
    if syms != [] {
      var acc1 := Put(acc, syms[0], ForecastOf(syms[0], days, histories, std, train).value);
      assert Collect(syms, acc, days, histories, std, train) == Collect(syms[1..], acc1, days, histories, std, train);
      CollectKeepsKeys(syms[1..], acc1, days, histories, std, train);
      assert forall k :: k in Keys(acc) ==> k in Keys(acc1);
    }
  }

  /** When every forecast succeeds, each symbol run is a key of the
      results. */
  lemma {:induction false} CollectHasSymbols(syms: seq<string>, acc: Dict<string, ForecastRun>, days: int, histories: Histories, std: StdOf, train: Trainer)
    requires Collect(syms, acc, days, histories, std, train).Success?
    ensures forall k :: k in syms ==> k in Keys(Collect(syms, acc, days, histories, std, train).value)
    decreases |syms|
  {
    if syms != [] {
      var acc1 := Put(acc, syms[0], ForecastOf(syms[0], days, histories, std, train).value);
      assert Collect(syms, acc, days, histories, std, train) == Collect(syms[1..], acc1, days, histories, std, train);
      CollectHasSymbols(syms[1..], acc1, days, histories, std, train);
      CollectKeepsKeys(syms[1..], acc1, days, histories, std, train);
      assert syms[0] in Keys(acc1);
      assert forall k :: k in syms ==> k == syms[0] || k in syms[1..];
    }
  }

  /** When every forecast succeeds, every result can be plotted. */
  lemma {:induction false} CollectPlottable(syms: seq<string>, acc: Dict<string, ForecastRun>, days: int, histories: Histories, std: StdOf, train: Trainer)
    requires Collect(syms, acc, days, histories, std, train).Success? && AllPlottable(acc)
    ensures AllPlottable(Collect(syms, acc, days, histories, std, train).value)
    decreases |syms|
  {
    if syms != [] {
      var acc1 := Put(acc, syms[0], ForecastOf(syms[0], days, histories, std, train).value);
      assert Collect(syms, acc, days, histories, std, train) == Collect(syms[1..], acc1, days, histories, std, train);
      CollectPlottable(syms[1..], acc1, days, histories, std, train);
    }
  }

  /** The results of a comparison whose forecasts all succeed hold both
      indices and can all be plotted. */
  lemma ComparableResults(ticker: string, stock: ForecastRun, days: int, histories: Histories, std: StdOf, train: Trainer)
    requires Plottable(stock) && Collect(Indices, [(ticker, stock)], days, histories, std, train).Success?
    ensures var results := Collect(Indices, [(ticker, stock)], days, histories, std, train).value;
      AllPlottable(results) && "SPY" in Keys(results) && "QQQ" in Keys(results)
  {
    CollectHasSymbols(Indices, [(ticker, stock)], days, histories, std, train);
    CollectPlottable(Indices, [(ticker, stock)], days, histories, std, train);
    assert "SPY" in Indices && "QQQ" in Indices;
  }

  datatype Comparison = Comparison(
    ticker: string, forecastDays: int, stockMetrics: ForecastMetrics,
    indexMetrics: Dict<string, ForecastMetrics>,
    /** The normalised series the comparative figure plots, one per symbol. */
    series: Dict<string, seq<real>>)

  function NormalisedSeries(results: Dict<string, ForecastRun>): (s: Dict<string, seq<real>>)
    requires AllPlottable(results)
    ensures Keys(s) == Keys(results)
    ensures forall i :: 0 <= i < |s| ==> s[i].1 == Normalise(results[i].1.closes)
    ensures forall i :: 0 <= i < |s| ==> s[i].1 != [] && s[i].1[0] == 0.0
  {
    seq(|results|, i requires 0 <= i < |results| => (results[i].0, Normalise(results[i].1.closes)))
  }

  /** The comparison read off the results dictionary. */
  function ComparisonOf(ticker: string, days: int, stock: ForecastRun, results: Dict<string, ForecastRun>): Comparison
    requires AllPlottable(results) && "SPY" in Keys(results) && "QQQ" in Keys(results)
  {
    Comparison(ticker, days, stock.metrics,
      [("SPY", Get(results, "SPY").value.metrics), ("QQQ", Get(results, "QQQ").value.metrics)],
      NormalisedSeries(results))
  }

  /** `compare_forecasts`: the ticker first, then each index in turn into
      the results dictionary; any failure becomes the error alone. */
  function CompareOf(ticker: string, days: int, histories: Histories, std: StdOf, train: Trainer): (r: Result<Comparison, ForecastError>)
  {
    match ForecastOf(ticker, days, histories, std, train)
    case Failure(e) => Failure(e)
    case Success(stock) =>
      match Collect(Indices, [(ticker, stock)], days, histories, std, train)
      case Failure(e) => Failure(e)
      case Success(results) =>
        ComparableResults(ticker, stock, days, histories, std, train);
        Success(ComparisonOf(ticker, days, stock, results))
  }

  method CompareForecasts(ticker: string, days: int, histories: Histories, std: StdOf, train: Trainer) returns (r: Result<Comparison, ForecastError>)
    ensures r == CompareOf(ticker, days, histories, std, train)
  {
    var stock := RunForecast(ticker, days, histories, std, train);
    if stock.Failure? {
      return Failure(stock.error);
    }
    var first := [(ticker, stock.value)];
    var results := first;
    var rest := Indices;
    while rest != []
      invariant Collect(Indices, first, days, histories, std, train) == Collect(rest, results, days, histories, std, train)
      decreases |rest|
    {
      var run := RunForecast(rest[0], days, histories, std, train);
      if run.Failure? {
        return Failure(run.error);
      }
      results := Put(results, rest[0], run.value);
      rest := rest[1..];
    }
    ComparableResults(ticker, stock.value, days, histories, std, train);
    r := Success(ComparisonOf(ticker, days, stock.value, results));
  }

  /** The first failing forecast, in the order the tool runs them. */
  function FirstError(stock: Result<ForecastRun, ForecastError>, spy: Result<ForecastRun, ForecastError>,
                      qqq: Result<ForecastRun, ForecastError>): ForecastError
    requires stock.Failure? || spy.Failure? || qqq.Failure?
  {
    if stock.Failure? then stock.error else if spy.Failure? then spy.error else qqq.error
  }

  /** Running the two index forecasts into `acc`, spelled out. */
  lemma CollectIndices(acc: Dict<string, ForecastRun>, days: int, histories: Histories, std: StdOf, train: Trainer)
    ensures var spy := ForecastOf("SPY", days, histories, std, train);
      var qqq := ForecastOf("QQQ", days, histories, std, train);
      Collect(Indices, acc, days, histories, std, train) ==
        if spy.Failure? then Failure(spy.error)
        else if qqq.Failure? then Failure(qqq.error)
        else Success(Put(Put(acc, "SPY", spy.value), "QQQ", qqq.value))
  {
    var spy := ForecastOf("SPY", days, histories, std, train);
    assert Indices[1..] == ["QQQ"];
    assert ["QQQ"][1..] == [];
    if spy.Success? {
      var acc1 := Put(acc, "SPY", spy.value);
      assert Collect(Indices, acc, days, histories, std, train) == Collect(["QQQ"], acc1, days, histories, std, train);
    }
  }

  /** The comparison fails exactly when one of the three forecasts fails, with
      the first failure's error. */
  lemma CompareFails(ticker: string, days: int, histories: Histories, std: StdOf, train: Trainer)
    ensures var stock := ForecastOf(ticker, days, histories, std, train);
      var spy := ForecastOf("SPY", days, histories, std, train);
      var qqq := ForecastOf("QQQ", days, histories, std, train);
      var r := CompareOf(ticker, days, histories, std, train);
      (r.Failure? <==> stock.Failure? || spy.Failure? || qqq.Failure?) &&
      (r.Failure? ==> r.error == FirstError(stock, spy, qqq))
  {
    var stock := ForecastOf(ticker, days, histories, std, train);
    if stock.Success? {
      CollectIndices([(ticker, stock.value)], days, histories, std, train);
    }
  }

  /** A successful comparison carries the ticker's metrics and each index's
      own, even when the ticker is one of the indices. */
  lemma CompareMetrics(ticker: string, days: int, histories: Histories, std: StdOf, train: Trainer)
    requires CompareOf(ticker, days, histories, std, train).Success?
    ensures CompareOf(ticker, days, histories, std, train).value.stockMetrics == ForecastOf(ticker, days, histories, std, train).value.metrics
    ensures CompareOf(ticker, days, histories, std, train).value.indexMetrics ==
      [("SPY", ForecastOf("SPY", days, histories, std, train).value.metrics),
       ("QQQ", ForecastOf("QQQ", days, histories, std, train).value.metrics)]
  {
    var stock := ForecastOf(ticker, days, histories, std, train).value;
    var spy := ForecastOf("SPY", days, histories, std, train).value;
    var qqq := ForecastOf("QQQ", days, histories, std, train).value;
    CollectIndices([(ticker, stock)], days, histories, std, train);
    var acc1 := Put([(ticker, stock)], "SPY", spy);
    var results := Put(acc1, "QQQ", qqq);
    assert Get(results, "SPY") == Get(acc1, "SPY") == Some(spy) by { assert "SPY" != "QQQ"; }
    assert Get(results, "QQQ") == Some(qqq);
  }

  /** The symbols of the results dictionary after the ticker and the two
      index forecasts went in. */
  lemma ResultSymbols(ticker: string, stock: ForecastRun, spy: ForecastRun, qqq: ForecastRun)
    ensures Keys(Put(Put([(ticker, stock)], "SPY", spy), "QQQ", qqq)) ==
      if ticker == "SPY" then ["SPY", "QQQ"] else if ticker == "QQQ" then ["QQQ", "SPY"] else [ticker, "SPY", "QQQ"]
  {
    var acc := [(ticker, stock)];
    assert Keys(acc) == [ticker];
    var acc1 := Put(acc, "SPY", spy);
    assert Keys(acc1) == if ticker == "SPY" then ["SPY"] else [ticker, "SPY"];
    assert "QQQ" in Keys(acc1) <==> ticker == "QQQ" by { assert "SPY" != "QQQ"; }
  }

  /** A successful comparison plots one normalised series per distinct
      symbol, the ticker's first. */
  lemma CompareSymbols(ticker: string, days: int, histories: Histories, std: StdOf, train: Trainer)
    requires CompareOf(ticker, days, histories, std, train).Success?
    ensures Keys(CompareOf(ticker, days, histories, std, train).value.series) ==
      if ticker == "SPY" then ["SPY", "QQQ"] else if ticker == "QQQ" then ["QQQ", "SPY"] else [ticker, "SPY", "QQQ"]
  {
    var stock := ForecastOf(ticker, days, histories, std, train);
    var spy := ForecastOf("SPY", days, histories, std, train);
    var qqq := ForecastOf("QQQ", days, histories, std, train);
    CollectIndices([(ticker, stock.value)], days, histories, std, train);
    ResultSymbols(ticker, stock.value, spy.value, qqq.value);
  }
}

=== FILE: forecast_features.dfy ===
/** Feature engineering for the price forecaster: daily return, 5/20/50-day
    moving averages, 20-day volatility of returns, the 14-day relative
    strength index and the next day's close as the training target; rows
    with an undefined column are dropped. Then the chronological split into
    training and test rows, and the mean absolute error on the test rows. */
module ForecastFeatures {
  import opened Wrappers
  import opened MarketData

  /** The standard deviation of a window of returns; floating-point
      statistics are not part of this model. */
  type StdOf = seq<real> -> real

  datatype ForecastError =
    | NoDataFound(ticker: string)
    /** The regressor refused to fit on fewer than one training row; the
        wording of its message belongs to the library. */
    | TrainingFailed
    /** No forecast day was asked for, so there is no last forecast to read. */
    | NoForecastDays
  {
    predicate HasMessage() { NoDataFound? }

    function Message(): string
      requires HasMessage()
    {
      "No data found for ticker " + ticker
    }
  }

  /** One prepared row: the day's date and close, its volume, the features
      and the next day's close as target. */
  datatype Row = Row(
    date: int, close: Price, volume: real,
    ret: real, ma5: real, ma20: real, ma50: real, volatility: real, rsi: real,
    target: Price)

  /** The regressor's inputs, in the order the forecaster lists them. */
  datatype Features = Features(
    ret: real, ma5: real, ma20: real, ma50: real, volatility: real, rsi: real, volume: real)

  function FeaturesOf(r: Row): Features {
    Features(r.ret, r.ma5, r.ma20, r.ma50, r.volatility, r.rsi, r.volume)
  }

  function Sum(s: seq<real>): real {
    if s == [] then 0.0 else Sum(s[..|s| - 1]) + s[|s| - 1]
  }

  function Closes(bars: seq<Bar>): (c: seq<real>)
    ensures |c| == |bars|
    ensures forall k :: 0 <= k < |bars| ==> c[k] == bars[k].close
  {
    seq(|bars|, k requires 0 <= k < |bars| => bars[k].close as real)
  }

  // ---------------------------------------------------------------------
  // Column formulas
  // ---------------------------------------------------------------------

  /** `close.pct_change()` at row k >= 1. */
  function Ret(bars: seq<Bar>, k: nat): real
    requires 1 <= k < |bars|
  {
    bars[k].close / bars[k - 1].close - 1.0
  }

  /** The `w`-day moving average ending at row k. */
  function MovingAverage(bars: seq<Bar>, k: nat, w: nat): real
    requires 1 <= w && w - 1 <= k < |bars|
  {
    Sum(Closes(bars)[k - w + 1..k + 1]) / w as real
  }

  /** The 20-day standard deviation of returns ending at row k; the return
      of row 0 is undefined, so row 20 is the first with a full window. */
  function Volatility(bars: seq<Bar>, k: nat, std: StdOf): real
    requires 20 <= k < |bars|
  {
    std(seq(20, j requires 0 <= j < 20 => Ret(bars, k - 19 + j)))
  }

  /** The up-move of row j. Row 0 has no previous close; the undefined
      difference fails the `> 0` test and becomes 0. */
  function GainPart(c: seq<real>, j: nat): (g: real)
    requires j < |c|
    ensures g >= 0.0
  {
    if j >= 1 && c[j] - c[j - 1] > 0.0 then c[j] - c[j - 1] else 0.0
  }

  /** The down-move of row j, as a non-negative amount. */
  function LossPart(c: seq<real>, j: nat): (l: real)
    requires j < |c|
    ensures l >= 0.0
  {
    if j >= 1 && c[j] - c[j - 1] < 0.0 then c[j - 1] - c[j] else 0.0
  }

  /** The 14-day mean of `part` over the rows k-13..k. */
  function WindowMean(parts: seq<real>, k: nat): real
    requires 13 <= k < |parts|
  {
    Sum(parts[k - 13..k + 1]) / 14.0
  }

  function Gains(c: seq<real>): (g: seq<real>)
    ensures |g| == |c| && forall j :: 0 <= j < |c| ==> g[j] == GainPart(c, j)
  {
    seq(|c|, j requires 0 <= j < |c| => GainPart(c, j))
  }

  function Losses(c: seq<real>): (l: seq<real>)
    ensures |l| == |c| && forall j :: 0 <= j < |c| ==> l[j] == LossPart(c, j)
  {
    seq(|c|, j requires 0 <= j < |c| => LossPart(c, j))
  }

  /** `100 - 100 / (1 + gain / loss)` with floating-point division: a zero
      loss makes the ratio infinite and the index 100, unless the gain is
      zero too, which makes it undefined. */
  function RsiFrom(gain: real, loss: real): Option<real>
    requires gain >= 0.0 && loss >= 0.0
  {
    if loss == 0.0 then (if gain == 0.0 then None else Some(100.0))
    else Some(100.0 - 100.0 / (1.0 + gain / loss))
  }

  /** The relative strength index at row k; undefined before row 13. */
  function Rsi(c: seq<real>, k: nat): Option<real>
    requires k < |c|
  {
    if k < 13 then None
    else
      GainLossNonNegative(c, k);
      RsiFrom(WindowMean(Gains(c), k), WindowMean(Losses(c), k))
  }

  // ---------------------------------------------------------------------
  // Row dropping
  // ---------------------------------------------------------------------

  /** A row keeps every column defined: the 50-day average (from row 49 on),
      the target (up to the last row but one) and the index. */
  predicate Survives(bars: seq<Bar>, k: nat) {
    49 <= k <= |bars| - 2 && Rsi(Closes(bars), k).Some?
  }

  function RowAt(bars: seq<Bar>, std: StdOf, k: nat): (r: Row)
    requires Survives(bars, k)
    ensures r.date == bars[k].date && r.close == bars[k].close && r.target == bars[k + 1].close
  {
    Row(bars[k].date, bars[k].close, bars[k].volume,
        Ret(bars, k), MovingAverage(bars, k, 5), MovingAverage(bars, k, 20), MovingAverage(bars, k, 50),
        Volatility(bars, k, std), Rsi(Closes(bars), k).value, bars[k + 1].close)
  }

  /** The positions of the surviving rows among the first m, in order. */
  function SurvivorsUpTo(bars: seq<Bar>, m: nat): (ks: seq<nat>)
    requires m <= |bars|
    ensures forall i :: 0 <= i < |ks| ==> ks[i] < m && Survives(bars, ks[i])
    ensures forall i, j :: 0 <= i < j < |ks| ==> ks[i] < ks[j]
    ensures forall k :: 0 <= k < m && Survives(bars, k) ==> k in ks
  {
    if m == 0 then []
    else if Survives(bars, m - 1) then SurvivorsUpTo(bars, m - 1) + [m - 1]
    else SurvivorsUpTo(bars, m - 1)
  }

  /** `df.dropna()`: the surviving rows, in their original order. */
  function Prepared(bars: seq<Bar>, std: StdOf): (rows: seq<Row>)
    ensures |rows| == |SurvivorsUpTo(bars, |bars|)|
    ensures forall i :: 0 <= i < |rows| ==> rows[i] == RowAt(bars, std, SurvivorsUpTo(bars, |bars|)[i])
  {
    var ks := SurvivorsUpTo(bars, |bars|);
    seq(|ks|, i requires 0 <= i < |ks| => RowAt(bars, std, ks[i]))
  }

  /** `_prepare_stock_data`: an empty history is an error. */
  function PrepareStockData(ticker: string, history: seq<Bar>, std: StdOf): (r: Result<seq<Row>, ForecastError>)
    ensures r.Failure? <==> history == []
    ensures r.Failure? ==> r.error == NoDataFound(ticker)
  {
    if history == [] then Failure(NoDataFound(ticker)) else Success(Prepared(history, std))
  }

  // ---------------------------------------------------------------------
  // Split and error
  // ---------------------------------------------------------------------

  /** `int(len(rows) * 0.8)`. */
  function TrainSize(m: nat): (t: nat)
    ensures t <= m
  {
    (4 * m) / 5
  }

  function TrainRows(rows: seq<Row>): seq<Row> {
    rows[..TrainSize(|rows|)]
  }

  function TestRows(rows: seq<Row>): seq<Row> {
    rows[TrainSize(|rows|)..]
  }

  function Abs(x: real): real { if x < 0.0 then -x else x }

  function AbsErrors(targets: seq<real>, predictions: seq<real>): (e: seq<real>)
    requires |targets| == |predictions|
    ensures |e| == |targets|
    ensures forall i :: 0 <= i < |e| ==> e[i] == Abs(targets[i] - predictions[i])
  {
    seq(|targets|, i requires 0 <= i < |targets| => Abs(targets[i] - predictions[i]))
  }

  /** `mean_absolute_error` over a non-empty set of rows. */
  function MeanAbsoluteError(targets: seq<real>, predictions: seq<real>): real
    requires |targets| == |predictions| && targets != []
  {
    Sum(AbsErrors(targets, predictions)) / |targets| as real
  }

  // ---------------------------------------------------------------------
  // Properties
  // ---------------------------------------------------------------------

  lemma {:induction false} SumNonNegative(s: seq<real>)
    requires forall i :: 0 <= i < |s| ==> s[i] >= 0.0
    ensures Sum(s) >= 0.0
  {
    if s != [] {
      var init := s[..|s| - 1];
      assert forall i :: 0 <= i < |init| ==> init[i] == s[i];
      SumNonNegative(init);
    }
  }

  /** A sum of non-negative terms is zero exactly when every term is. */
  lemma {:induction false} SumZeroIff(s: seq<real>)
    requires forall i :: 0 <= i < |s| ==> s[i] >= 0.0
    ensures Sum(s) == 0.0 <==> forall i :: 0 <= i < |s| ==> s[i] == 0.0
  {
    if s != [] {
      var init := s[..|s| - 1];
      assert forall i :: 0 <= i < |init| ==> init[i] == s[i];
      SumNonNegative(init);
      SumZeroIff(init);
      if Sum(s) == 0.0 {
        forall i | 0 <= i < |s| ensures s[i] == 0.0 {
          if i < |s| - 1 {
            assert init[i] == s[i];
          }
        }
      }
    }
  }

  /** The mean absolute error is never negative, and it is zero exactly when
      every prediction equals its target. */
  lemma MeanAbsoluteErrorBounds(targets: seq<real>, predictions: seq<real>)
    requires |targets| == |predictions| && targets != []
    ensures MeanAbsoluteError(targets, predictions) >= 0.0
    ensures MeanAbsoluteError(targets, predictions) == 0.0 <==> forall i :: 0 <= i < |targets| ==> targets[i] == predictions[i]
  {
    var e := AbsErrors(targets, predictions);
    SumNonNegative(e);
    SumZeroIff(e);
    assert forall i :: 0 <= i < |targets| ==> (e[i] == 0.0 <==> targets[i] == predictions[i]);
  }

  /** The gain and loss means are never negative. */
  lemma GainLossNonNegative(c: seq<real>, k: nat)
    requires 13 <= k < |c|
    ensures WindowMean(Gains(c), k) >= 0.0 && WindowMean(Losses(c), k) >= 0.0
  {
    SumNonNegative(Gains(c)[k - 13..k + 1]);
    SumNonNegative(Losses(c)[k - 13..k + 1]);
  }

  lemma ShareForm(gain: real, loss: real)
    requires gain >= 0.0 && loss > 0.0
    ensures 100.0 - 100.0 / (1.0 + gain / loss) == 100.0 * gain / (gain + loss)
  {
    var t := gain + loss;
    OnePlusRatio(gain, loss);
    DivideByRatio(100.0, t, loss);
    SplitWhole(gain, loss);
  }

  lemma OnePlusRatio(g: real, l: real)
    requires l > 0.0
    ensures 1.0 + g / l == (g + l) / l
  {
    assert (g + l) / l == g / l + l / l;
  }

  lemma DivideByRatio(a: real, t: real, l: real)
    requires t > 0.0 && l > 0.0
    ensures a / (t / l) == a * l / t
  {
  }

  lemma SplitWhole(g: real, l: real)
    requires g + l > 0.0
    ensures 100.0 - 100.0 * l / (g + l) == 100.0 * g / (g + l)
  {
    var t := g + l;
    var x := 100.0 * l / t;
    var y := 100.0 * g / t;
    assert x * t == 100.0 * l;
    assert y * t == 100.0 * g;
    assert (x + y) * t == x * t + y * t;
    assert (x + y) * t == 100.0 * t;
    assert x + y == 100.0;
  }

  lemma ShareBounds(gain: real, loss: real)
    requires gain >= 0.0 && loss >= 0.0 && gain + loss > 0.0
    ensures 0.0 <= 100.0 * gain / (gain + loss) <= 100.0
  {
    assert 100.0 * gain <= 100.0 * (gain + loss);
  }

  /** The index is the gain's share of all movement, in percent: undefined
      exactly when nothing moved, and otherwise between 0 and 100. */
  lemma RsiIsGainShare(gain: real, loss: real)
    requires gain >= 0.0 && loss >= 0.0
    ensures RsiFrom(gain, loss).None? <==> gain + loss == 0.0
    ensures gain + loss > 0.0 ==> RsiFrom(gain, loss) == Some(100.0 * gain / (gain + loss))
    ensures RsiFrom(gain, loss).Some? ==> 0.0 <= RsiFrom(gain, loss).value <= 100.0
  {
    if loss > 0.0 {
      ShareForm(gain, loss);
    } else if gain > 0.0 {
      assert 100.0 * gain / (gain + loss) == 100.0;
    }
    if gain + loss > 0.0 {
      ShareBounds(gain, loss);
    }
  }

  /** Row r carries the date and close of raw row k and the next day's close
      as its target. */
  predicate ComesFrom(bars: seq<Bar>, r: Row, k: nat) {
    k + 1 < |bars| && r.date == bars[k].date && r.close == bars[k].close && r.target == bars[k + 1].close
  }

  /** Row r comes from some raw row from day 49 on. */
  predicate FromFullWindow(bars: seq<Bar>, r: Row) {
    exists k: nat :: 49 <= k < |bars| - 1 && ComesFrom(bars, r, k)
  }

  /** Every prepared row comes from a raw row from day 49 on that has a next
      day, so the last raw row never survives. */
  lemma PreparedRowsHaveTargets(bars: seq<Bar>, std: StdOf)
    ensures forall i :: 0 <= i < |Prepared(bars, std)| ==> FromFullWindow(bars, Prepared(bars, std)[i])
  {
    var rows := Prepared(bars, std);
    var ks := SurvivorsUpTo(bars, |bars|);
    forall i | 0 <= i < |rows| ensures FromFullWindow(bars, rows[i]) {
      var k := ks[i];
      assert Survives(bars, k);
      assert rows[i] == RowAt(bars, std, k);
      assert ComesFrom(bars, rows[i], k);
    }
  }

  /** Conversely, every raw row that keeps all its columns is prepared. */
  lemma SurvivorsArePrepared(bars: seq<Bar>, std: StdOf, k: nat)
    requires k < |bars| && Survives(bars, k)
    ensures RowAt(bars, std, k) in Prepared(bars, std)
  {
    var rows := Prepared(bars, std);
    var ks := SurvivorsUpTo(bars, |bars|);
    var i :| 0 <= i < |ks| && ks[i] == k;
    assert rows[i] == RowAt(bars, std, k);
  }

  lemma {:induction false} NoneSurvive(bars: seq<Bar>, m: nat)
    requires m <= |bars|
    requires forall k :: 0 <= k < m ==> !Survives(bars, k)
    ensures SurvivorsUpTo(bars, m) == []
  {
    if m > 0 {
      NoneSurvive(bars, m - 1);
    }
  }

  /** A history of 50 days or fewer leaves no row: the 50-day average needs
      50 closes and the target one more. */
  lemma ShortHistoryPreparesNothing(bars: seq<Bar>, std: StdOf)
    requires |bars| <= 50
    ensures Prepared(bars, std) == []
  {
    forall k | 0 <= k < |bars| ensures !Survives(bars, k) {
      assert k > |bars| - 2 || k < 49;
    }
    NoneSurvive(bars, |bars|);
  }

  predicate BarsInOrder(bars: seq<Bar>) {
    forall i, j :: 0 <= i < j < |bars| ==> bars[i].date < bars[j].date
  }

  predicate RowsInOrder(rows: seq<Row>) {
    forall i, j :: 0 <= i < j < |rows| ==> rows[i].date < rows[j].date
  }

  /** Dropping rows keeps the chronological order. */
  lemma PreparedInOrder(bars: seq<Bar>, std: StdOf)
    requires BarsInOrder(bars)
    ensures RowsInOrder(Prepared(bars, std))
  {
    var rows := Prepared(bars, std);
    var ks := SurvivorsUpTo(bars, |bars|);
    forall i, j | 0 <= i < j < |rows| ensures rows[i].date < rows[j].date {
      assert rows[i] == RowAt(bars, std, ks[i]) && rows[j] == RowAt(bars, std, ks[j]);
    }
  }

  /** The split is a chronological partition: train is the first 80 percent
      (rounded down), test the rest; test is never empty when there is a
      row, and train is non-empty exactly from two rows on. */
  lemma SplitPartition(rows: seq<Row>)
    ensures TrainRows(rows) + TestRows(rows) == rows
    ensures |TrainRows(rows)| == (4 * |rows|) / 5
    ensures rows != [] ==> TestRows(rows) != []
    ensures TrainRows(rows) != [] <==> |rows| >= 2
  {
  }
}

=== FILE: investment_advice.dfy ===
/** Goal-based advice: the free-text goal is matched to one of three goal
    categories by keywords, the category and the assessed risk level pick a
    target profile, and the language model's advice is kept when it parses,
    a fixed general advice otherwise. */
module InvestmentAdvice {
  import opened Wrappers
  import opened Dicts
  import opened JsonValues
  import opened Models
  import opened PortfolioMetrics
  import opened RiskAssessment

  // ---------------------------------------------------------------------
  // Text helpers (ASCII letters only)
  // ---------------------------------------------------------------------

  predicate IsUpper(c: char) { 'A' <= c <= 'Z' }
  predicate IsLower(c: char) { 'a' <= c <= 'z' }
  predicate IsLetter(c: char) { IsUpper(c) || IsLower(c) }

  function LowerChar(c: char): (r: char)
    ensures IsLetter(r) <==> IsLetter(c)
    ensures !IsUpper(r)
  {
    if IsUpper(c) then (c as int - 'A' as int + 'a' as int) as char else c
  }

  function UpperChar(c: char): (r: char)
    ensures IsLetter(r) <==> IsLetter(c)
    ensures !IsLower(r)
  {
    if IsLower(c) then (c as int - 'a' as int + 'A' as int) as char else c
  }

  /** `s.lower()`. */
  function Lower(s: string): (r: string)
    ensures |r| == |s|
    ensures forall i :: 0 <= i < |s| ==> r[i] == LowerChar(s[i])
  {
    seq(|s|, i requires 0 <= i < |s| => LowerChar(s[i]))
  }

  /** `sub in s` on strings: `sub` occurs at some position of `s`. */
  predicate Occurs(sub: string, s: string) {
    exists i :: 0 <= i <= |s| - |sub| && OccursAt(sub, s, i)
  }

  predicate OccursAt(sub: string, s: string, i: int) {
    0 <= i <= |s| - |sub| && s[i..i + |sub|] == sub
  }

  /** A string containing a character that `s` lacks does not occur in `s`. */
  lemma AbsentChar(sub: string, s: string, k: nat)
    requires k < |sub| && sub[k] !in s
    ensures !Occurs(sub, s)
  {
    forall i | 0 <= i <= |s| - |sub| ensures !OccursAt(sub, s, i) {
      assert s[i..i + |sub|][k] == s[i + k] && s[i + k] in s;
    }
  }

  /** `s.replace('_', ' ')`. */
  function SpaceUnderscores(s: string): (r: string)
    ensures |r| == |s|
    ensures forall i :: 0 <= i < |s| ==> r[i] == if s[i] == '_' then ' ' else s[i]
  {
    seq(|s|, i requires 0 <= i < |s| => if s[i] == '_' then ' ' else s[i])
  }

  /** `str.title()` from a position whose preceding character is a letter
      (`afterLetter`) or not: a letter that starts a word is upper-cased, one
      that continues a word is lower-cased, anything else is kept. */
  function TitleFrom(s: string, afterLetter: bool): (r: string)
    ensures |r| == |s|
  {
    if s == [] then []
    else
      var c := s[0];
      var t := if !IsLetter(c) then c else if afterLetter then LowerChar(c) else UpperChar(c);
      [t] + TitleFrom(s[1..], IsLetter(c))
  }

  function Title(s: string): string {
    TitleFrom(s, false)
  }

  /** Title-casing a title-cased string changes nothing. */
  lemma {:induction false} TitleIdempotent(s: string, afterLetter: bool)
    ensures TitleFrom(TitleFrom(s, afterLetter), afterLetter) == TitleFrom(s, afterLetter)
  {
    if s != [] {
      var r := TitleFrom(s, afterLetter);
      assert r[1..] == TitleFrom(s[1..], IsLetter(s[0]));
      TitleIdempotent(s[1..], IsLetter(s[0]));
    }
  }

  // ---------------------------------------------------------------------
  // Goal matching
  // ---------------------------------------------------------------------

  datatype Goal = Retirement | HomePurchase | AggressiveGrowth {
    /** The goal category's key in the advice report. */
    function Key(): string {
      match this
      case Retirement => "retirement"
      case HomePurchase => "home_purchase"
      case AggressiveGrowth => "aggressive_growth"
    }
  }

  /** The goal categories in the order they are tried. */
  const GoalOrder: seq<Goal> := [Retirement, HomePurchase, AggressiveGrowth]

  function Keywords(g: Goal): seq<string> {
    match g
    case Retirement => ["retirement", "retire", "pension"]
    case HomePurchase => ["home", "house", "property", "real estate", "mortgage"]
    case AggressiveGrowth => ["aggressive", "growth", "risky", "high return"]
  }

  /** `any(keyword in text for keyword in keywords)`. */
  predicate AnyKeyword(keywords: seq<string>, text: string) {
    exists k :: k in keywords && Occurs(k, text)
  }

  predicate Mentions(goal: string, g: Goal) {
    AnyKeyword(Keywords(g), Lower(goal))
  }

  /** The first of `gs` that the goal text mentions. */
  function FirstMentioned(goal: string, gs: seq<Goal>): (r: Option<Goal>)
    ensures r.Some? ==> r.value in gs && Mentions(goal, r.value)
    ensures r.None? <==> forall g :: g in gs ==> !Mentions(goal, g)
  {
    if gs == [] then None
    else if Mentions(goal, gs[0]) then Some(gs[0])
    else FirstMentioned(goal, gs[1..])
  }

  function MatchedGoal(goal: string): Goal {
    FirstMentioned(goal, GoalOrder).GetOr(Retirement)
  }

  /** The matched goal is mentioned by the text, every category tried before
      it is not, and a text mentioning none falls back to retirement. */
  lemma MatchedGoalFirst(goal: string)
    ensures var g := MatchedGoal(goal);
      (g != Retirement ==> Mentions(goal, g) && !Mentions(goal, Retirement)) &&
      (g == AggressiveGrowth ==> !Mentions(goal, HomePurchase)) &&
      (Mentions(goal, Retirement) ==> g == Retirement) &&
      (Mentions(goal, HomePurchase) ==> g != AggressiveGrowth) &&
      (g == Retirement && !Mentions(goal, Retirement) ==>
        !Mentions(goal, HomePurchase) && !Mentions(goal, AggressiveGrowth))
  {
    var gs := GoalOrder;
    assert gs[1..] == [HomePurchase, AggressiveGrowth];
    assert gs[1..][1..] == [AggressiveGrowth];
    if !Mentions(goal, Retirement) {
      assert FirstMentioned(goal, gs) == FirstMentioned(goal, gs[1..]);
      if !Mentions(goal, HomePurchase) {
        assert FirstMentioned(goal, gs[1..]) == FirstMentioned(goal, [AggressiveGrowth]);
      }
    }
  }

  /** Tries the goal categories in order and stops at the first mentioned. */
  method MatchGoal(goal: string) returns (g: Goal)
    ensures g == MatchedGoal(goal)
  {
    var lowered := Lower(goal);
    g := Retirement;
    var i := 0;
    while i < |GoalOrder|
      invariant 0 <= i <= |GoalOrder|
      invariant FirstMentioned(goal, GoalOrder) == FirstMentioned(goal, GoalOrder[i..])
    {
      if AnyKeyword(Keywords(GoalOrder[i]), lowered) {
        g := GoalOrder[i];
        break;
      }
      assert GoalOrder[i..][1..] == GoalOrder[i + 1..];
      i := i + 1;
    }
  }

  // ---------------------------------------------------------------------
  // Target profile
  // ---------------------------------------------------------------------

  /** The goal-by-risk-level table of target profiles. */
  function TargetProfile(g: Goal, level: RiskLevel): Profile {
    match g
    case Retirement =>
      (match level case HighRisk => ModerateRiskProfile case ModerateRisk => ModerateRiskProfile
                   case LowRisk => LowRiskProfile)
    case HomePurchase => LowRiskProfile
    case AggressiveGrowth =>
      (match level case HighRisk => HighRiskProfile case ModerateRisk => HighRiskProfile
                   case LowRisk => ModerateRiskProfile)
  }

  function Rank(p: Profile): int {
    match p
    case LowRiskProfile => 0
    case ModerateRiskProfile => 1
    case HighRiskProfile => 2
  }

  /** How the target moves from the current profile: retirement never aims
      above moderate and never raises the risk, a home purchase always aims
      low, aggressive growth never lowers the risk and always raises it
      short of the top. */
  lemma TargetDirection(level: RiskLevel)
    ensures Rank(TargetProfile(Retirement, level)) <= Rank(ProfileOf(level))
    ensures Rank(TargetProfile(Retirement, level)) <= 1
    ensures TargetProfile(HomePurchase, level) == LowRiskProfile
    ensures Rank(TargetProfile(AggressiveGrowth, level)) >= Rank(ProfileOf(level))
    ensures Rank(ProfileOf(level)) < 2 ==> Rank(TargetProfile(AggressiveGrowth, level)) == Rank(ProfileOf(level)) + 1
  {
  }

  /** The risk level a profile stands for. */
  function ProfileLevel(p: Profile): (level: RiskLevel)
    ensures ProfileOf(level) == p
  {
    match p
    case LowRiskProfile => LowRisk
    case ModerateRiskProfile => ModerateRisk
    case HighRiskProfile => HighRisk
  }

  /** The displayed profile: its key with spaces for underscores, title-cased. */
  function DisplayName(p: Profile): string {
    Title(SpaceUnderscores(p.Key()))
  }

  predicate AllLower(w: string) {
    forall i :: 0 <= i < |w| ==> IsLower(w[i])
  }

  /** Inside a word, lower-case letters stay as they are. */
  lemma {:induction false} TitleLowerPrefix(w: string, rest: string)
    requires AllLower(w)
    ensures TitleFrom(w + rest, true) == w + TitleFrom(rest, true)
  {
    if w != [] {
      assert (w + rest)[0] == w[0] && LowerChar(w[0]) == w[0] && IsLetter(w[0]);
      assert (w + rest)[1..] == w[1..] + rest;
      TitleLowerPrefix(w[1..], rest);
      assert w + TitleFrom(rest, true) == [w[0]] + (w[1..] + TitleFrom(rest, true));
    } else {
      assert w + rest == rest;
    }
  }

  /** Two lower-case words joined by a space come out with each word's first
      letter upper-cased. */
  lemma TitleTwoWords(a: string, b: string)
    requires a != [] && b != [] && AllLower(a) && AllLower(b)
    ensures TitleFrom(a + " " + b, false) == [UpperChar(a[0])] + a[1..] + " " + [UpperChar(b[0])] + b[1..]
  {
    var s := a + " " + b;
    assert s[1..] == a[1..] + (" " + b);
    TitleLowerPrefix(a[1..], " " + b);
    assert (" " + b)[1..] == b;
    assert b[1..] + [] == b[1..];
    TitleLowerPrefix(b[1..], []);
  }

  lemma DisplayLow()
    ensures DisplayName(LowRiskProfile) == "Low Risk"
  {
    assert SpaceUnderscores(LowRiskProfile.Key()) == "low" + " " + "risk";
    TitleTwoWords("low", "risk");
    assert UpperChar('l') == 'L' && UpperChar('r') == 'R';
    assert ['L'] + "ow" + " " + ['R'] + "isk" == "Low Risk";
  }

  lemma DisplayModerate()
    ensures DisplayName(ModerateRiskProfile) == "Moderate Risk"
  {
    assert SpaceUnderscores(ModerateRiskProfile.Key()) == "moderate" + " " + "risk";
    TitleTwoWords("moderate", "risk");
    assert UpperChar('m') == 'M' && UpperChar('r') == 'R';
    assert ['M'] + "oderate" + " " + ['R'] + "isk" == "Moderate Risk";
  }

  lemma DisplayHigh()
    ensures DisplayName(HighRiskProfile) == "High Risk"
  {
    assert SpaceUnderscores(HighRiskProfile.Key()) == "high" + " " + "risk";
    TitleTwoWords("high", "risk");
    assert UpperChar('h') == 'H' && UpperChar('r') == 'R';
    assert ['H'] + "igh" + " " + ['R'] + "isk" == "High Risk";
  }

  /** A profile is displayed exactly as the name of its risk level. */
  lemma DisplayMatchesLevel(p: Profile)
    ensures DisplayName(p) == ProfileLevel(p).Name()
  {
    match p {
      case LowRiskProfile => DisplayLow();
      case ModerateRiskProfile => DisplayModerate();
      case HighRiskProfile => DisplayHigh();
    }
  }

  // ---------------------------------------------------------------------
  // The advice
  // ---------------------------------------------------------------------

  /** The general advice given when the model's reply does not parse. */
  const FallbackAdvice: Json := Obj([
    ("assessment", Str("Unable to analyze portfolio properly.")),
    ("recommendations", Arr(FallbackRecommendations)),
    ("timeline", Str("Your timeline will depend on your specific goals and risk tolerance.")),
    ("allocation_model", FallbackAllocationModel),
    ("additional_notes", Str("This is general advice. Please consult a professional for personalized recommendations."))])

  const FallbackRecommendations: seq<Json> := [
    Str("Consider consulting with a professional financial advisor."),
    Str("Review your portfolio allocation between stocks and bonds."),
    Str("Ensure your investments align with your time horizon.")]

  const FallbackAllocationModel: Json :=
    Obj([("stocks", Num(60.0)), ("bonds", Num(30.0)), ("cash", Num(10.0)), ("other", Num(0.0))])

  /** The four numeric shares of an allocation-model object, if it has them. */
  function ReadAllocationModel(j: Json): (r: Option<AllocationModel>)
    ensures r.Some? ==>
      (Member(j, "stocks") == Some(Num(r.value.stocks)) && Member(j, "bonds") == Some(Num(r.value.bonds)) &&
       Member(j, "cash") == Some(Num(r.value.cash)) && Member(j, "other") == Some(Num(r.value.other)))
  {
    match (Member(j, "stocks"), Member(j, "bonds"), Member(j, "cash"), Member(j, "other"))
    case (Some(Num(s)), Some(Num(b)), Some(Num(c)), Some(Num(o))) => Some(AllocationModel(s, b, c, o))
    case _ => None
  }

  /** The fallback allocation model reads as 60/30/10/0, which passes
      validation and adds up to 100 percent. */
  lemma FallbackAllocationValid()
    ensures ReadAllocationModel(FallbackAllocationModel) == Some(AllocationModel(60.0, 30.0, 10.0, 0.0))
    ensures NewAllocationModel(60.0, 30.0, 10.0, 0.0) == Success(AllocationModel(60.0, 30.0, 10.0, 0.0))
    ensures ReadAllocationModel(FallbackAllocationModel).value.Total() == 100.0
  {
    var d := FallbackAllocationModel.fields;
    assert Find(d, "stocks") == Some(0);
    assert Find(d, "bonds") == Some(1);
    assert Find(d, "cash") == Some(2);
    assert Find(d, "other") == Some(3);
  }

  /** The fallback advice holds its three recommendations and its allocation
      model under the keys the advice format names. */
  lemma FallbackAdviceWellFormed()
    ensures Member(FallbackAdvice, "recommendations") == Some(Arr(FallbackRecommendations))
    ensures |FallbackRecommendations| == 3
    ensures Member(FallbackAdvice, "allocation_model") == Some(FallbackAllocationModel)
  {
    var f := FallbackAdvice.fields;
    assert Find(f, "recommendations") == Some(1);
    assert f[0].0 != "allocation_model" && f[1].0 != "allocation_model" && f[2].0 != "allocation_model";
    assert f[3].0 == "allocation_model";
    assert Find(f, "allocation_model") == Some(3);
  }

  datatype Advice = Advice(
    goal: string,
    matchedGoalCategory: Goal,
    currentRiskProfile: RiskLevel,
    targetRiskProfile: string,
    advice: Json,
    defaultRecommendations: seq<Recommendation>)

  /** The advice for a goal, given the portfolio's assessed risk level and
      the parse outcome of the model's reply. */
  function AdviceFor(goal: string, level: RiskLevel, reply: Option<Json>): Advice {
    var g := MatchedGoal(goal);
    var target := TargetProfile(g, level);
    Advice(goal, g, level, DisplayName(target), reply.GetOr(FallbackAdvice), DefaultRecommendations(target))
  }

  /** Assesses the portfolio's risk, matches the goal and assembles the advice. */
  method ProvideInvestmentAdvice(assets: seq<Asset>, prices: PriceLookup, volatility: VolatilityOf,
                                 goal: string, reply: Option<Json>) returns (a: Advice)
    ensures a == AdviceFor(goal, AssessmentOf(MetricsOf(assets, prices, volatility)).level, reply)
  {
    var risk := AssessRisk(assets, prices, volatility);
    var g := MatchGoal(goal);
    var target := TargetProfile(g, risk.level);
    var advice := if reply.Some? then reply.value else FallbackAdvice;
    a := Advice(goal, g, risk.level, DisplayName(target), advice, DefaultRecommendations(target));
  }

  /** The displayed target is the name of the risk level it stands for, the
      recommendations are that profile's four funds adding up to 100 percent,
      and an unparseable reply yields the fallback advice verbatim. */
  lemma AdviceConsistent(goal: string, level: RiskLevel, reply: Option<Json>)
    ensures var a := AdviceFor(goal, level, reply);
      var target := TargetProfile(a.matchedGoalCategory, level);
      a.targetRiskProfile == ProfileLevel(target).Name() &&
      |a.defaultRecommendations| == 4 && SumRecommended(a.defaultRecommendations) == 100 &&
      (reply.None? ==> a.advice == FallbackAdvice) &&
      (reply.Some? ==> a.advice == reply.value)
  {
    var target := TargetProfile(MatchedGoal(goal), level);
    DisplayMatchesLevel(target);
    RecommendationsSumTo100(target);
  }

  /** "Buy a house" names no retirement keyword and the keyword "house",
      so it is a home purchase. */
  lemma BuyAHouseIsHomePurchase()
    ensures MatchedGoal("Buy a house") == HomePurchase
  {
    var t := Lower("Buy a house");
    assert t == "buy a house";
    assert 'r' !in t && 'p' !in t;
    AbsentChar("retirement", t, 2);
    AbsentChar("retire", t, 0);
    AbsentChar("pension", t, 0);
    assert !Mentions("Buy a house", Retirement);
    assert OccursAt("house", t, 6);
    assert "house" in Keywords(HomePurchase);
    MatchedGoalFirst("Buy a house");
  }

  /** "Buy a house" from a high-risk portfolio aims at the low-risk profile,
      displayed as "Low Risk", with the low-risk funds; without a parsed
      reply the advice is the fallback. */
  lemma HousePurchaseScenario()
    ensures AdviceFor("Buy a house", HighRisk, None).targetRiskProfile == "Low Risk"
    ensures AdviceFor("Buy a house", HighRisk, None).defaultRecommendations == DefaultRecommendations(LowRiskProfile)
    ensures AdviceFor("Buy a house", HighRisk, None).advice == FallbackAdvice
  {
    BuyAHouseIsHomePurchase();
    DisplayLow();
  }
}

=== FILE: json_values.dfy ===
/** The untyped values the agents, the language model and the stores pass
    around (Python `dict`/`list`/`str`/number/`None`). */
module JsonValues {
  import opened Wrappers
  import opened Dicts

  datatype Json =
    | Null
    | Bool(b: bool)
    | Num(n: real)
    | Str(s: string)
    | Arr(items: seq<Json>)
    | Obj(fields: Dict<string, Json>)

  const EmptyObj: Json := Obj([])

  /** `value.get(key)` on a dict, None for any other value. */
  function Member(j: Json, key: string): (r: Option<Json>)
    ensures r.Some? ==> j.Obj? && key in Keys(j.fields)
  {
    if j.Obj? then Get(j.fields, key) else None
  }

  /** `key` occurs in `s` as a contiguous piece: it is a prefix of some suffix. */
  predicate IsSubstring(key: string, s: string) {
    exists i :: 0 <= i <= |s| && key <= s[i..]
  }

  /** The text standing in for Python's TypeError when `in` is applied to a
      number, a boolean or None. */
  const NotIterable: string := "argument is not iterable"

  /** Python's `key in value` for a string key: a dictionary's keys, a
      substring of a string, an element of a list; any other value raises. */
  function In(key: string, j: Json): (r: Result<bool, string>)
    ensures j.Obj? ==> r == Success(key in Keys(j.fields))
    ensures j.Str? ==> r == Success(IsSubstring(key, j.s))
    ensures j.Arr? ==> r == Success(Str(key) in j.items)
    ensures r.Failure? <==> j.Null? || j.Bool? || j.Num?
  {
    match j
    case Obj(fields) => Success(key in Keys(fields))
    case Str(s) => Success(IsSubstring(key, s))
    case Arr(items) => Success(Str(key) in items)
    case _ => Failure(NotIterable)
  }

  /** The text standing in for Python's TypeError when a string or a list is
      subscripted by a string. */
  const NotSubscriptable: string := "indices must be integers"

  /** `value[key] if key in value else None`, the guarded read both
      pipelines make of an analysis: a string or a list that contains the key
      cannot be subscripted by it, so that read fails. */
  function Lookup(j: Json, key: string): (r: Result<Option<Json>, string>)
    ensures j.Obj? ==> r == Success(Member(j, key))
    ensures r.Success? && r.value.Some? ==> j.Obj? && Member(j, key) == r.value
    ensures r.Failure? <==> In(key, j).Failure? || (In(key, j) == Success(true) && !j.Obj?)
  {
    match In(key, j)
    case Failure(e) => Failure(e)
    case Success(found) =>
      if !found then Success(None)
      else if j.Obj? then Success(Get(j.fields, key))
      else Failure(NotSubscriptable)
  }

  /** Python truthiness: `None`, `False`, `0`, and empty strings, lists and
      dicts are false. */
  predicate Truthy(j: Json) {
    match j
    case Null => false
    case Bool(b) => b
    case Num(n) => n != 0.0
    case Str(s) => s != ""
    case Arr(items) => items != []
    case Obj(fields) => fields != []
  }
}

/** Daily price data as the price-history provider delivers it. */
module MarketData {

  /** A closing price; the provider's closes are strictly positive. */
  type Price = r: real | r > 0.0 witness 1.0

  /** One daily row of a history: its date as a day number, the close and the
      traded volume (open, high and low are not used by the core). */
  datatype Bar = Bar(date: int, close: Price, volume: real)
}

=== FILE: models.dfy ===
/** The request and response records with their field constraints. Building a
    record goes through a validating constructor, as the model library does:
    it either yields the record or reports every field that breaks a bound. */
module Models {
  import opened Wrappers
  import opened Dicts
  import opened JsonValues

  predicate InRange(x: real, lo: real, hi: real) { lo <= x <= hi }

  /** The names of the fields that failed validation, in declaration order. */
  type ValidationErrors = seq<string>

  // ---- Asset: quantity > 0 ----

  datatype Asset = Asset(ticker: string, quantity: real)

  predicate ValidAsset(a: Asset) { a.quantity > 0.0 }

  function NewAsset(ticker: string, quantity: real): (r: Result<Asset, ValidationErrors>)
    ensures r.Success? <==> quantity > 0.0
    ensures r.Success? ==> r.value.ticker == ticker && r.value.quantity == quantity && ValidAsset(r.value)
    ensures r.Failure? ==> r.error == ["quantity"]
  {
    if quantity > 0.0 then Success(Asset(ticker, quantity)) else Failure(["quantity"])
  }

  // ---- Risk factors (no bounds declared) and risk assessment ----

  datatype RiskFactor = RiskFactor(diversification: int, volatility: int, categoryConcentration: int)

  // ---- CategoryAllocation: 0 <= allocation <= 100 ----

  datatype CategoryAllocation = CategoryAllocation(category: string, allocation: real)

  predicate ValidCategoryAllocation(c: CategoryAllocation) { InRange(c.allocation, 0.0, 100.0) }

  function NewCategoryAllocation(category: string, allocation: real): (r: Result<CategoryAllocation, ValidationErrors>)
    ensures r.Success? <==> 0.0 <= allocation <= 100.0
    ensures r.Success? ==> r.value == CategoryAllocation(category, allocation) && ValidCategoryAllocation(r.value)
    ensures r.Failure? ==> r.error == ["allocation"]
  {
    if InRange(allocation, 0.0, 100.0) then Success(CategoryAllocation(category, allocation))
    else Failure(["allocation"])
  }

  // ---- SentimentAnalysis: 0 <= confidence <= 1 ----

  datatype SentimentAnalysis = SentimentAnalysis(sentiment: string, confidence: real, keyPoints: seq<string>)

  predicate ValidSentiment(s: SentimentAnalysis) { InRange(s.confidence, 0.0, 1.0) }

  function NewSentimentAnalysis(sentiment: string, confidence: real, keyPoints: seq<string>): (r: Result<SentimentAnalysis, ValidationErrors>)
    ensures r.Success? <==> 0.0 <= confidence <= 1.0
    ensures r.Success? ==> r.value == SentimentAnalysis(sentiment, confidence, keyPoints) && ValidSentiment(r.value)
    ensures r.Failure? ==> r.error == ["confidence"]
  {
    if InRange(confidence, 0.0, 1.0) then Success(SentimentAnalysis(sentiment, confidence, keyPoints))
    else Failure(["confidence"])
  }

  // ---- AllocationModel: each of the four shares in [0, 100] ----

  datatype AllocationModel = AllocationModel(stocks: real, bonds: real, cash: real, other: real) {
    /** The four shares together, in percent. */
    function Total(): real {
      stocks + bonds + cash + other
    }
  }

  predicate ValidAllocationModel(m: AllocationModel) {
    InRange(m.stocks, 0.0, 100.0) && InRange(m.bonds, 0.0, 100.0) &&
    InRange(m.cash, 0.0, 100.0) && InRange(m.other, 0.0, 100.0)
  }

  /** `[name]` when `x` breaks the field's [0, 100] bound, else nothing. */
  function RangeError(name: string, x: real): (errs: ValidationErrors)
    ensures errs == [] <==> InRange(x, 0.0, 100.0)
    ensures errs != [] ==> errs == [name]
  {
    if InRange(x, 0.0, 100.0) then [] else [name]
  }

  function NewAllocationModel(stocks: real, bonds: real, cash: real, other: real): (r: Result<AllocationModel, ValidationErrors>)
    ensures r.Success? <==> ValidAllocationModel(AllocationModel(stocks, bonds, cash, other))
    ensures r.Success? ==> r.value == AllocationModel(stocks, bonds, cash, other)
    ensures r.Failure? ==> r.error != [] && ("stocks" in r.error <==> !InRange(stocks, 0.0, 100.0))
    ensures r.Failure? ==> ("bonds" in r.error <==> !InRange(bonds, 0.0, 100.0))
    ensures r.Failure? ==> ("cash" in r.error <==> !InRange(cash, 0.0, 100.0))
    ensures r.Failure? ==> ("other" in r.error <==> !InRange(other, 0.0, 100.0))
  {
    var errs := RangeError("stocks", stocks) + RangeError("bonds", bonds) +
                RangeError("cash", cash) + RangeError("other", other);
    if errs == [] then Success(AllocationModel(stocks, bonds, cash, other))
    else Failure(errs)
  }

  // ---- Forecast records; `plot` defaults to None ----

  datatype ForecastMetrics = ForecastMetrics(mae: real, lastActualClose: real, forecastEndPrice: real, percentChange: real)

  datatype ForecastResult = ForecastResult(ticker: string, forecastDays: int, metrics: ForecastMetrics, plot: Option<string>)

  function NewForecastResult(ticker: string, forecastDays: int, metrics: ForecastMetrics, plot: Option<string> := None): (r: ForecastResult)
    ensures r.ticker == ticker && r.forecastDays == forecastDays && r.metrics == metrics && r.plot == plot
  {
    ForecastResult(ticker, forecastDays, metrics, plot)
  }

  // ---- PortfolioAnalysisResponse; `error` defaults to "" and `details` to {} ----

  datatype PortfolioAnalysisResponse = PortfolioAnalysisResponse(report: string, error: string, details: Dict<string, Json>)

  function NewPortfolioAnalysisResponse(report: string, error: string := "", details: Dict<string, Json> := []): (r: PortfolioAnalysisResponse)
    ensures r.report == report && r.error == error && r.details == details
  {
    PortfolioAnalysisResponse(report, error, details)
  }

  /** Leaving out the optional fields gives the documented defaults. */
  lemma DefaultsWhenOmitted(report: string, ticker: string, days: int, metrics: ForecastMetrics)
    ensures NewPortfolioAnalysisResponse(report).error == ""
    ensures NewPortfolioAnalysisResponse(report).details == []
    ensures NewForecastResult(ticker, days, metrics).plot == None
  {
  }
}

=== FILE: portfolio_metrics.dfy ===
/** Portfolio valuation: per-asset prices, values and allocation percentages,
    the per-category rollup through the static ticker table, and the period
    returns of the combined value series. Price histories are an input map
    (they come from the external price-history provider). */
module PortfolioMetrics {
  import opened Wrappers
  import opened Dicts
  import opened MarketData
  import opened Models

  // ---------------------------------------------------------------------
  // The static ticker -> category table
  // ---------------------------------------------------------------------

  const TechnologyTickers: seq<string> :=
    ["AAPL", "MSFT", "GOOGL", "GOOG", "META", "AMZN", "NVDA", "TSLA",
     "AMD", "INTC", "IBM", "CSCO", "ORCL", "CRM", "ADBE"]
  const HealthcareTickers: seq<string> :=
    ["JNJ", "PFE", "MRK", "ABT", "UNH", "ABBV", "BMY", "TMO", "DHR", "AMGN"]
  const FinanceTickers: seq<string> :=
    ["JPM", "BAC", "WFC", "GS", "MS", "C", "AXP", "BLK", "SCHW"]
  const ConsumerTickers: seq<string> :=
    ["KO", "PEP", "PG", "WMT", "MCD", "SBUX", "NKE", "DIS", "HD", "COST"]
  const EnergyTickers: seq<string> := ["XOM", "CVX", "COP", "EOG", "SLB", "OXY"]
  const TelecomTickers: seq<string> := ["VZ", "T", "TMUS"]
  const RealEstateTickers: seq<string> := ["AMT", "EQIX", "PLD", "CCI"]
  const IndustrialTickers: seq<string> := ["GE", "MMM", "HON", "CAT", "BA", "LMT", "RTX"]
  const EtfTickers: seq<string> :=
    ["SPY", "QQQ", "IWM", "DIA", "VTI", "VOO", "VEA", "VWO", "BND", "AGG",
     "VNQ", "GLD", "SLV"]

  /** Every category the table can produce, the default included. */
  const CategoryNames: seq<string> :=
    ["Technology", "Healthcare", "Finance", "Consumer", "Energy",
     "Telecommunications", "Real Estate", "Industrial", "ETF", "Other"]

  /** The category of a ticker; tickers outside the table are "Other". */
  function CategoryOf(ticker: string): (category: string)
    ensures category in CategoryNames
    ensures category == "Other" <==>
      ticker !in TechnologyTickers + HealthcareTickers + FinanceTickers + ConsumerTickers +
                 EnergyTickers + TelecomTickers + RealEstateTickers + IndustrialTickers + EtfTickers
  {
    if ticker in TechnologyTickers then "Technology"
    else if ticker in HealthcareTickers then "Healthcare"
    else if ticker in FinanceTickers then "Finance"
    else if ticker in ConsumerTickers then "Consumer"
    else if ticker in EnergyTickers then "Energy"
    else if ticker in TelecomTickers then "Telecommunications"
    else if ticker in RealEstateTickers then "Real Estate"
    else if ticker in IndustrialTickers then "Industrial"
    else if ticker in EtfTickers then "ETF"
    else "Other"
  }

  // ---------------------------------------------------------------------
  // Data model
  // ---------------------------------------------------------------------

  /** Close history per ticker: a missing key was never fetched, None is a
      fetch that raised, Some([]) is an empty history. */
  type PriceLookup = map<string, Option<seq<Price>>>

  datatype ValuedAsset = ValuedAsset(
    ticker: string, quantity: real, price: Price, value: real, category: string, allocation: real)

  /** A period return in percent; DivByZero stands for the infinite or NaN
      value the dataframe arithmetic yields when the base value is 0. */
  datatype PeriodReturn = Pct(percent: real) | DivByZero

  datatype Metrics = Metrics(
    totalValue: real,
    assets: seq<ValuedAsset>,
    categoryAllocation: seq<CategoryAllocation>,
    periodReturns: Dict<string, PeriodReturn>)

  /** The annualised volatility of a value series, in percent (the standard
      deviation of its daily changes times the square root of 252). */
  type VolatilityOf = seq<real> -> real

  // ---------------------------------------------------------------------
  // Specification: valuation
  // ---------------------------------------------------------------------

  /** The ticker has a non-empty history. */
  predicate HasHistory(prices: PriceLookup, ticker: string) {
    ticker in prices && prices[ticker].Some? && |prices[ticker].value| > 0
  }

  function History(prices: PriceLookup, ticker: string): seq<Price>
    requires HasHistory(prices, ticker)
  {
    prices[ticker].value
  }

  function LastClose(prices: PriceLookup, ticker: string): Price
    requires HasHistory(prices, ticker)
  {
    var h := History(prices, ticker);
    h[|h| - 1]
  }

  /** The assets that can be valued, in input order; duplicates stay separate. */
  function Priced(assets: seq<Asset>, prices: PriceLookup): (p: seq<Asset>)
    ensures |p| <= |assets|
    ensures AllPriced(p, prices)
  {
    if assets == [] then []
    else
      var init := Priced(assets[..|assets| - 1], prices);
      var a := assets[|assets| - 1];
      if HasHistory(prices, a.ticker) then init + [a] else init
  }

  function Value(a: Asset, prices: PriceLookup): real
    requires HasHistory(prices, a.ticker)
  {
    LastClose(prices, a.ticker) * a.quantity
  }

  predicate AllPriced(p: seq<Asset>, prices: PriceLookup) {
    forall i :: 0 <= i < |p| ==> HasHistory(prices, p[i].ticker)
  }

  function SumValues(p: seq<Asset>, prices: PriceLookup): real
    requires AllPriced(p, prices)
  {
    if p == [] then 0.0 else SumValues(p[..|p| - 1], prices) + Value(p[|p| - 1], prices)
  }

  function TotalValue(assets: seq<Asset>, prices: PriceLookup): real {
    SumValues(Priced(assets, prices), prices)
  }

  /** An allocation percentage; 0 when the total is not positive. */
  function AllocationPct(value: real, total: real): real {
    if total > 0.0 then value / total * 100.0 else 0.0
  }

  /** The valued record of a priced asset before its allocation is known. */
  function Position(a: Asset, prices: PriceLookup): ValuedAsset
    requires HasHistory(prices, a.ticker)
  {
    ValuedAsset(a.ticker, a.quantity, LastClose(prices, a.ticker), Value(a, prices), CategoryOf(a.ticker), 0.0)
  }

  function Valuation(a: Asset, prices: PriceLookup, total: real): ValuedAsset
    requires HasHistory(prices, a.ticker)
  {
    var pos := Position(a, prices);
    pos.(allocation := AllocationPct(pos.value, total))
  }

  function Valuations(p: seq<Asset>, prices: PriceLookup, total: real): (va: seq<ValuedAsset>)
    requires AllPriced(p, prices)
    ensures |va| == |p|
    ensures forall i :: 0 <= i < |p| ==> va[i] == Valuation(p[i], prices, total)
  {
    seq(|p|, i requires 0 <= i < |p| => Valuation(p[i], prices, total))
  }

  function ValuedAssets(assets: seq<Asset>, prices: PriceLookup): seq<ValuedAsset> {
    Valuations(Priced(assets, prices), prices, TotalValue(assets, prices))
  }

  // ---------------------------------------------------------------------
  // Specification: category rollup
  // ---------------------------------------------------------------------

  /** The distinct categories of `va`, in order of first appearance. */
  function CategoriesOf(va: seq<ValuedAsset>): (cs: seq<string>)
    ensures forall i, j :: 0 <= i < j < |cs| ==> cs[i] != cs[j]
    ensures va != [] ==> va[|va| - 1].category in cs
  {
    if va == [] then []
    else
      var init := CategoriesOf(va[..|va| - 1]);
      var c := va[|va| - 1].category;
      if c in init then init else init + [c]
  }

  /** The summed allocation of the assets in category `c`. */
  function CategoryTotal(va: seq<ValuedAsset>, c: string): real {
    if va == [] then 0.0
    else
      var last := va[|va| - 1];
      CategoryTotal(va[..|va| - 1], c) + (if last.category == c then last.allocation else 0.0)
  }

  function CategoryRollup(va: seq<ValuedAsset>): (r: seq<CategoryAllocation>)
    ensures |r| == |CategoriesOf(va)|
    ensures forall i :: 0 <= i < |r| ==> r[i] == CategoryAllocation(CategoriesOf(va)[i], CategoryTotal(va, CategoriesOf(va)[i]))
  {
    var cs := CategoriesOf(va);
    seq(|cs|, i requires 0 <= i < |cs| => CategoryAllocation(cs[i], CategoryTotal(va, cs[i])))
  }

  // ---------------------------------------------------------------------
  // Specification: returns of the combined value series
  // ---------------------------------------------------------------------

  predicate AllHaveHistory(assets: seq<Asset>, prices: PriceLookup) {
    forall i :: 0 <= i < |assets| ==> HasHistory(prices, assets[i].ticker)
  }

  function Scaled(h: seq<Price>, q: real): (s: seq<real>)
    ensures |s| == |h|
    ensures forall k :: 0 <= k < |h| ==> s[k] == h[k] * q
  {
    seq(|h|, k requires 0 <= k < |h| => h[k] * q)
  }

  /** One value column per ticker; a repeated ticker replaces its column. */
  function ValueColumns(assets: seq<Asset>, prices: PriceLookup): Dict<string, seq<real>>
    requires AllHaveHistory(assets, prices)
  {
    if assets == [] then []
    else
      var a := assets[|assets| - 1];
      Put(ValueColumns(assets[..|assets| - 1], prices), a.ticker, Scaled(History(prices, a.ticker), a.quantity))
  }

  /** Row `k` of the summed columns; a column too short to reach row `k` adds nothing. */
  function RowSum(cols: Dict<string, seq<real>>, k: int): real {
    if cols == [] then 0.0
    else
      var col := cols[|cols| - 1].1;
      RowSum(cols[..|cols| - 1], k) + (if 0 <= k < |col| then col[k] else 0.0)
  }

  /** The combined value series; its rows are those of the first asset's history. */
  function TotalSeries(assets: seq<Asset>, prices: PriceLookup): (s: seq<real>)
    requires AllHaveHistory(assets, prices)
    ensures assets == [] ==> s == []
    ensures assets != [] ==> |s| == |History(prices, assets[0].ticker)|
  {
    if assets == [] then []
    else
      var cols := ValueColumns(assets, prices);
      seq(|History(prices, assets[0].ticker)|, k => RowSum(cols, k))
  }

  function PctChange(latest: real, base: real): PeriodReturn {
    if base != 0.0 then Pct((latest / base - 1.0) * 100.0) else DivByZero
  }

  /** The return over the last `days` rows, when the series has that many. */
  function PeriodEntry(s: seq<real>, key: string, days: nat): (e: Dict<string, PeriodReturn>)
    requires days > 0
    ensures Keys(e) == if |s| >= days then [key] else []
  {
    if |s| >= days then [(key, PctChange(s[|s| - 1], s[|s| - days]))] else []
  }

  /** The returns of a non-empty value series. */
  function SeriesReturns(s: seq<real>, volatility: VolatilityOf): Dict<string, PeriodReturn>
    requires |s| > 0
  {
    PeriodEntry(s, "1m", 30) + PeriodEntry(s, "3m", 90) + PeriodEntry(s, "1y", 252) +
    VolatilityEntry(s, volatility)
  }

  function ReturnsOf(assets: seq<Asset>, prices: PriceLookup, volatility: VolatilityOf): Dict<string, PeriodReturn> {
    if !AllHaveHistory(assets, prices) then []
    else
      var s := TotalSeries(assets, prices);
      if |s| == 0 then [] else SeriesReturns(s, volatility)
  }

  function MetricsOf(assets: seq<Asset>, prices: PriceLookup, volatility: VolatilityOf): Metrics {
    var va := ValuedAssets(assets, prices);
    Metrics(TotalValue(assets, prices), va, CategoryRollup(va), ReturnsOf(assets, prices, volatility))
  }

  // ---------------------------------------------------------------------
  // Implementation
  // ---------------------------------------------------------------------

  /** The valued records of priced assets before allocations are known. */
  function Positions(p: seq<Asset>, prices: PriceLookup): (rows: seq<ValuedAsset>)
    requires AllPriced(p, prices)
    ensures |rows| == |p|
    ensures forall k :: 0 <= k < |p| ==> rows[k] == Position(p[k], prices)
  {
    seq(|p|, k requires 0 <= k < |p| => Position(p[k], prices))
  }

  lemma {:induction false} PricedSnoc(assets: seq<Asset>, i: nat, prices: PriceLookup)
    requires i < |assets|
    ensures Priced(assets[..i + 1], prices) ==
      Priced(assets[..i], prices) + (if HasHistory(prices, assets[i].ticker) then [assets[i]] else [])
  {
    assert assets[..i + 1][..i] == assets[..i];
  }

  lemma {:induction false} PositionsSnoc(priced: seq<Asset>, a: Asset, prices: PriceLookup)
    requires AllPriced(priced, prices) && HasHistory(prices, a.ticker)
    ensures AllPriced(priced + [a], prices)
    ensures SumValues(priced + [a], prices) == SumValues(priced, prices) + Value(a, prices)
    ensures Positions(priced + [a], prices) == Positions(priced, prices) + [Position(a, prices)]
  {
    assert (priced + [a])[..|priced|] == priced;
  }

  /** The first pass: price every asset that has a history and add up the values. */
  method PricePositions(assets: seq<Asset>, prices: PriceLookup) returns (total: real, rows: seq<ValuedAsset>)
    ensures total == TotalValue(assets, prices)
    ensures rows == Positions(Priced(assets, prices), prices)
  {
    total := 0.0;
    rows := [];
    ghost var priced: seq<Asset> := [];
    for i := 0 to |assets|
      invariant priced == Priced(assets[..i], prices)
      invariant total == SumValues(priced, prices)
      invariant rows == Positions(priced, prices)
    {
      var a := assets[i];
      PricedSnoc(assets, i, prices);
      if HasHistory(prices, a.ticker) {
        var price := LastClose(prices, a.ticker);
        var value := Value(a, prices);
        PositionsSnoc(priced, a, prices);
        total := total + value;
        rows := rows + [ValuedAsset(a.ticker, a.quantity, price, value, CategoryOf(a.ticker), 0.0)];
        priced := priced + [a];
      }
    }
    assert assets[..|assets|] == assets;
  }

  /** The second pass: write each row's share of `total` into it, in place. */
  method SetAllocations(table: array<ValuedAsset>, total: real)
    modifies table
    ensures forall k :: 0 <= k < table.Length ==>
      table[k] == old(table[k]).(allocation := AllocationPct(old(table[k]).value, total))
  {
    for j := 0 to table.Length
      invariant forall k :: 0 <= k < j ==>
        table[k] == old(table[k]).(allocation := AllocationPct(old(table[k]).value, total))
      invariant forall k :: j <= k < table.Length ==> table[k] == old(table[k])
    {
      table[j] := table[j].(allocation := if total > 0.0 then table[j].value / total * 100.0 else 0.0);
    }
  }

  method ValueAssets(assets: seq<Asset>, prices: PriceLookup) returns (total: real, va: seq<ValuedAsset>)
    ensures total == TotalValue(assets, prices)
    ensures va == ValuedAssets(assets, prices)
  {
    var rows;
    total, rows := PricePositions(assets, prices);
    var table := new ValuedAsset[|rows|](k requires 0 <= k < |rows| => rows[k]);
    SetAllocations(table, total);
    va := table[..];
  }

  lemma {:induction false} CategoryTotalAbsent(va: seq<ValuedAsset>, c: string)
    requires c !in CategoriesOf(va)
    ensures CategoryTotal(va, c) == 0.0
  {
    if va != [] {
      assert va[|va| - 1].category in CategoriesOf(va);
      CategoryTotalAbsent(va[..|va| - 1], c);
    }
  }

  /** The rollup dict holds, for each category seen in `pre` and in that
      order, the summed allocation of its assets. */
  predicate RollupInv(d: Dict<string, real>, pre: seq<ValuedAsset>) {
    Keys(d) == CategoriesOf(pre) && DistinctKeys(d) &&
    forall c :: c in Keys(d) ==> Get(d, c) == Some(CategoryTotal(pre, c))
  }

  /** Inserting the category with 0 when it is new, then adding the asset's
      allocation, keeps the rollup invariant one asset further on. */
  /** `d.setdefault(c, 0)` followed by `d[c] += x`. */
  function AddTo(d: Dict<string, real>, c: string, x: real): (r: Dict<string, real>)
    ensures Get(r, c) == Some(Get(d, c).GetOr(0.0) + x)
    ensures forall k :: k != c ==> Get(r, k) == Get(d, k)
    ensures c in Keys(d) ==> Keys(r) == Keys(d)
    ensures c !in Keys(d) ==> Keys(r) == Keys(d) + [c]
    ensures DistinctKeys(d) ==> DistinctKeys(r)
  {
    var d1 := if c in Keys(d) then d else Put(d, c, 0.0);
    Put(d1, c, Get(d1, c).value + x)
  }

  lemma {:induction false} CategoriesSnoc(va: seq<ValuedAsset>, j: nat)
    requires j < |va|
    ensures CategoriesOf(va[..j + 1]) ==
      if va[j].category in CategoriesOf(va[..j]) then CategoriesOf(va[..j]) else CategoriesOf(va[..j]) + [va[j].category]
    ensures forall c {:trigger CategoryTotal(va[..j + 1], c)} ::
      CategoryTotal(va[..j + 1], c) == CategoryTotal(va[..j], c) + (if va[j].category == c then va[j].allocation else 0.0)
  {
    assert va[..j + 1][..j] == va[..j];
  }

  lemma {:induction false} RollupKeys(d: Dict<string, real>, va: seq<ValuedAsset>, j: nat)
    requires j < |va| && Keys(d) == CategoriesOf(va[..j])
    ensures Keys(AddTo(d, va[j].category, va[j].allocation)) == CategoriesOf(va[..j + 1])
  {
    CategoriesSnoc(va, j);
  }

  lemma {:induction false} RollupValue(d: Dict<string, real>, va: seq<ValuedAsset>, j: nat, k: string)
    requires j < |va|
    requires Get(d, k).GetOr(0.0) == CategoryTotal(va[..j], k)
    ensures Get(AddTo(d, va[j].category, va[j].allocation), k).GetOr(0.0) == CategoryTotal(va[..j + 1], k)
  {
    CategoriesSnoc(va, j);
  }

  /** Adding one more asset's allocation keeps the rollup invariant. */
  lemma {:induction false} RollupStep(d: Dict<string, real>, va: seq<ValuedAsset>, j: nat)
    requires j < |va| && RollupInv(d, va[..j])
    ensures RollupInv(AddTo(d, va[j].category, va[j].allocation), va[..j + 1])
  {
    var r := AddTo(d, va[j].category, va[j].allocation);
    RollupKeys(d, va, j);
    forall k | k in Keys(r)
      ensures Get(r, k) == Some(CategoryTotal(va[..j + 1], k))
    {
      if k !in Keys(d) {
        CategoryTotalAbsent(va[..j], k);
      }
      RollupValue(d, va, j, k);
    }
  }

  /** The dict's items as category-allocation records. */
  function RollupItems(d: Dict<string, real>): (r: seq<CategoryAllocation>)
    ensures |r| == |d|
    ensures forall i :: 0 <= i < |d| ==> r[i] == CategoryAllocation(d[i].0, d[i].1)
  {
    seq(|d|, i requires 0 <= i < |d| => CategoryAllocation(d[i].0, d[i].1))
  }

  lemma {:induction false} RollupResult(d: Dict<string, real>, va: seq<ValuedAsset>)
    requires RollupInv(d, va)
    ensures RollupItems(d) == CategoryRollup(va)
  {
    forall i | 0 <= i < |d|
      ensures RollupItems(d)[i] == CategoryRollup(va)[i]
    {
      GetAt(d, i);
    }
  }

  /** Sums allocations per category into a dict keyed by first appearance. */
  method SumByCategory(va: seq<ValuedAsset>) returns (categories: Dict<string, real>)
    ensures RollupInv(categories, va)
  {
    categories := [];
    for j := 0 to |va|
      invariant RollupInv(categories, va[..j])
    {
      RollupStep(categories, va, j);
      categories := AddTo(categories, va[j].category, va[j].allocation);
    }
    assert va[..|va|] == va;
  }

  method RollupCategories(va: seq<ValuedAsset>) returns (rollup: seq<CategoryAllocation>)
    ensures rollup == CategoryRollup(va)
  {
    var categories := SumByCategory(va);
    RollupResult(categories, va);
    rollup := RollupItems(categories);
  }

  /** `all(...)`: every asset has a non-empty history. */
  method CheckAllHaveHistory(assets: seq<Asset>, prices: PriceLookup) returns (allHave: bool)
    ensures allHave <==> AllHaveHistory(assets, prices)
  {
    allHave := true;
    for i := 0 to |assets|
      invariant allHave <==> AllHaveHistory(assets[..i], prices)
    {
      allHave := allHave && HasHistory(prices, assets[i].ticker);
    }
    assert assets[..|assets|] == assets;
  }

  /** One value column per ticker, a repeated ticker replacing its column. */
  method BuildColumns(assets: seq<Asset>, prices: PriceLookup) returns (columns: Dict<string, seq<real>>)
    requires AllHaveHistory(assets, prices)
    ensures columns == ValueColumns(assets, prices)
  {
    columns := [];
    for i := 0 to |assets|
      invariant columns == ValueColumns(assets[..i], prices)
    {
      assert assets[..i + 1][..i] == assets[..i];
      var a := assets[i];
      columns := Put(columns, a.ticker, Scaled(History(prices, a.ticker), a.quantity));
    }
    assert assets[..|assets|] == assets;
  }

  /** The 1-month, 3-month and 1-year returns and the volatility of a series. */
  method ReturnsFromSeries(total: seq<real>, volatility: VolatilityOf) returns (periodReturns: Dict<string, PeriodReturn>)
    requires |total| > 0
    ensures periodReturns == SeriesReturns(total, volatility)
  {
    var n := |total|;
    periodReturns := [];
    if n >= 30 {
      periodReturns := periodReturns + [("1m", PctChange(total[n - 1], total[n - 30]))];
    }
    assert periodReturns == PeriodEntry(total, "1m", 30);
    if n >= 90 {
      periodReturns := periodReturns + [("3m", PctChange(total[n - 1], total[n - 90]))];
    }
    assert periodReturns == PeriodEntry(total, "1m", 30) + PeriodEntry(total, "3m", 90);
    if n >= 252 {
      periodReturns := periodReturns + [("1y", PctChange(total[n - 1], total[n - 252]))];
    }
    assert periodReturns == PeriodEntry(total, "1m", 30) + PeriodEntry(total, "3m", 90) + PeriodEntry(total, "1y", 252);
    if n > 1 {
      periodReturns := periodReturns + [("volatility", Pct(volatility(total)))];
    }
  }

  /** Sums the value columns row by row and reads the returns off the total. */
  method HistoricalReturns(assets: seq<Asset>, prices: PriceLookup, volatility: VolatilityOf)
    returns (periodReturns: Dict<string, PeriodReturn>)
    ensures periodReturns == ReturnsOf(assets, prices, volatility)
  {
    periodReturns := [];
    var allHave := CheckAllHaveHistory(assets, prices);
    if !allHave || |assets| == 0 {
      return;
    }
    var columns := BuildColumns(assets, prices);
    var total := seq(|History(prices, assets[0].ticker)|, k => RowSum(columns, k));
    assert total == TotalSeries(assets, prices);
    if |total| > 0 {
      periodReturns := ReturnsFromSeries(total, volatility);
    }
  }

  method CalculatePortfolioMetrics(assets: seq<Asset>, prices: PriceLookup, volatility: VolatilityOf)
    returns (m: Metrics)
    ensures m == MetricsOf(assets, prices, volatility)
  {
    var total, va := ValueAssets(assets, prices);
    var rollup := RollupCategories(va);
    var periodReturns := HistoricalReturns(assets, prices, volatility);
    m := Metrics(total, va, rollup, periodReturns);
  }

  // ---------------------------------------------------------------------
  // Properties
  // ---------------------------------------------------------------------

  predicate AllValid(assets: seq<Asset>) {
    forall i :: 0 <= i < |assets| ==> ValidAsset(assets[i])
  }

  function SumAllocations(va: seq<ValuedAsset>): real {
    if va == [] then 0.0 else SumAllocations(va[..|va| - 1]) + va[|va| - 1].allocation
  }

  function SumCategoryAllocations(r: seq<CategoryAllocation>): real {
    if r == [] then 0.0 else SumCategoryAllocations(r[..|r| - 1]) + r[|r| - 1].allocation
  }

  /** A category is listed exactly when some valued asset belongs to it. */
  lemma {:induction false} CategoriesOfMembers(va: seq<ValuedAsset>, c: string)
    ensures c in CategoriesOf(va) <==> exists k :: 0 <= k < |va| && va[k].category == c
  {
    if va != [] {
      var init := va[..|va| - 1];
      CategoriesOfMembers(init, c);
      if c in CategoriesOf(va) && c !in CategoriesOf(init) {
        assert va[|va| - 1].category == c;
      }
      if exists k :: 0 <= k < |va| && va[k].category == c {
        var k :| 0 <= k < |va| && va[k].category == c;
        if k < |va| - 1 {
          assert init[k] == va[k];
        }
      }
      if c in CategoriesOf(init) {
        var k :| 0 <= k < |init| && init[k].category == c;
        assert va[k] == init[k];
      }
    }
  }

  lemma ShareSum(a: real, b: real, c: real, total: real)
    requires total > 0.0 && c == a + b
    ensures AllocationPct(a, total) + AllocationPct(b, total) == AllocationPct(c, total)
  {
  }

  lemma ValuationsPrefix(p: seq<Asset>, prices: PriceLookup, total: real)
    requires AllPriced(p, prices) && p != []
    ensures AllPriced(p[..|p| - 1], prices)
    ensures Valuations(p, prices, total)[..|p| - 1] == Valuations(p[..|p| - 1], prices, total)
  {
    var init := p[..|p| - 1];
    assert forall i :: 0 <= i < |init| ==> init[i] == p[i];
  }

  lemma {:induction false} ValuationsSum(p: seq<Asset>, prices: PriceLookup, total: real)
    requires AllPriced(p, prices) && total > 0.0
    ensures SumAllocations(Valuations(p, prices, total)) == AllocationPct(SumValues(p, prices), total)
  {
    if p != [] {
      var init := p[..|p| - 1];
      var last := p[|p| - 1];
      var v := Valuations(p, prices, total);
      ValuationsPrefix(p, prices, total);
      assert v[|v| - 1].allocation == AllocationPct(Value(last, prices), total);
      assert SumAllocations(v) == SumAllocations(Valuations(init, prices, total)) + AllocationPct(Value(last, prices), total);
      assert SumValues(p, prices) == SumValues(init, prices) + Value(last, prices);
      ValuationsSum(init, prices, total);
      ShareSum(SumValues(init, prices), Value(last, prices), SumValues(p, prices), total);
    }
  }

  /** When the portfolio is worth anything, the allocations add up to 100 percent. */
  lemma AllocationsSumTo100(assets: seq<Asset>, prices: PriceLookup)
    requires TotalValue(assets, prices) > 0.0
    ensures SumAllocations(ValuedAssets(assets, prices)) == 100.0
  {
    var total := TotalValue(assets, prices);
    ValuationsSum(Priced(assets, prices), prices, total);
    WholeIs100(total);
  }

  lemma WholeIs100(total: real)
    requires total > 0.0
    ensures AllocationPct(total, total) == 100.0
  {
  }

  lemma {:induction false} ValueWithinSum(p: seq<Asset>, prices: PriceLookup, k: nat)
    requires AllPriced(p, prices) && AllValid(p) && k < |p|
    ensures 0.0 < Value(p[k], prices) <= SumValues(p, prices)
  {
    var init := p[..|p| - 1];
    assert AllValid(init) by {
      forall i | 0 <= i < |init| ensures ValidAsset(init[i]) { assert init[i] == p[i]; }
    }
    if k < |p| - 1 {
      assert init[k] == p[k];
      ValueWithinSum(init, prices, k);
    } else if init != [] {
      ValueWithinSum(init, prices, 0);
    }
  }

  lemma {:induction false} PricedValid(assets: seq<Asset>, prices: PriceLookup)
    requires AllValid(assets)
    ensures AllValid(Priced(assets, prices))
  {
    if assets != [] {
      var init := assets[..|assets| - 1];
      assert AllValid(init) by {
        forall i | 0 <= i < |init| ensures ValidAsset(init[i]) { assert init[i] == assets[i]; }
      }
      PricedValid(init, prices);
    }
  }

  lemma PctBounds(value: real, total: real)
    requires 0.0 < value <= total
    ensures 0.0 < AllocationPct(value, total) <= 100.0
  {
    assert value / total <= 1.0 by {
      assert value / total * total == value;
    }
  }

  /** With positive quantities every valued asset is worth a positive amount
      and holds between 0 and 100 percent of the portfolio. */
  lemma AllocationBounds(assets: seq<Asset>, prices: PriceLookup)
    requires AllValid(assets)
    ensures forall v :: v in ValuedAssets(assets, prices) ==> v.value > 0.0 && 0.0 < v.allocation <= 100.0
  {
    var p := Priced(assets, prices);
    PricedValid(assets, prices);
    forall v | v in ValuedAssets(assets, prices)
      ensures v.value > 0.0 && 0.0 < v.allocation <= 100.0
    {
      var k :| 0 <= k < |p| && ValuedAssets(assets, prices)[k] == v;
      ValueWithinSum(p, prices, k);
      assert v == Valuation(p[k], prices, SumValues(p, prices));
      PctBounds(v.value, SumValues(p, prices));
    }
  }

  lemma {:induction false} CategoryTotalBounds(va: seq<ValuedAsset>, c: string)
    requires forall k :: 0 <= k < |va| ==> va[k].allocation >= 0.0
    ensures 0.0 <= CategoryTotal(va, c) <= SumAllocations(va)
  {
    if va != [] {
      var init := va[..|va| - 1];
      assert forall k :: 0 <= k < |init| ==> init[k] == va[k];
      CategoryTotalBounds(init, c);
    }
  }

  /** Summing the rollup's allocations over a list of distinct categories. */
  function SumOver(cs: seq<string>, va: seq<ValuedAsset>): real {
    if cs == [] then 0.0 else SumOver(cs[..|cs| - 1], va) + CategoryTotal(va, cs[|cs| - 1])
  }

  lemma {:induction false} SumOverExtend(cs: seq<string>, va: seq<ValuedAsset>, v: ValuedAsset)
    requires forall i, j :: 0 <= i < j < |cs| ==> cs[i] != cs[j]
    ensures SumOver(cs, va + [v]) == SumOver(cs, va) + (if v.category in cs then v.allocation else 0.0)
  {
    if cs != [] {
      var init := cs[..|cs| - 1];
      var c := cs[|cs| - 1];
      assert (va + [v])[..|va|] == va;
      SumOverExtend(init, va, v);
      assert v.category in cs <==> v.category in init || v.category == c;
      assert c !in init by {
        forall i | 0 <= i < |init| ensures init[i] != c { assert init[i] == cs[i]; }
      }
    }
  }

  lemma {:induction false} SumOverRollup(va: seq<ValuedAsset>)
    ensures SumOver(CategoriesOf(va), va) == SumAllocations(va)
  {
    if va != [] {
      var init := va[..|va| - 1];
      var v := va[|va| - 1];
      assert init + [v] == va;
      SumOverRollup(init);
      SumOverExtend(CategoriesOf(init), init, v);
      if v.category !in CategoriesOf(init) {
        CategoryTotalAbsent(init, v.category);
        assert CategoriesOf(va) == CategoriesOf(init) + [v.category];
        assert (CategoriesOf(init) + [v.category])[..|CategoriesOf(init)|] == CategoriesOf(init);
      }
    }
  }

  lemma {:induction false} SumRollupItems(va: seq<ValuedAsset>, n: nat)
    requires n <= |CategoriesOf(va)|
    ensures SumCategoryAllocations(CategoryRollup(va)[..n]) == SumOver(CategoriesOf(va)[..n], va)
  {
    if n > 0 {
      var r, cs := CategoryRollup(va), CategoriesOf(va);
      assert r[..n][..n - 1] == r[..n - 1];
      assert cs[..n][..n - 1] == cs[..n - 1];
      assert r[..n][n - 1].allocation == CategoryTotal(va, cs[..n][n - 1]);
      SumRollupItems(va, n - 1);
      assert SumCategoryAllocations(r[..n]) == SumCategoryAllocations(r[..n - 1]) + r[..n][n - 1].allocation;
      assert SumOver(cs[..n], va) == SumOver(cs[..n - 1], va) + CategoryTotal(va, cs[..n][n - 1]);
    }
  }

  /** The category rollup redistributes the asset allocations without losing
      or adding any: both add up to the same total. */
  lemma RollupPreservesTotal(va: seq<ValuedAsset>)
    ensures SumCategoryAllocations(CategoryRollup(va)) == SumAllocations(va)
  {
    var n := |CategoriesOf(va)|;
    SumRollupItems(va, n);
    assert CategoryRollup(va)[..n] == CategoryRollup(va);
    assert CategoriesOf(va)[..n] == CategoriesOf(va);
    SumOverRollup(va);
  }

  /** With positive quantities every rollup entry passes the category
      allocation record's [0, 100] validation. */
  lemma RollupEntriesValid(assets: seq<Asset>, prices: PriceLookup)
    requires AllValid(assets)
    ensures forall r :: r in CategoryRollup(ValuedAssets(assets, prices)) ==>
      ValidCategoryAllocation(r) && NewCategoryAllocation(r.category, r.allocation) == Success(r)
  {
    var va := ValuedAssets(assets, prices);
    AllocationBounds(assets, prices);
    forall r | r in CategoryRollup(va)
      ensures ValidCategoryAllocation(r)
    {
      var i :| 0 <= i < |CategoryRollup(va)| && CategoryRollup(va)[i] == r;
      assert forall k :: 0 <= k < |va| ==> va[k] in va;
      CategoryTotalBounds(va, r.category);
      PricedValid(assets, prices);
      ValueWithinSum(Priced(assets, prices), prices, 0);
      AllocationsSumTo100(assets, prices);
    }
  }

  /** Returns are reported only when every ticker has a history: each period
      appears exactly when the combined series is long enough, and is the
      percentage change from that many rows back to the last row. */
  lemma ReturnsGate(assets: seq<Asset>, prices: PriceLookup, volatility: VolatilityOf)
    ensures var r := ReturnsOf(assets, prices, volatility);
      (!AllHaveHistory(assets, prices) || assets == [] ==> r == []) &&
      (AllHaveHistory(assets, prices) && assets != [] ==>
        var s := TotalSeries(assets, prices);
        var n := |s|;
        ("1m" in Keys(r) <==> n >= 30) && ("3m" in Keys(r) <==> n >= 90) &&
        ("1y" in Keys(r) <==> n >= 252) && ("volatility" in Keys(r) <==> n >= 2) &&
        (n >= 30 ==> Get(r, "1m") == Some(PctChange(s[n - 1], s[n - 30]))) &&
        (n >= 90 ==> Get(r, "3m") == Some(PctChange(s[n - 1], s[n - 90]))) &&
        (n >= 252 ==> Get(r, "1y") == Some(PctChange(s[n - 1], s[n - 252]))))
  {
    if AllHaveHistory(assets, prices) && assets != [] {
      var s := TotalSeries(assets, prices);
      if |s| > 0 {
        SeriesReturnsGet(s, volatility);
      }
    }
  }

  lemma SeriesReturnsGet(s: seq<real>, volatility: VolatilityOf)
    requires |s| > 0
    ensures Get(SeriesReturns(s, volatility), "1m") == (if |s| >= 30 then Some(PctChange(s[|s| - 1], s[|s| - 30])) else None)
    ensures Get(SeriesReturns(s, volatility), "3m") == (if |s| >= 90 then Some(PctChange(s[|s| - 1], s[|s| - 90])) else None)
    ensures Get(SeriesReturns(s, volatility), "1y") == (if |s| >= 252 then Some(PctChange(s[|s| - 1], s[|s| - 252])) else None)
    ensures Get(SeriesReturns(s, volatility), "volatility").Some? == (|s| >= 2)
  {
    MonthReturn(s, volatility);
    QuarterReturn(s, volatility);
    YearReturn(s, volatility);
    VolatilityReturn(s, volatility);
  }

  function VolatilityEntry(s: seq<real>, volatility: VolatilityOf): (e: Dict<string, PeriodReturn>)
    requires |s| > 0
    ensures Keys(e) == if |s| > 1 then ["volatility"] else []
    ensures forall i :: 0 <= i < |e| ==> e[i].1.Pct?
  {
    if |s| > 1 then [("volatility", Pct(volatility(s)))] else []
  }

  lemma MonthReturn(s: seq<real>, volatility: VolatilityOf)
    requires |s| > 0
    ensures Get(SeriesReturns(s, volatility), "1m") == (if |s| >= 30 then Some(PctChange(s[|s| - 1], s[|s| - 30])) else None)
  {
    var e1, e3, e12 := PeriodEntry(s, "1m", 30), PeriodEntry(s, "3m", 90), PeriodEntry(s, "1y", 252);
    GetChain(e1, e3, e12, VolatilityEntry(s, volatility), "1m");
    PeriodGet(s, "1m", 30);
  }

  lemma QuarterReturn(s: seq<real>, volatility: VolatilityOf)
    requires |s| > 0
    ensures Get(SeriesReturns(s, volatility), "3m") == (if |s| >= 90 then Some(PctChange(s[|s| - 1], s[|s| - 90])) else None)
  {
    var e1, e3, e12 := PeriodEntry(s, "1m", 30), PeriodEntry(s, "3m", 90), PeriodEntry(s, "1y", 252);
    GetChain(e1, e3, e12, VolatilityEntry(s, volatility), "3m");
    PeriodGet(s, "3m", 90);
  }

  lemma YearReturn(s: seq<real>, volatility: VolatilityOf)
    requires |s| > 0
    ensures Get(SeriesReturns(s, volatility), "1y") == (if |s| >= 252 then Some(PctChange(s[|s| - 1], s[|s| - 252])) else None)
  {
    var e1, e3, e12 := PeriodEntry(s, "1m", 30), PeriodEntry(s, "3m", 90), PeriodEntry(s, "1y", 252);
    GetChain(e1, e3, e12, VolatilityEntry(s, volatility), "1y");
    PeriodGet(s, "1y", 252);
  }

  lemma VolatilityReturn(s: seq<real>, volatility: VolatilityOf)
    requires |s| > 0
    ensures Get(SeriesReturns(s, volatility), "volatility").Some? == (|s| >= 2)
  {
    var e1, e3, e12 := PeriodEntry(s, "1m", 30), PeriodEntry(s, "3m", 90), PeriodEntry(s, "1y", 252);
    GetChain(e1, e3, e12, VolatilityEntry(s, volatility), "volatility");
  }

  /** A period entry holds its own key, with the change over that many days,
      exactly when the series is that long. */
  lemma PeriodGet(s: seq<real>, key: string, days: nat)
    requires days > 0
    ensures Get(PeriodEntry(s, key, days), key) == (if |s| >= days then Some(PctChange(s[|s| - 1], s[|s| - days])) else None)
  {
    if |s| >= days {
      GetAt(PeriodEntry(s, key, days), 0);
    }
  }

  lemma GetChain<V>(e1: Dict<string, V>, e2: Dict<string, V>, e3: Dict<string, V>, e4: Dict<string, V>, k: string)
    ensures Get(e1 + e2 + e3 + e4, k) ==
      if k in Keys(e1) then Get(e1, k) else if k in Keys(e2) then Get(e2, k)
      else if k in Keys(e3) then Get(e3, k) else Get(e4, k)
  {
    GetAppend(e1 + e2 + e3, e4, k);
    GetAppend(e1 + e2, e3, k);
    GetAppend(e1, e2, k);
    assert Keys(e1 + e2) == Keys(e1) + Keys(e2);
    assert Keys(e1 + e2 + e3) == Keys(e1) + Keys(e2) + Keys(e3);
  }

  /** A ticker the provider knows nothing about is left out of the valuation
      while the known one takes the whole allocation, and no returns are
      reported because not every ticker has a history. */
  lemma UnknownTickerSkipped(h: seq<Price>, q: real, q2: real, volatility: VolatilityOf)
    requires |h| > 0 && q > 0.0
    ensures var assets := [Asset("AAPL", q), Asset("ZZZZINVALID", q2)];
      var prices: PriceLookup := map["AAPL" := Some(h)];
      var m := MetricsOf(assets, prices, volatility);
      m.totalValue == h[|h| - 1] * q &&
      |m.assets| == 1 && m.assets[0].ticker == "AAPL" && m.assets[0].allocation == 100.0 &&
      m.categoryAllocation == [CategoryAllocation("Technology", 100.0)] &&
      m.periodReturns == []
  {
    var aapl := Asset("AAPL", q);
    var assets := [aapl, Asset("ZZZZINVALID", q2)];
    var prices: PriceLookup := map["AAPL" := Some(h)];
    var value := h[|h| - 1] * q;
    assert LastClose(prices, aapl.ticker) == h[|h| - 1];
    assert Value(aapl, prices) == value;
    PricedDropsUnknown(aapl, Asset("ZZZZINVALID", q2), prices);
    SinglePosition(aapl, prices);
    assert TotalValue(assets, prices) == value;
    var va := ValuedAssets(assets, prices);
    assert va == [Position(aapl, prices).(allocation := 100.0)];
    assert CategoryOf("AAPL") == "Technology";
    SingleRollup(va[0]);
    assert !HasHistory(prices, assets[1].ticker);
    assert ReturnsOf(assets, prices, volatility) == [];
  }

  lemma PricedDropsUnknown(a: Asset, b: Asset, prices: PriceLookup)
    requires HasHistory(prices, a.ticker) && !HasHistory(prices, b.ticker)
    ensures Priced([a, b], prices) == [a]
  {
    assert [a, b][..1] == [a] && [a][..0] == [];
  }

  /** A single priced asset with positive quantity holds the whole portfolio. */
  lemma SinglePosition(a: Asset, prices: PriceLookup)
    requires HasHistory(prices, a.ticker) && a.quantity > 0.0
    ensures SumValues([a], prices) == Value(a, prices) > 0.0
    ensures Valuations([a], prices, SumValues([a], prices)) == [Position(a, prices).(allocation := 100.0)]
  {
    assert [a][..0] == [];
    var value := Value(a, prices);
    assert value > 0.0 by {
      assert LastClose(prices, a.ticker) > 0.0;
    }
    assert value / value == 1.0;
  }

  lemma SingleRollup(v: ValuedAsset)
    ensures CategoryRollup([v]) == [CategoryAllocation(v.category, v.allocation)]
  {
    assert [v][..0] == [];
    assert CategoriesOf([v]) == [v.category];
    assert CategoryTotal([v], v.category) == v.allocation;
  }
}

=== FILE: portfolio_store.dfy ===
/** The process-wide store that keeps the extracted portfolio between
    requests: the asset list and the raw extracted data, each replaced
    whole by its setter, and a registry standing for the class attribute
    that holds the one instance. */
module PortfolioStorage {
  import opened Dicts
  import opened JsonValues

  class PortfolioStore {
    var assets: seq<Json>
    var rawData: Dict<string, Json>

    /** A new store holds no assets and no raw data. */
    constructor ()
      ensures assets == [] && rawData == []
    {
      assets := [];
      rawData := [];
    }

    /** `store_portfolio`: the assets are replaced, the raw data kept. */
    method StorePortfolio(newAssets: seq<Json>)
      modifies this
      ensures assets == newAssets && rawData == old(rawData)
    {
      assets := newAssets;
    }

    /** `store_raw_data`: the raw data is replaced, the assets kept. */
    method StoreRawData(data: Dict<string, Json>)
      modifies this
      ensures rawData == data && assets == old(assets)
    {
      rawData := data;
    }

    /** `get_portfolio`: the assets last stored, or none since a clear. */
    method GetPortfolio() returns (r: seq<Json>)
      ensures r == assets
    {
      r := assets;
    }

    /** `get_raw_data`: the raw data last stored. */
    method GetRawData() returns (r: Dict<string, Json>)
      ensures r == rawData
    {
      r := rawData;
    }

    /** `clear`: back to the state of a new store. */
    method Clear()
      modifies this
      ensures assets == [] && rawData == []
    {
      assets := [];
      rawData := [];
    }
  }

  /** The class attribute `_instance`: empty until the first construction. */
  class StoreRegistry {
    var instance: PortfolioStore?

    constructor ()
      ensures instance == null
    {
      instance := null;
    }

    /** `PortfolioStore()`: the first call makes an empty store and keeps
        it; every later call returns that same store with its contents
        untouched. */
    method Instance() returns (s: PortfolioStore)
      modifies this
      ensures old(instance) != null ==> s == old(instance) && unchanged(s)
      ensures old(instance) == null ==> fresh(s) && s.assets == [] && s.rawData == []
      ensures instance == s
    {
      if instance == null {
        instance := new PortfolioStore();
      }
      s := instance;
    }
  }

  /** Storing through one handle is seen through every other: a second
      construction yields the same store, which still holds what the first
      handle stored. */
  method SharedStore(registry: StoreRegistry, assets: seq<Json>) returns (seen: seq<Json>)
    modifies registry, registry.instance
    ensures seen == assets
  {
    var first := registry.Instance();
    first.StorePortfolio(assets);
    var second := registry.Instance();
    seen := second.GetPortfolio();
  }
}

=== FILE: risk_assessment.dfy ===
/** Risk scoring of a valued portfolio: three integer risk factors, their
    mean as the risk score, the risk level it falls into and the default ETF
    recommendations for the matching profile. */
module RiskAssessment {
  import opened Wrappers
  import opened Dicts
  import opened Models
  import opened PortfolioMetrics

  // ---------------------------------------------------------------------
  // Levels, profiles and the default recommendations
  // ---------------------------------------------------------------------

  datatype RiskLevel = HighRisk | ModerateRisk | LowRisk {
    /** The level as the risk report spells it. */
    function Name(): string {
      match this
      case HighRisk => "High Risk"
      case ModerateRisk => "Moderate Risk"
      case LowRisk => "Low Risk"
    }
  }

  datatype Profile = LowRiskProfile | ModerateRiskProfile | HighRiskProfile {
    /** The key of the profile in the recommendation table. */
    function Key(): string {
      match this
      case LowRiskProfile => "low_risk"
      case ModerateRiskProfile => "moderate_risk"
      case HighRiskProfile => "high_risk"
    }
  }

  /** The profile that goes with an assessed risk level. */
  function ProfileOf(level: RiskLevel): Profile {
    match level
    case HighRisk => HighRiskProfile
    case ModerateRisk => ModerateRiskProfile
    case LowRisk => LowRiskProfile
  }

  datatype Recommendation = Recommendation(ticker: string, name: string, allocation: int)

  function SumRecommended(recs: seq<Recommendation>): int {
    if recs == [] then 0 else SumRecommended(recs[..|recs| - 1]) + recs[|recs| - 1].allocation
  }

  /** The default ETF mix for each profile: four distinct funds with
      positive allocations. */
  function DefaultRecommendations(p: Profile): (recs: seq<Recommendation>)
    ensures |recs| == 4
    ensures forall i :: 0 <= i < |recs| ==> recs[i].allocation > 0
    ensures forall i, j :: 0 <= i < j < |recs| ==> recs[i].ticker != recs[j].ticker
  {
    match p
    case LowRiskProfile => [
      Recommendation("BND", "Vanguard Total Bond Market ETF", 40),
      Recommendation("VTI", "Vanguard Total Stock Market ETF", 30),
      Recommendation("VEA", "Vanguard FTSE Developed Markets ETF", 20),
      Recommendation("VTIP", "Vanguard Short-Term Inflation-Protected Securities ETF", 10)]
    case ModerateRiskProfile => [
      Recommendation("VTI", "Vanguard Total Stock Market ETF", 45),
      Recommendation("VEA", "Vanguard FTSE Developed Markets ETF", 25),
      Recommendation("BND", "Vanguard Total Bond Market ETF", 20),
      Recommendation("VWO", "Vanguard FTSE Emerging Markets ETF", 10)]
    case HighRiskProfile => [
      Recommendation("VTI", "Vanguard Total Stock Market ETF", 50),
      Recommendation("VWO", "Vanguard FTSE Emerging Markets ETF", 25),
      Recommendation("VEA", "Vanguard FTSE Developed Markets ETF", 15),
      Recommendation("ARKK", "ARK Innovation ETF", 10)]
  }

  /** Every default mix allocates exactly 100 percent. */
  lemma RecommendationsSumTo100(p: Profile)
    ensures SumRecommended(DefaultRecommendations(p)) == 100
  {
    var recs := DefaultRecommendations(p);
    SumRecommendedPrefix(recs, 0);
    SumRecommendedPrefix(recs, 1);
    SumRecommendedPrefix(recs, 2);
    SumRecommendedPrefix(recs, 3);
    assert recs[..4] == recs;
  }

  lemma SumRecommendedPrefix(recs: seq<Recommendation>, k: nat)
    requires k < |recs|
    ensures SumRecommended(recs[..k + 1]) == SumRecommended(recs[..k]) + recs[k].allocation
  {
    assert recs[..k + 1][..k] == recs[..k];
  }

  // ---------------------------------------------------------------------
  // The three risk factors
  // ---------------------------------------------------------------------

  /** 3 above `high`, 2 above `medium`, 1 otherwise. */
  function ThresholdFactor(x: real, high: real, medium: real): (f: int)
    requires medium <= high
    ensures 1 <= f <= 3
    ensures f == 3 <==> x > high
    ensures f == 2 <==> medium < x <= high
    ensures f == 1 <==> x <= medium
  {
    if x > high then 3 else if x > medium then 2 else 1
  }

  /** Fewer than 5 assets is high risk, fewer than 10 medium, otherwise low. */
  function DiversificationFactor(numAssets: nat): (f: int)
    ensures 1 <= f <= 3
    ensures f == 3 <==> numAssets < 5
    ensures f == 1 <==> numAssets >= 10
  {
    if numAssets < 5 then 3 else if numAssets < 10 then 2 else 1
  }

  /** The riskiness weight of a category; an unlisted one weighs 2.5. */
  function RiskWeight(category: string): (w: real)
    ensures 1.0 <= w <= 3.0
  {
    match category
    case "Technology" => 3.0
    case "Healthcare" => 2.0
    case "Finance" => 2.5
    case "Consumer" => 1.5
    case "Energy" => 3.0
    case "Telecommunications" => 1.5
    case "Real Estate" => 2.0
    case "Industrial" => 2.0
    case "ETF" => 1.0
    case "Other" => 2.5
    case _ => 2.5
  }

  function WeightedRisk(cs: seq<CategoryAllocation>): real {
    if cs == [] then 0.0
    else WeightedRisk(cs[..|cs| - 1]) + cs[|cs| - 1].allocation * RiskWeight(cs[|cs| - 1].category)
  }

  /** The allocation-weighted mean risk weight; 2 when nothing is allocated. */
  function AverageRisk(cs: seq<CategoryAllocation>): real {
    var total := SumCategoryAllocations(cs);
    if total > 0.0 then WeightedRisk(cs) / total else 2.0
  }

  /** The volatility factor: from the reported volatility when there is one,
      else estimated from the category mix. The metrics only ever report
      volatility as a number (`VolatilityEntry`), so the `DivByZero` reading
      cannot occur in a run; it is scored 1, as a NaN reading would be. */
  function VolatilityFactor(periodReturns: Dict<string, PeriodReturn>, cs: seq<CategoryAllocation>): (f: int)
    ensures 1 <= f <= 3
  {
    var reading: Option<PeriodReturn> := Get(periodReturns, "volatility");
    match reading
    case Some(Pct(v)) => ThresholdFactor(v, 25.0, 15.0)
    case Some(DivByZero) => 1
    case None => ThresholdFactor(AverageRisk(cs), 2.5, 1.8)
  }

  /** The largest category allocation; 100 when there are no categories. */
  function MaxAllocation(cs: seq<CategoryAllocation>): (m: real)
    ensures cs == [] ==> m == 100.0
    ensures cs != [] ==> (exists i :: 0 <= i < |cs| && cs[i].allocation == m) &&
                         forall i :: 0 <= i < |cs| ==> cs[i].allocation <= m
  {
    if cs == [] then 100.0
    else if |cs| == 1 then cs[0].allocation
    else
      var m := MaxAllocation(cs[..|cs| - 1]);
      assert forall i :: 0 <= i < |cs| - 1 ==> cs[..|cs| - 1][i] == cs[i];
      if cs[|cs| - 1].allocation > m then cs[|cs| - 1].allocation else m
  }

  function ConcentrationFactor(cs: seq<CategoryAllocation>): (f: int)
    ensures 1 <= f <= 3
  {
    ThresholdFactor(MaxAllocation(cs), 60.0, 40.0)
  }

  function FactorsOf(m: Metrics): RiskFactor {
    RiskFactor(
      DiversificationFactor(|m.assets|),
      VolatilityFactor(m.periodReturns, m.categoryAllocation),
      ConcentrationFactor(m.categoryAllocation))
  }

  function FactorSum(f: RiskFactor): int {
    f.diversification + f.volatility + f.categoryConcentration
  }

  /** The mean of the three factors. */
  function Score(f: RiskFactor): real {
    FactorSum(f) as real / 3.0
  }

  function LevelOf(score: real): RiskLevel {
    if score > 2.3 then HighRisk else if score > 1.7 then ModerateRisk else LowRisk
  }

  datatype Assessment = Assessment(
    level: RiskLevel, score: real, factors: RiskFactor, profile: Profile,
    recommendations: seq<Recommendation>, metrics: Metrics)

  function AssessmentOf(m: Metrics): Assessment {
    var f := FactorsOf(m);
    var level := LevelOf(Score(f));
    Assessment(level, Score(f), f, ProfileOf(level), DefaultRecommendations(ProfileOf(level)), m)
  }

  // ---------------------------------------------------------------------
  // Implementation
  // ---------------------------------------------------------------------

  /** Accumulates the weighted risk and the total allocation over the
      category rollup, then averages. */
  method EstimateCategoryRisk(cs: seq<CategoryAllocation>) returns (avgRisk: real)
    ensures avgRisk == AverageRisk(cs)
  {
    var weightedRisk := 0.0;
    var totalAllocation := 0.0;
    for i := 0 to |cs|
      invariant weightedRisk == WeightedRisk(cs[..i])
      invariant totalAllocation == SumCategoryAllocations(cs[..i])
    {
      assert cs[..i + 1][..i] == cs[..i];
      weightedRisk := weightedRisk + cs[i].allocation * RiskWeight(cs[i].category);
      totalAllocation := totalAllocation + cs[i].allocation;
    }
    assert cs[..|cs|] == cs;
    avgRisk := if totalAllocation > 0.0 then weightedRisk / totalAllocation else 2.0;
  }

  /** The volatility factor, estimating from the category mix only when
      the returns carry no volatility reading. */
  method AssessVolatility(m: Metrics) returns (f: int)
    ensures f == VolatilityFactor(m.periodReturns, m.categoryAllocation)
  {
    var reading: Option<PeriodReturn> := Get(m.periodReturns, "volatility");
    match reading {
      case Some(Pct(v)) =>
        f := ThresholdFactor(v, 25.0, 15.0);
      case Some(DivByZero) =>
        f := 1;
      case None =>
        var avgRisk := EstimateCategoryRisk(m.categoryAllocation);
        f := ThresholdFactor(avgRisk, 2.5, 1.8);
    }
  }

  /** Values the portfolio and scores it. */
  method AssessRisk(assets: seq<Asset>, prices: PriceLookup, volatility: VolatilityOf) returns (r: Assessment)
    ensures r == AssessmentOf(MetricsOf(assets, prices, volatility))
  {
    var m := CalculatePortfolioMetrics(assets, prices, volatility);
    var volatilityFactor := AssessVolatility(m);
    var factors := RiskFactor(
      DiversificationFactor(|m.assets|), volatilityFactor, ConcentrationFactor(m.categoryAllocation));
    var score := Score(factors);
    var level := LevelOf(score);
    r := Assessment(level, score, factors, ProfileOf(level), DefaultRecommendations(ProfileOf(level)), m);
  }

  // ---------------------------------------------------------------------
  // Properties
  // ---------------------------------------------------------------------

  /** The score lies between 1 and 3, and the level is fixed by the factor
      sum alone: High from 7 up, Moderate at exactly 6, Low at 5 and below. */
  lemma LevelBySum(f: RiskFactor)
    requires 1 <= f.diversification <= 3 && 1 <= f.volatility <= 3 && 1 <= f.categoryConcentration <= 3
    ensures 1.0 <= Score(f) <= 3.0
    ensures LevelOf(Score(f)) == HighRisk <==> FactorSum(f) >= 7
    ensures LevelOf(Score(f)) == ModerateRisk <==> FactorSum(f) == 6
    ensures LevelOf(Score(f)) == LowRisk <==> FactorSum(f) <= 5
  {
  }

  /** Every assessment's factors are in {1, 2, 3} and its level matches the
      factor sum. */
  lemma AssessmentConsistent(m: Metrics)
    ensures var a := AssessmentOf(m);
      1 <= a.factors.diversification <= 3 && 1 <= a.factors.volatility <= 3 &&
      1 <= a.factors.categoryConcentration <= 3 &&
      (a.level == HighRisk <==> FactorSum(a.factors) >= 7) &&
      (a.level == LowRisk <==> FactorSum(a.factors) <= 5) &&
      a.profile == ProfileOf(a.level) && SumRecommended(a.recommendations) == 100
  {
    LevelBySum(FactorsOf(m));
    RecommendationsSumTo100(AssessmentOf(m).profile);
  }

  lemma {:induction false} WeightedRiskBounds(cs: seq<CategoryAllocation>)
    requires forall i :: 0 <= i < |cs| ==> cs[i].allocation >= 0.0
    ensures SumCategoryAllocations(cs) >= 0.0
    ensures SumCategoryAllocations(cs) <= WeightedRisk(cs) <= 3.0 * SumCategoryAllocations(cs)
  {
    if cs != [] {
      var init := cs[..|cs| - 1];
      assert forall i :: 0 <= i < |init| ==> init[i] == cs[i];
      WeightedRiskBounds(init);
      var last := cs[|cs| - 1];
      ScaledBetween(last.allocation, RiskWeight(last.category));
    }
  }

  lemma ScaledBetween(a: real, w: real)
    requires a >= 0.0 && 1.0 <= w <= 3.0
    ensures a <= a * w <= 3.0 * a
  {
  }

  lemma RatioBetween(x: real, t: real)
    requires t > 0.0 && t <= x <= 3.0 * t
    ensures 1.0 <= x / t <= 3.0
  {
    assert x / t * t == x;
  }

  /** With non-negative allocations the estimated category risk lies within
      the range of the weights, [1, 3]. */
  lemma AverageRiskBounds(cs: seq<CategoryAllocation>)
    requires forall i :: 0 <= i < |cs| ==> cs[i].allocation >= 0.0
    ensures 1.0 <= AverageRisk(cs) <= 3.0
  {
    WeightedRiskBounds(cs);
    if SumCategoryAllocations(cs) > 0.0 {
      RatioBetween(WeightedRisk(cs), SumCategoryAllocations(cs));
    }
  }

  /** An all-ETF portfolio without a volatility reading scores the lowest
      category risk: every weight is 1, so the average is 1. */
  lemma {:induction false} AllEtfWeightsOne(cs: seq<CategoryAllocation>)
    requires forall i :: 0 <= i < |cs| ==> cs[i].category == "ETF"
    ensures WeightedRisk(cs) == SumCategoryAllocations(cs)
  {
    if cs != [] {
      var init := cs[..|cs| - 1];
      assert forall i :: 0 <= i < |init| ==> init[i] == cs[i];
      AllEtfWeightsOne(init);
    }
  }
}

=== FILE: stock_text.dfy ===
/** Reading `symbol: value` lines out of recognised text: the text is cut
    into lines as Python's `str.splitlines` cuts it, a line without a colon
    is skipped, a line with one colon gives a stripped symbol and a stripped
    value (a later line for the same symbol wins), and a line with more
    than one colon makes the two-name unpacking of `line.split(":")` raise,
    which ends the whole call. */
module StockText {
  import opened Wrappers
  import opened Dicts

  // ---------------------------------------------------------------------
  // Lines
  // ---------------------------------------------------------------------

  /** The characters `str.splitlines` breaks at; "\r\n" is one break. */
  predicate IsLineBreak(c: char) {
    var n := c as int;
    c == '\n' || c == '\r' || n == 0x0b || n == 0x0c || (0x1c <= n <= 0x1e) ||
    n == 0x85 || n == 0x2028 || n == 0x2029
  }

  predicate NoBreak(s: string) {
    forall i :: 0 <= i < |s| ==> !IsLineBreak(s[i])
  }

  /** The position of the first line break, or |s| when there is none. */
  function BreakAt(s: string): (k: nat)
    ensures k <= |s| && NoBreak(s[..k])
    ensures k < |s| ==> IsLineBreak(s[k])
  {
    if s == [] then 0
    else if IsLineBreak(s[0]) then 0
    else
      var k := BreakAt(s[1..]);
      assert s[..k + 1] == [s[0]] + s[1..][..k];
      k + 1
  }

  /** The length of the break at position k: 2 for "\r\n", 1 otherwise. */
  function BreakLength(s: string, k: nat): (n: nat)
    requires k < |s| && IsLineBreak(s[k])
    ensures 1 <= n && k + n <= |s|
  {
    if s[k] == '\r' && k + 1 < |s| && s[k + 1] == '\n' then 2 else 1
  }

  /** `text.splitlines()`: the pieces between breaks, the break itself
      dropped, and no empty piece after a final break. */
  function SplitLines(text: string): (lines: seq<string>)
    ensures forall i :: 0 <= i < |lines| ==> NoBreak(lines[i])
    ensures text == [] <==> lines == []
    ensures NoBreak(text) && text != [] ==> lines == [text]
    decreases |text|
  {
    if text == [] then []
    else
      var k := BreakAt(text);
      if k == |text| then
        assert text[..k] == text;
        [text]
      else
        [text[..k]] + SplitLines(text[k + BreakLength(text, k)..])
  }

  /** The lines joined back with newlines. */
  function JoinLines(lines: seq<string>): string {
    if lines == [] then []
    else if |lines| == 1 then lines[0]
    else lines[0] + "\n" + JoinLines(lines[1..])
  }

  /** Text whose only breaks are "\n" and which does not end with one. */
  predicate NewlineText(text: string) {
    (forall i :: 0 <= i < |text| && IsLineBreak(text[i]) ==> text[i] == '\n') &&
    (text != [] ==> text[|text| - 1] != '\n')
  }

  lemma JoinCons(line: string, lines: seq<string>)
    requires lines != []
    ensures JoinLines([line] + lines) == line + "\n" + JoinLines(lines)
  {
    assert ([line] + lines)[1..] == lines;
  }

  /** Past the first break of such a text lies another such text, not
      empty. */
  lemma AfterBreak(text: string, k: nat)
    requires NewlineText(text) && k < |text| && IsLineBreak(text[k])
    ensures text[k] == '\n' && k + 1 < |text| && NewlineText(text[k + 1..])
    ensures text == text[..k] + "\n" + text[k + 1..]
  {
    var rest := text[k + 1..];
    assert forall i :: 0 <= i < |rest| ==> rest[i] == text[k + 1 + i];
  }

  /** Text whose only breaks are "\n" and which does not end with one is
      recovered by joining its lines with "\n". */
  lemma {:induction false} SplitJoin(text: string)
    requires NewlineText(text)
    ensures JoinLines(SplitLines(text)) == text
    decreases |text|
  {
    if text != [] {
      var k := BreakAt(text);
      if k < |text| {
        AfterBreak(text, k);
        var rest := text[k + 1..];
        assert BreakLength(text, k) == 1;
        SplitJoin(rest);
        assert SplitLines(text) == [text[..k]] + SplitLines(rest);
        JoinCons(text[..k], SplitLines(rest));
      }
    }
  }

  // ---------------------------------------------------------------------
  // Whitespace
  // ---------------------------------------------------------------------

  /** The characters `str.strip()` removes (`str.isspace`). */
  predicate IsSpace(c: char) {
    var n := c as int;
    (0x09 <= n <= 0x0d) || (0x1c <= n <= 0x20) || n == 0x85 || n == 0xa0 || n == 0x1680 ||
    (0x2000 <= n <= 0x200a) || n == 0x2028 || n == 0x2029 || n == 0x202f || n == 0x205f || n == 0x3000
  }

  predicate AllSpace(s: string) {
    forall i :: 0 <= i < |s| ==> IsSpace(s[i])
  }

  function StripLeft(s: string): (r: string)
    ensures |r| <= |s| && r == s[|s| - |r|..] && AllSpace(s[..|s| - |r|])
    ensures r != [] ==> !IsSpace(r[0])
  {
    if s != [] && IsSpace(s[0]) then
      var r := StripLeft(s[1..]);
      assert s[..|s| - |r|] == [s[0]] + s[1..][..|s| - 1 - |r|];
      r
    else s
  }

  function StripRight(s: string): (r: string)
    ensures |r| <= |s| && r == s[..|r|] && AllSpace(s[|r|..])
    ensures r != [] ==> !IsSpace(r[|r| - 1])
  {
    if s != [] && IsSpace(s[|s| - 1]) then
      var r := StripRight(s[..|s| - 1]);
      assert s[|r|..] == s[..|s| - 1][|r|..] + [s[|s| - 1]];
      r
    else s
  }

  /** r is s less some whitespace at each end. */
  predicate Trims(s: string, r: string) {
    exists i, j :: (0 <= i <= j <= |s| && r == s[i..j] && AllSpace(s[..i]) && AllSpace(s[j..]))
  }

  /** `s.strip()`: s without its leading and trailing whitespace. */
  function Strip(s: string): (r: string)
    ensures Trims(s, r)
    ensures r != [] ==> !IsSpace(r[0]) && !IsSpace(r[|r| - 1])
  {
    var l := StripLeft(s);
    var r := StripRight(l);
    TrimsBoth(s, l, r);
    r
  }

  /** Stripping the left end and then the right end trims s. */
  lemma TrimsBoth(s: string, l: string, r: string)
    requires |l| <= |s| && l == s[|s| - |l|..] && AllSpace(s[..|s| - |l|])
    requires |r| <= |l| && r == l[..|r|] && AllSpace(l[|r|..])
    ensures Trims(s, r)
  {
    var i := |s| - |l|;
    assert r == s[i..i + |r|];
    assert s[i + |r|..] == l[|r|..];
  }

  // ---------------------------------------------------------------------
  // One line
  // ---------------------------------------------------------------------

  function Colons(s: string): (n: nat)
    ensures n == 0 <==> ':' !in s
  {
    if s == [] then 0 else (if s[0] == ':' then 1 else 0) + Colons(s[1..])
  }

  /** The position of the first colon of a line that has one. */
  function ColonAt(s: string): (k: nat)
    requires ':' in s
    ensures k < |s| && s[k] == ':' && ':' !in s[..k]
  {
    if s[0] == ':' then 0
    else
      var k := ColonAt(s[1..]);
      assert s[..k + 1] == [s[0]] + s[1..][..k];
      k + 1
  }

  lemma ColonsAppend(a: string, b: string)
    ensures Colons(a + b) == Colons(a) + Colons(b)
  {
    if a != [] {
      assert (a + b)[0] == a[0] && (a + b)[1..] == a[1..] + b;
      ColonsAppend(a[1..], b);
    } else {
      assert a + b == b;
    }
  }

  /** Neither part of a one-colon line holds a colon. */
  lemma PartsHaveNoColon(line: string)
    requires Colons(line) == 1
    ensures ':' !in line[..ColonAt(line)] && ':' !in line[ColonAt(line) + 1..]
  {
    var k := ColonAt(line);
    assert line == line[..k] + ([line[k]] + line[k + 1..]);
    ColonsAppend(line[..k], [line[k]] + line[k + 1..]);
    ColonsAppend([line[k]], line[k + 1..]);
  }

  /** What one line contributes: nothing, a symbol and its value, or the
      unpacking error. */
  datatype Entry = Skip | Pair(symbol: string, price: string) | TooMany

  /** The line is left, a colon, and right, with no other colon. */
  predicate SplitsAt(line: string, left: string, right: string) {
    line == left + ":" + right && ':' !in left && ':' !in right
  }

  /** A line with one colon splits there. */
  lemma SplitAtColon(line: string)
    requires Colons(line) == 1
    ensures SplitsAt(line, line[..ColonAt(line)], line[ColonAt(line) + 1..])
  {
    var k := ColonAt(line);
    PartsHaveNoColon(line);
    assert line == line[..k] + ":" + line[k + 1..];
  }

  /** The first colon of left ":" right is the one after left when left
      has none. */
  lemma {:induction false} ColonAfter(left: string, right: string)
    requires ':' !in left
    ensures ':' in left + ":" + right && ColonAt(left + ":" + right) == |left|
    decreases |left|
  {
    var line := left + ":" + right;
    assert line[|left|] == ':';
    if left != [] {
      assert line[0] == left[0] && line[1..] == left[1..] + ":" + right;
      ColonAfter(left[1..], right);
    }
  }

  lemma ColonsOfSplit(left: string, right: string)
    requires ':' !in left && ':' !in right
    ensures Colons(left + ":" + right) == 1
  {
    assert left + ":" + right == left + (":" + right);
    assert (":" + right)[1..] == right;
    ColonsAppend(left, ":" + right);
  }

  /** A line splits at a sole colon in one way only: at its first colon. */
  lemma SplitsOnlyAtColon(line: string)
    ensures forall left, right :: SplitsAt(line, left, right) ==>
      Colons(line) == 1 && left == line[..ColonAt(line)] && right == line[ColonAt(line) + 1..]
  {
    forall left, right | SplitsAt(line, left, right)
      ensures Colons(line) == 1 && left == line[..ColonAt(line)] && right == line[ColonAt(line) + 1..]
    {
      ColonsOfSplit(left, right);
      ColonAfter(left, right);
      assert line[..|left|] == left && line[|left| + 1..] == right;
    }
  }

  /** The entry of one line: no colon is skipped, one colon splits it into
      a stripped symbol before and a stripped value after, more colons are
      the error. */
  function EntryOf(line: string): (e: Entry)
    ensures e.Skip? <==> ':' !in line
    ensures e.TooMany? <==> Colons(line) >= 2
    ensures forall left, right :: SplitsAt(line, left, right) ==> e == Pair(Strip(left), Strip(right))
  {
    SplitsOnlyAtColon(line);
    var n := Colons(line);
    if n == 0 then Skip
    else if n == 1 then
      var k := ColonAt(line);
      Pair(Strip(line[..k]), Strip(line[k + 1..]))
    else TooMany
  }

  function Entries(lines: seq<string>): (es: seq<Entry>)
    ensures |es| == |lines| && forall i :: 0 <= i < |lines| ==> es[i] == EntryOf(lines[i])
  {
    seq(|lines|, i requires 0 <= i < |lines| => EntryOf(lines[i]))
  }

  /** The text of the exception the unpacking raises. */
  const TooManyValues: string := "too many values to unpack (expected 2)"

  // ---------------------------------------------------------------------
  // The whole text
  // ---------------------------------------------------------------------

  /** The loop over the lines' entries from the dictionary `acc`. */
  function ParseFrom(es: seq<Entry>, acc: Dict<string, string>): (r: Result<Dict<string, string>, string>)
    ensures r.Failure? ==> r.error == TooManyValues
    decreases |es|
  {
    if es == [] then Success(acc)
    else
      match es[0]
      case Skip => ParseFrom(es[1..], acc)
      case Pair(symbol, price) => ParseFrom(es[1..], Put(acc, symbol, price))
      case TooMany => Failure(TooManyValues)
  }

  /** `process_extracted_text`. */
  function ProcessOf(text: string): (r: Result<Dict<string, string>, string>)
    ensures text == [] ==> r == Success([])
  {
    ParseFrom(Entries(SplitLines(text)), [])
  }

  method ProcessExtractedText(text: string) returns (r: Result<Dict<string, string>, string>)
    ensures r == ProcessOf(text)
  {
    var lines := SplitLines(text);
    ghost var es := Entries(lines);
    var stockData: Dict<string, string> := [];
    for i := 0 to |lines|
      invariant ParseFrom(es, []) == ParseFrom(es[i..], stockData)
    {
      var line := lines[i];
      assert es[i..][0] == EntryOf(line) && es[i..][1..] == es[i + 1..];
      if ':' in line {
        if Colons(line) != 1 {
          return Failure(TooManyValues);
        }
        var k := ColonAt(line);
        var symbol := line[..k];
        var price := line[k + 1..];
        stockData := Put(stockData, Strip(symbol), Strip(price));
      }
    }
    assert es[|lines|..] == [];
    r := Success(stockData);
  }

  /** The call fails exactly when some line holds two or more colons. */
  lemma {:induction false} FailsIffTooMany(es: seq<Entry>, acc: Dict<string, string>)
    ensures ParseFrom(es, acc).Failure? <==> exists i :: 0 <= i < |es| && es[i].TooMany?
    decreases |es|
  {
    if es != [] && !es[0].TooMany? {
      var acc1 := if es[0].Skip? then acc else Put(acc, es[0].symbol, es[0].price);
      FailsIffTooMany(es[1..], acc1);
      assert forall i :: 1 <= i < |es| ==> es[i] == es[1..][i - 1];
    }
  }

  lemma FailsIffManyColons(text: string)
    ensures ProcessOf(text).Failure? <==> exists i :: 0 <= i < |SplitLines(text)| && Colons(SplitLines(text)[i]) >= 2
  {
    FailsIffTooMany(Entries(SplitLines(text)), []);
  }

  /** Entry i names k and no later entry does. */
  predicate LastNaming(es: seq<Entry>, i: int, k: string) {
    0 <= i < |es| && es[i].Pair? && es[i].symbol == k &&
    forall j :: i < j < |es| ==> !(es[j].Pair? && es[j].symbol == k)
  }

  /** The value the last line that names symbol k gives it, if any. */
  function LastValue(es: seq<Entry>, k: string): Option<string> {
    if es == [] then None
    else if es[|es| - 1].Pair? && es[|es| - 1].symbol == k then Some(es[|es| - 1].price)
    else LastValue(es[..|es| - 1], k)
  }

  /** LastValue finds the last line naming k, and None means no line does. */
  lemma {:induction false} LastValueMeaning(es: seq<Entry>, k: string)
    ensures LastValue(es, k).Some? ==> exists i :: LastNaming(es, i, k) && es[i].price == LastValue(es, k).value
    ensures LastValue(es, k).None? ==> forall i :: 0 <= i < |es| ==> !(es[i].Pair? && es[i].symbol == k)
  {
    if es != [] {
      var n := |es| - 1;
      if es[n].Pair? && es[n].symbol == k {
        assert LastNaming(es, n, k);
      } else {
        var init := es[..n];
        LastValueMeaning(init, k);
        assert forall i :: 0 <= i < n ==> init[i] == es[i];
        if LastValue(init, k).Some? {
          var i :| LastNaming(init, i, k) && init[i].price == LastValue(init, k).value;
          assert LastNaming(es, i, k);
        }
      }
    }
  }

  lemma {:induction false} LastValueCons(es: seq<Entry>, k: string)
    requires es != []
    ensures LastValue(es, k) ==
      if LastValue(es[1..], k).Some? then LastValue(es[1..], k)
      else if es[0].Pair? && es[0].symbol == k then Some(es[0].price)
      else None
    decreases |es|
  {
    if |es| > 1 {
      var init := es[..|es| - 1];
      assert init[1..] == es[1..][..|es[1..]| - 1];
      assert init[0] == es[0];
      LastValueCons(init, k);
    }
  }

  /** On success each symbol holds the value of the last line naming it,
      and a symbol no line names keeps its value in `acc`. */
  lemma {:induction false} LastLineWins(es: seq<Entry>, acc: Dict<string, string>, k: string)
    requires ParseFrom(es, acc).Success?
    ensures Get(ParseFrom(es, acc).value, k) == if LastValue(es, k).Some? then LastValue(es, k) else Get(acc, k)
    decreases |es|
  {
    if es != [] {
      var acc1 := if es[0].Skip? then acc else Put(acc, es[0].symbol, es[0].price);
      LastLineWins(es[1..], acc1, k);
      LastValueCons(es, k);
    }
  }

  /** What the whole call returns: each symbol with the value of the last
      line naming it, no other symbol, and values left as text. */
  lemma ProcessResult(text: string, k: string)
    requires ProcessOf(text).Success?
    ensures Get(ProcessOf(text).value, k) == LastValue(Entries(SplitLines(text)), k)
  {
    LastLineWins(Entries(SplitLines(text)), [], k);
  }
}

=== FILE: supervisor.dfy ===
/** The supervisor: it asks the advisor, the market analyst and the
    forecaster in turn, about the portfolio's largest holding, and collects
    their answers into one raw report, which the language model then
    formats. Unlike the pipeline graph nothing here catches an agent's
    exception: the first one ends the whole run. */
module Supervisor {
  import opened Wrappers
  import opened Dicts
  import opened JsonValues
  import opened Models
  import PortfolioMetrics
  import opened AgentCalls

  // ---------------------------------------------------------------------
  // The largest holding
  // ---------------------------------------------------------------------

  function AllocationsOf(va: seq<PortfolioMetrics.ValuedAsset>): (xs: seq<real>)
    ensures |xs| == |va| && forall i :: 0 <= i < |va| ==> xs[i] == va[i].allocation
  {
    seq(|va|, i requires 0 <= i < |va| => va[i].allocation)
  }

  /** The text standing in for the plotting library's ValueError: a pie
      chart of an empty table has no `allocation` or `ticker` column. */
  const EmptyChart: string := "no allocation column to chart"

  /** `_find_largest_holding`: the ticker at the head of the valued assets
      sorted by allocation, largest first. The sort is stable, so among equal
      allocations the earliest asset wins. The metrics come from the
      visualisation tool, which first draws the allocation pie chart; with no
      valued asset that chart raises, so the lookup never reaches its own
      None branch. */
  function FindLargestHolding(assets: seq<Asset>, prices: PortfolioMetrics.PriceLookup): (r: Result<string, string>)
    ensures r.Failure? <==> PortfolioMetrics.ValuedAssets(assets, prices) == []
    ensures r.Failure? ==> r.error == EmptyChart
    ensures r.Success? ==> exists k :: (FirstLargest(PortfolioMetrics.ValuedAssets(assets, prices), k) &&
      PortfolioMetrics.ValuedAssets(assets, prices)[k].ticker == r.value)
  {
    var va := PortfolioMetrics.ValuedAssets(assets, prices);
    if va == [] then Failure(EmptyChart)
    else
      var k := FirstMaxIndex(AllocationsOf(va));
      assert FirstLargest(va, k);
      Success(va[k].ticker)
  }

  /** Position k holds the largest allocation, and no earlier position holds
      as much. */
  predicate FirstLargest(va: seq<PortfolioMetrics.ValuedAsset>, k: int) {
    0 <= k < |va| &&
    (forall j :: 0 <= j < |va| ==> va[j].allocation <= va[k].allocation) &&
    (forall j :: 0 <= j < k ==> va[j].allocation < va[k].allocation)
  }

  lemma ScaleKeepsOrder(a: real, b: real, total: real)
    requires total > 0.0
    ensures PortfolioMetrics.AllocationPct(a, total) <= PortfolioMetrics.AllocationPct(b, total) <==> a <= b
    ensures PortfolioMetrics.AllocationPct(a, total) < PortfolioMetrics.AllocationPct(b, total) <==> a < b
  {
    assert PortfolioMetrics.AllocationPct(a, total) == a * (100.0 / total);
    assert PortfolioMetrics.AllocationPct(b, total) == b * (100.0 / total);
  }

  /** With a positive total the allocation order is the value order, so the
      largest holding is the first priced asset of largest value. */
  lemma LargestHoldingHasLargestValue(assets: seq<Asset>, prices: PortfolioMetrics.PriceLookup)
    requires PortfolioMetrics.TotalValue(assets, prices) > 0.0
    requires FindLargestHolding(assets, prices).Success?
    ensures exists k :: (0 <= k < |PortfolioMetrics.Priced(assets, prices)| &&
      PortfolioMetrics.Priced(assets, prices)[k].ticker == FindLargestHolding(assets, prices).value &&
      (forall j :: 0 <= j < |PortfolioMetrics.Priced(assets, prices)| ==>
        PortfolioMetrics.Value(PortfolioMetrics.Priced(assets, prices)[j], prices) <= PortfolioMetrics.Value(PortfolioMetrics.Priced(assets, prices)[k], prices)) &&
      forall j :: 0 <= j < k ==> PortfolioMetrics.Value(PortfolioMetrics.Priced(assets, prices)[j], prices) < PortfolioMetrics.Value(PortfolioMetrics.Priced(assets, prices)[k], prices))
  {
    var p := PortfolioMetrics.Priced(assets, prices);
    var total := PortfolioMetrics.TotalValue(assets, prices);
    var va := PortfolioMetrics.ValuedAssets(assets, prices);
    var k := FirstMaxIndex(AllocationsOf(va));
    assert va[k].ticker == p[k].ticker;
    forall j | 0 <= j < |p|
      ensures PortfolioMetrics.Value(p[j], prices) <= PortfolioMetrics.Value(p[k], prices)
      ensures j < k ==> PortfolioMetrics.Value(p[j], prices) < PortfolioMetrics.Value(p[k], prices)
    {
      ScaleKeepsOrder(PortfolioMetrics.Value(p[j], prices), PortfolioMetrics.Value(p[k], prices), total);
      assert va[j].allocation == PortfolioMetrics.AllocationPct(PortfolioMetrics.Value(p[j], prices), total);
      assert va[k].allocation == PortfolioMetrics.AllocationPct(PortfolioMetrics.Value(p[k], prices), total);
    }
  }

  // ---------------------------------------------------------------------
  // The raw report
  // ---------------------------------------------------------------------

  /** The portfolio as the agents receive it, and the assets it lists. */
  datatype PortfolioInput = PortfolioInput(data: Json, assets: seq<Asset>)

  /** The language model formatting the raw report into the final text. */
  type Formatter = Dict<string, Json> -> Result<string, string>

  datatype Team = Team(advisor: AdvisorAgent, market: MarketAgent, forecaster: ForecastAgent, formatter: Formatter)

  /** `_generate_financial_report`, step by step; the first failing step's
      exception is the result. */
  function ReportOf(p: PortfolioInput, goals: seq<string>, prices: PortfolioMetrics.PriceLookup, team: Team): Result<Dict<string, Json>, string> {
    match team.advisor(p.data, None)
    case Failure(e) => Failure(e)
    case Success(assessment) =>
      var risk := Field(assessment, "risk_assessment");
      var categoryAnalysis := Field(assessment, "category_analysis");
      match FindLargestHolding(p.assets, prices)
      case Failure(e) => Failure(e)
      case Success(largest) =>
        var ticker := Str(largest);
        match CategoryNames(categoryAnalysis)
        case Failure(e) => Failure(e)
        case Success(categories) =>
          match team.market(ticker, categories)
          case Failure(e) => Failure(e)
          case Success(market) =>
            match team.forecaster(ticker, ForecastDays)
            case Failure(e) => Failure(e)
            case Success(forecast) =>
              match CollectAdvice(goals, p.data, team.advisor, [])
              case Failure(e) => Failure(e)
              case Success(advice) => Success(Sections(risk, categoryAnalysis, Obj(market), Obj(forecast), Obj(advice)))
  }

  method GenerateFinancialReport(p: PortfolioInput, goals: seq<string>, prices: PortfolioMetrics.PriceLookup, team: Team)
    returns (r: Result<Dict<string, Json>, string>)
    ensures r == ReportOf(p, goals, prices, team)
  {
    var assessment := team.advisor(p.data, None);
    if assessment.Failure? {
      return Failure(assessment.error);
    }
    var risk := Field(assessment.value, "risk_assessment");
    var categoryAnalysis := Field(assessment.value, "category_analysis");
    var largest := FindLargestHolding(p.assets, prices);
    if largest.Failure? {
      return Failure(largest.error);
    }
    var ticker := Str(largest.value);
    var categories := CategoryNames(categoryAnalysis);
    if categories.Failure? {
      return Failure(categories.error);
    }
    var market := team.market(ticker, categories.value);
    if market.Failure? {
      return Failure(market.error);
    }
    var forecast := team.forecaster(ticker, ForecastDays);
    if forecast.Failure? {
      return Failure(forecast.error);
    }
    var advice := AdviceByGoal(goals, p.data, team.advisor);
    if advice.Failure? {
      return Failure(advice.error);
    }
    r := Success(Sections(risk, categoryAnalysis, Obj(market.value), Obj(forecast.value), Obj(advice.value)));
  }

  /** Some asset is valued, so the allocation chart can be drawn, and every
      agent call the report makes succeeds, each asked what the report asks
      it. */
  predicate AllCallsSucceed(p: PortfolioInput, goals: seq<string>, prices: PortfolioMetrics.PriceLookup, team: Team) {
    PortfolioMetrics.ValuedAssets(p.assets, prices) != [] &&
    var ticker := Str(FindLargestHolding(p.assets, prices).value);
    team.advisor(p.data, None).Success? &&
    var categoryAnalysis := Field(team.advisor(p.data, None).value, "category_analysis");
    CategoryNames(categoryAnalysis).Success? &&
    team.market(ticker, CategoryNames(categoryAnalysis).value).Success? &&
    team.forecaster(ticker, ForecastDays).Success? &&
    forall i :: 0 <= i < |goals| ==> GoalAdvice(p.data, team.advisor, goals[i]).Success?
  }

  /** The report is produced exactly when every call succeeds. */
  lemma ReportSucceedsIff(p: PortfolioInput, goals: seq<string>, prices: PortfolioMetrics.PriceLookup, team: Team)
    ensures ReportOf(p, goals, prices, team).Success? <==> AllCallsSucceed(p, goals, prices, team)
  {
    AdviceFails(goals, p.data, team.advisor, []);
  }

  /** One entry per goal and no other key, each the advisor's advice for
      that goal. */
  ghost predicate AdvicePerGoal(advice: Dict<string, Json>, goals: seq<string>, portfolio: Json, advisor: AdvisorAgent) {
    DistinctKeys(advice) && (forall k :: k in Keys(advice) <==> k in goals) &&
    forall g :: g in goals ==> GoalAdvice(portfolio, advisor, g).Success? && Get(advice, g) == Some(GoalAdvice(portfolio, advisor, g).value)
  }

  /** A produced report holds exactly the five sections, in order; the
      forecast is the forecaster's answer about the largest holding for 30
      days, and the advice has one entry per goal and no other. */
  lemma ReportSections(p: PortfolioInput, goals: seq<string>, prices: PortfolioMetrics.PriceLookup, team: Team)
    requires ReportOf(p, goals, prices, team).Success?
    ensures Keys(ReportOf(p, goals, prices, team).value) == SectionNames
    ensures FindLargestHolding(p.assets, prices).Success?
    ensures Get(ReportOf(p, goals, prices, team).value, "forecasting") ==
      Some(Obj(team.forecaster(Str(FindLargestHolding(p.assets, prices).value), 30).value))
    ensures CollectAdvice(goals, p.data, team.advisor, []).Success?
    ensures Get(ReportOf(p, goals, prices, team).value, "investment_advice") ==
      Some(Obj(CollectAdvice(goals, p.data, team.advisor, []).value))
    ensures AdvicePerGoal(CollectAdvice(goals, p.data, team.advisor, []).value, goals, p.data, team.advisor)
  {
    var ticker := Str(FindLargestHolding(p.assets, prices).value);
    var a := team.advisor(p.data, None).value;
    var names := CategoryNames(Field(a, "category_analysis")).value;
    var market := team.market(ticker, names).value;
    var forecast := team.forecaster(ticker, ForecastDays).value;
    var advice := CollectAdvice(goals, p.data, team.advisor, []).value;
    var d := Sections(Field(a, "risk_assessment"), Field(a, "category_analysis"), Obj(market), Obj(forecast), Obj(advice));
    assert ReportOf(p, goals, prices, team) == Success(d);
    AdviceContents(goals, p.data, team.advisor, []);
    assert AdvicePerGoal(advice, goals, p.data, team.advisor);
  }

  // ---------------------------------------------------------------------
  // run
  // ---------------------------------------------------------------------

  /** The inputs dictionary: the portfolio and the goals, each possibly
      absent. */
  datatype Inputs = Inputs(portfolio: Option<PortfolioInput>, goals: Option<seq<string>>)

  datatype RunOutput = RunError(error: string) | RunReport(report: string, rawData: Dict<string, Json>)

  const PortfolioRequired: string := "Portfolio data is required"

  /** `run`: without portfolio data an error dictionary; otherwise the raw
      report for the given goals (the three default goals when absent) and
      its formatted text. An agent's or the formatter's exception is the
      Failure. */
  function RunOf(inputs: Inputs, prices: PortfolioMetrics.PriceLookup, team: Team): (r: Result<RunOutput, string>)
    ensures inputs.portfolio.None? ==> r == Success(RunError(PortfolioRequired))
    ensures r.Success? && r.value.RunReport? ==> (inputs.portfolio.Some? &&
      Success(r.value.rawData) == ReportOf(inputs.portfolio.value, inputs.goals.GetOr(DefaultGoals), prices, team) &&
      team.formatter(r.value.rawData) == Success(r.value.report))
    ensures r.Success? && r.value.RunError? ==> inputs.portfolio.None?
    ensures inputs.portfolio.Some? ==> (r.Failure? <==>
      ReportOf(inputs.portfolio.value, inputs.goals.GetOr(DefaultGoals), prices, team).Failure? ||
      team.formatter(ReportOf(inputs.portfolio.value, inputs.goals.GetOr(DefaultGoals), prices, team).value).Failure?)
    ensures inputs.portfolio.Some? && ReportOf(inputs.portfolio.value, inputs.goals.GetOr(DefaultGoals), prices, team).Failure? ==>
      r == Failure(ReportOf(inputs.portfolio.value, inputs.goals.GetOr(DefaultGoals), prices, team).error)
    ensures (inputs.portfolio.Some? && ReportOf(inputs.portfolio.value, inputs.goals.GetOr(DefaultGoals), prices, team).Success? &&
      team.formatter(ReportOf(inputs.portfolio.value, inputs.goals.GetOr(DefaultGoals), prices, team).value).Failure?) ==>
      r == Failure(team.formatter(ReportOf(inputs.portfolio.value, inputs.goals.GetOr(DefaultGoals), prices, team).value).error)
  {
    match inputs.portfolio
    case None => Success(RunError(PortfolioRequired))
    case Some(p) =>
      match ReportOf(p, inputs.goals.GetOr(DefaultGoals), prices, team)
      case Failure(e) => Failure(e)
      case Success(report) =>
        match team.formatter(report)
        case Failure(e) => Failure(e)
        case Success(text) => Success(RunReport(text, report))
  }

  method Run(inputs: Inputs, prices: PortfolioMetrics.PriceLookup, team: Team) returns (r: Result<RunOutput, string>)
    ensures r == RunOf(inputs, prices, team)
  {
    if inputs.portfolio.None? {
      return Success(RunError(PortfolioRequired));
    }
    var goals := inputs.goals.GetOr(DefaultGoals);
    var report := GenerateFinancialReport(inputs.portfolio.value, goals, prices, team);
    if report.Failure? {
      return Failure(report.error);
    }
    var text := team.formatter(report.value);
    if text.Failure? {
      return Failure(text.error);
    }
    r := Success(RunReport(text.value, report.value));
  }

  /** Without goals the run asks for advice on retirement, a home purchase
      and aggressive growth, in that order. */
  lemma DefaultGoalsUsed(p: PortfolioInput, prices: PortfolioMetrics.PriceLookup, team: Team)
    requires RunOf(Inputs(Some(p), None), prices, team).Success?
    ensures RunOf(Inputs(Some(p), None), prices, team) == RunOf(Inputs(Some(p), Some(DefaultGoals)), prices, team)
    ensures exists advice :: (Get(RunOf(Inputs(Some(p), None), prices, team).value.rawData, "investment_advice") == Some(Obj(advice)) &&
      Keys(advice) == ["retirement", "home_purchase", "aggressive_growth"])
  {
    ReportSections(p, DefaultGoals, prices, team);
    DefaultGoalsDistinct();
    AdviceKeysInOrder(DefaultGoals, p.data, team.advisor, []);
  }
}

=== FILE: wrappers.dfy ===
/** Optional values and fallible results, used for lookups that may miss and
    for the exceptions the source raises. */
module Wrappers {

  datatype Option<+T> = None | Some(value: T) {
    function GetOr(default: T): T {
      match this
      case Some(v) => v
      case None => default
    }
  }

  datatype Result<+R, +E> = Success(value: R) | Failure(error: E)
}
